=== FILE: README.md ===
# Genealogy candidate ranking, FamilySearch adapters and MCP helpers in Dafny

This project models the core of a genealogy search application written in TypeScript. The
application finds FamilySearch persons that match a query (a name, a birth-year window and a
birth place). It scores and ranks the candidates and explains each score with short "chips".
Around that engine sit the adapters that turn FamilySearch JSON responses into persons,
places, pedigrees and hint counts. The model also covers a few helpers of the MCP server and
the expiry rule of the signed-cookie session.

One module models each source file:

| module | file |
|---|---|
| `Normalization` | src/services/normalization.ts: `normalizeName`, `nameVariantMatch`, `placeMatchScore` |
| `WebNormalization` | web/src/services/normalization.ts: the older, structured-only `placeMatchScore` |
| `Ranking` | src/services/ranking.ts: weights, `dateOverlapScore`, `relativesOverlapScore`, `rankCandidates` |
| `GedcomUtils` | src/adapters/familysearch/utils.ts |
| `SearchAdapter` | src/adapters/familysearch/searchAdapter.ts |
| `PedigreeAdapter` | src/adapters/familysearch/pedigreeAdapter.ts |
| `HintsAdapter` | src/adapters/familysearch/hintsAdapter.ts |
| `PlaceAdapter` | src/adapters/familysearch/placeAdapter.ts |
| `MockPlaceAdapter`, `MockSearchAdapter` | src/adapters/mock/mockPlaceAdapter.ts, mockSearchAdapter.ts |
| `McpServer` | src/mcp/server.ts: `isInitialize`, the `fs.person_relatives` loop, `handleToolError` |
| `Session` | src/lib/session.ts: `isTokenExpired`, `clearAuth` |

Shared modules hold the vocabulary:

- `Wrappers`: `Option` and `Result`.
- `Domain`: the records of src/domain/types.ts, the error a FamilySearch call throws, and the outcome of a call.
- `Json`: untyped JSON bodies with `?.`, `??`, truthiness and `String(x)`.
- `Text`: JavaScript string operations, decimal printing and parsing, and stand-ins for the Unicode operations.
- `Uri`: `encodeURIComponent`.
- `OrderedMap`: a JavaScript `Map`, kept as a list of pairs in insertion order.
- `Seqs`: `filter`, `find`, `slice(0, n)`, and the Set round trip `Array.from(new Set(xs).add(x))`.

Modelling conventions:

- **Scores** are exact `real`s.
- **JavaScript truthiness** is explicit. `YearGiven` and `TextGiven` say when an optional year or string is truthy: year `0` and `""` count as absent.
- **Upstream HTTP responses** are parameters of type `Fetch<Value>`. A value is either the parsed body or the error the client threw.
- **The clock** is a parameter `now`.
- **Fixture files** of the mock adapters are parameters.
- **`mapGedcomPerson`** is a function parameter (`PersonMapper`) of the loops that call it.
- **Imperative code becomes methods.** Each loop of the source is a Dafny `method` with a `while` loop. Each method is proved equal to a specification function, and the properties are proved about that function. `clearAuth` changes a field of a session object, so the session is a class.
- **Sorting.** The in-place sort of `rankCandidates` is an insertion sort on an array (`Ranking.SortInPlace`). It is proved equal to a stable, functional insertion sort.

## Model

| member | source | states |
|---|---|---|
| Normalization.NormalizeName | src/services/normalization.ts:3-11 | the result uses only `a`-`z` and single spaces, with no space at either end, whatever the input |
| Normalization.Canonical | src/services/normalization.ts:8-10 | masking non-letters, collapsing white-space runs and trimming yields a normal name |
| Normalization.MaskNonLetters | src/services/normalization.ts:8 | every character that is neither a lower-case letter nor white space becomes a space, length kept |
| Normalization.NormalizeNameIdempotent | src/services/normalization.ts:3-11 | normalising a normalised name changes nothing |
| Normalization.FoldingFixesNormalName | src/services/normalization.ts:5-7 | lower-casing, NFD and diacritic stripping leave a normal name unchanged |
| Normalization.CanonicalFixed | src/services/normalization.ts:8-10 | the mask, collapse and trim steps leave a normal name unchanged |
| Normalization.Tokens | src/services/normalization.ts:18-19 | the token set of `split(' ')` is never empty |
| Normalization.Jaccard | src/services/normalization.ts:20-22 | the ratio lies in [0,1] and is 1 exactly when the two token sets are equal |
| Normalization.NameVariantMatch | src/services/normalization.ts:13-23 | in [0,1]; 1 whenever both names normalise alike; 1 exactly when the token sets agree |
| Normalization.NameVariantMatchSymmetric | src/services/normalization.ts:13-23 | swapping the two names does not change the score |
| Normalization.EmptyTokensDisjoint | src/services/normalization.ts:18-22 | an empty name has the single token `""`, which no non-empty normal name shares, so the Jaccard ratio is 0 |
| Normalization.NameVariantMatchEmptyAgainstNonEmpty | src/services/normalization.ts:18-22 | an empty normalised name against a non-empty one scores 0; the `: 0` branch is never needed |
| Normalization.PlaceText | src/services/normalization.ts:46-47 | the text side prefers the given text over the place's display name, lower-cased, else empty |
| Normalization.PlaceWords | src/services/normalization.ts:52-53 | every word is non-empty and holds no comma or white space |
| Normalization.PlaceMatchScore | src/services/normalization.ts:32-61 | the score is one of 0, 0.5, 0.6, 0.8, 1; equal ids give 1; different ids with a shared jurisdiction give 0.6; containment gives 0.8, a shared word 0.5; the reason is absent exactly when the score is 0 |
| Normalization.PlaceMatchScoreSymmetric | src/services/normalization.ts:32-61 | swapping query and candidate does not change the score |
| Normalization.SameTextScoresHigh | src/services/normalization.ts:48-50 | the same non-empty text on both sides scores at least 0.6 |
| WebNormalization.PlaceMatchScore | web/src/services/normalization.ts:25-33 | a missing place gives 0 with no reason; equal ids 1; a shared jurisdiction 0.6; otherwise 0.3; with both places the score is at least 0.3 and a reason is present |
| WebNormalization.AgreesOnStructuredRungs | web/src/services/normalization.ts:27-31 | on equal ids or a shared jurisdiction the web rule and the main rule give the same result |
| Ranking.DefaultWeightsNormalised | src/services/ranking.ts:11 | the weights are non-negative and sum to 1; sub-scores in [0,1] give a total in [0,1]; all-perfect gives exactly 1 |
| Ranking.DateOverlapScore | src/services/ranking.ts:13-21 | no bound given: 0 and no reason; bound but no birth year: 0 with its reason; 1 exactly inside the ±2 window; 0.2 exactly when no bound test passes |
| Ranking.DateBothBoundsAtLeastPartial | src/services/ranking.ts:17-18 | with both bounds given and `from <= to`, any birth year scores at least 0.6 because the `from` test also fires |
| Ranking.RelativeWeight | src/services/ranking.ts:31-38 | an id match adds 0.4; otherwise a name match of at least 0.7 adds 0.25; otherwise nothing |
| Ranking.RelativeChip | src/services/ranking.ts:34-37 | the chip is the label with a check mark for 0.4, with a tilde for 0.25, none otherwise |
| Ranking.Overlaps | src/services/ranking.ts:26-39 | the closure adds the weight to the running sum and appends the chip |
| Ranking.RelativesOverlapScore | src/services/ranking.ts:23-44 | the three calls and the cap give `RelativesScore`, which lies in [0,1], with no reason exactly when the score is 0 |
| Ranking.RelativesScore | src/services/ranking.ts:43 | the score lies in [0,1]; the reason is absent exactly when the score is 0 |
| Ranking.RelativesScoreEmptyQuery | src/services/ranking.ts:53-68 | with the empty query person the relatives term is 0 with no reason |
| Ranking.NameChips | src/services/ranking.ts:57-58 | "Nome ✓" appears exactly when the name score is at least 0.99, "Variantes ✓" exactly when it lies in [0.6, 0.99) |
| Ranking.ReasonChips | src/services/ranking.ts:65-69 | a reason is pushed only when it is a non-empty string |
| Ranking.CandidatePlaceText | src/services/ranking.ts:63 | the candidate text is the primary place's display name, else the primary place text |
| Ranking.Evaluate | src/services/ranking.ts:54-73 | one candidate keeps its person and gets a score in [0,1] |
| Ranking.ExplanationsOrder | src/services/ranking.ts:55-69 | the chips come in the order name, place, date, relatives, at most three of them when relatives give none |
| Ranking.EvaluateExplanations | src/services/ranking.ts:55-69 | a candidate's explanations are the name chip, then the place and date reasons |
| Ranking.ScoreCandidate | src/services/ranking.ts:54-73 | the per-candidate pushes build the same candidate as `Evaluate` |
| Ranking.PushReason | src/services/ranking.ts:65 | `if (pr) explanations.push(pr)` appends exactly the reason chips |
| Ranking.QueryPlace | src/services/ranking.ts:52 | no query place id or no resolver means no query place |
| Ranking.EvaluateAllAt | src/services/ranking.ts:54 | the map keeps one scored entry per input person, in input order |
| Ranking.EvaluateAllPersons | src/services/ranking.ts:54 | the persons of the mapped list are the input persons |
| Ranking.InsertByScoreSorted | src/services/ranking.ts:76 | inserting into a list sorted by non-increasing score keeps it sorted |
| Ranking.InsertByScorePermutation | src/services/ranking.ts:76 | insertion adds exactly the new entry |
| Ranking.InsertByScoreStable | src/services/ranking.ts:76 | the new entry goes after every entry of equal score |
| Ranking.SortByScore | src/services/ranking.ts:76 | the sorted list has the same length and non-increasing scores |
| Ranking.SortByScorePermutation | src/services/ranking.ts:76 | sorting is a permutation |
| Ranking.SortByScorePersons | src/services/ranking.ts:76 | the sorted list holds the same persons as often as before |
| Ranking.SortByScoreStable | src/services/ranking.ts:76 | for every score, the entries with that score keep their input order |
| Ranking.InsertLast | src/services/ranking.ts:76 | one insertion step on the array inserts the element into the sorted prefix and leaves the rest alone |
| Ranking.SortInPlace | src/services/ranking.ts:76 | sorting the array in place yields the stable sort of its old contents |
| Ranking.RankCandidates | src/services/ranking.ts:46-79 | one entry per candidate, a permutation of the candidates, sorted by non-increasing score, equal scores in input order, every score in [0,1] |
| GedcomUtils.NormalizedRef | src/adapters/familysearch/utils.ts:174-185 | absent or empty input gives none; a result is non-empty, holds no `/`, and holds no `:` unless it ends with one |
| GedcomUtils.NormalizeRef | src/adapters/familysearch/utils.ts:174-185 | the step-by-step reassignments compute `NormalizedRef` |
| GedcomUtils.SliceRef | src/adapters/familysearch/utils.ts:177-184 | the slicing steps after the trim compute `RefOfTrimmed` |
| GedcomUtils.DropHash | src/adapters/familysearch/utils.ts:177 | one leading `#` is removed, and nothing else changes |
| GedcomUtils.DropThroughSlash | src/adapters/familysearch/utils.ts:178-179 | the value is cut to what follows its last `/`, and is unchanged without one |
| GedcomUtils.DropThroughColon | src/adapters/familysearch/utils.ts:180-183 | the value is cut to what follows its last `:`, unless that colon is the final character |
| GedcomUtils.RefOfTrimmed | src/adapters/familysearch/utils.ts:177-184 | a result is non-empty, holds no `/`, and holds no `:` unless it ends with one |
| GedcomUtils.AfterLastSlash | src/adapters/familysearch/utils.ts:178-179 | the text after the last `/` holds no `/` |
| GedcomUtils.AfterLastColon | src/adapters/familysearch/utils.ts:180-183 | a trailing colon is never sliced, so no `:` remains unless the text ends with one |
| GedcomUtils.NormalizeRefPlain | src/adapters/familysearch/utils.ts:174-185 | a plain id comes back unchanged |
| GedcomUtils.NormalizeRefHash | src/adapters/familysearch/utils.ts:177 | one leading `#` is stripped |
| GedcomUtils.NormalizeRefPath | src/adapters/familysearch/utils.ts:178-179 | a path ending in `/id` gives `id` |
| GedcomUtils.YearAt | src/adapters/familysearch/utils.ts:167 | a match at a position is an optional `-` and four digits, and lies in [-9999, 9999] |
| GedcomUtils.FirstYearAt | src/adapters/familysearch/utils.ts:167 | the first position where the pattern matches, or -1 |
| GedcomUtils.ExtractYearFromString | src/adapters/familysearch/utils.ts:163-172 | absent or empty input gives none; otherwise the first match of the pattern, none when nothing matches; always in [-9999, 9999] |
| GedcomUtils.ExtractYearFromPrinted | src/adapters/familysearch/utils.ts:163-172 | a printed four-digit year after digit-free text is read back |
| GedcomUtils.LifespanSide | src/adapters/familysearch/utils.ts:143-144 | a truthy year prints as its decimal, a falsy one as `…` |
| GedcomUtils.BuildLifespan | src/adapters/familysearch/utils.ts:141-146 | none exactly when both years are falsy |
| GedcomUtils.LifespanParts | src/adapters/familysearch/utils.ts:141-146 | the text splits at `–` into the two sides, each side reads back as its year, and `…` marks exactly a falsy year |
| GedcomUtils.GenderMapLookup | src/adapters/familysearch/utils.ts:3-7 | the object's own keys `male`, `female` and `unknown` give a gender; the inherited `constructor` and `__proto__` give an inherited member; any other text gives none |
| GedcomUtils.MapGender | src/adapters/familysearch/utils.ts:132-139 | falsy input gives none; any input whose lower-cased text contains `male` gives Male |
| GedcomUtils.MapGenderNeverFemale | src/adapters/familysearch/utils.ts:135-136 | the Female branch is unreachable |
| GedcomUtils.MapGenderFallbackInheritedOnly | src/adapters/familysearch/utils.ts:138 | the table fallback never finds an own key; it finds an inherited member exactly for `constructor` and `__proto__` |
| GedcomUtils.MapGenderInheritedOnly | src/adapters/familysearch/utils.ts:132-139 | `mapGender` returns an inherited member only for a truthy input whose lower-cased text is `constructor` or `__proto__` |
| GedcomUtils.MapGenderFemaleInput | src/adapters/familysearch/utils.ts:135 | the input "Female" is mapped to Male |
| GedcomUtils.MapGenderConstructorInput | src/adapters/familysearch/utils.ts:138 | a text that lower-cases to "constructor" returns the inherited `Object` constructor, not a gender |
| GedcomUtils.OwnGenderLookup | src/adapters/familysearch/utils.ts:3-7 | an own-key lookup finds a gender exactly where the table has an own entry, and the same gender |
| GedcomUtils.MapGenderIntended | src/adapters/familysearch/utils.ts:132-139 | with `female` tested before `male` and only own keys looked up, female texts give Female, other male texts give Male, and the result is always a gender or none |
| GedcomUtils.MapGenderIntendedDistinguishes | src/adapters/familysearch/utils.ts:132-139 | the corrected mapping maps "Female" to Female and "Male" to Male |
| GedcomUtils.MapGenderIntendedConstructor | src/adapters/familysearch/utils.ts:138 | the corrected mapping gives no gender for a text that lower-cases to "constructor" |
| GedcomUtils.FactIndex | src/adapters/familysearch/utils.ts:150-153 | the first fact whose lower-cased type ends with the suffix, or -1 |
| GedcomUtils.FindFact | src/adapters/familysearch/utils.ts:148-154 | a non-array gives undefined; otherwise the first matching fact, undefined if none |
| GedcomUtils.Slugify | src/adapters/familysearch/utils.ts:236-243 | the slug uses only `a`-`z`, digits and `-`, has no `-` at either end and never `--` |
| GedcomUtils.SlugifyIdempotent | src/adapters/familysearch/utils.ts:236-243 | slugifying a slug changes nothing |
| GedcomUtils.IdentifierFrom | src/adapters/familysearch/utils.ts:122-129 | the id of the first entry whose string text normalises to one, with no earlier entry giving one; none exactly when no entry does; non-empty and free of `/` |
| GedcomUtils.ExtractIdentifier | src/adapters/familysearch/utils.ts:120-130 | the early-return loop computes `IdentifierOf`: none for a non-array, else `IdentifierFrom` |
| GedcomUtils.NameFromNames | src/adapters/familysearch/utils.ts:201-214 | the text of the first entry offering one (its value or full text, else its forms), with no earlier entry offering any; non-empty; none exactly when no entry offers one |
| GedcomUtils.GetNameFromNames | src/adapters/familysearch/utils.ts:201-214 | the nested early-return loops compute `NameFromNames` |
| GedcomUtils.FormsText | src/adapters/familysearch/utils.ts:207-210 | the full text or value of the first form that has one, with no earlier form having any; non-empty; none exactly when no form has one |
| GedcomUtils.FirstPresent | src/adapters/familysearch/utils.ts:191-197 | a `??` chain over keys gives the first non-nullish field, nullish only when all are |
| GedcomUtils.PlaceIdOf | src/adapters/familysearch/utils.ts:92-97 | a place id from the ref, the identifiers or a slug of the first name never holds `/` |
| GedcomUtils.JurisdictionIds | src/adapters/familysearch/utils.ts:106-110 | at most one id per entry, each non-empty and free of `/` |
| GedcomUtils.JurisdictionIdsExact | src/adapters/familysearch/utils.ts:106-110 | every id comes from an entry, every entry's id is kept, and no entry is dropped exactly when every entry gives an id |
| GedcomUtils.JurisdictionIdsAppend | src/adapters/familysearch/utils.ts:108-109 | the ids follow the entries' order: the path of two runs of entries is the first run's path followed by the second's, and one entry gives its id or nothing |
| GedcomUtils.PlaceTypeOf | src/adapters/familysearch/utils.ts:115 | present exactly for a truthy type, and then the text after its last `/`, or the whole type when it has none |
| Text.SplitOnLastPiece | src/adapters/familysearch/utils.ts:115 | the last piece of `split` is a suffix that is the whole text or follows a separator |
| GedcomUtils.MapGedcomPlace | src/adapters/familysearch/utils.ts:90-118 | none exactly when the raw place is falsy or has neither id nor name; otherwise id and display name fall back to each other, the type is `PlaceTypeOf` of the record, and the jurisdiction path is exactly `JurisdictionIds` of the `jurisdiction` array, present only when there is one |
| GedcomUtils.CollectedPlaces | src/adapters/familysearch/utils.ts:81-86 | one entry per id, each place stored under its own id |
| GedcomUtils.CollectedPlacesLastWins | src/adapters/familysearch/utils.ts:84 | the place stored for an id is the last mapped place with that id |
| GedcomUtils.CollectPlacesFromGedcom | src/adapters/familysearch/utils.ts:74-88 | the loop fills the map exactly as `CollectedPlaces` over `places`, else `place` |
| GedcomUtils.MapPersonRef | src/adapters/familysearch/utils.ts:216-234 | none exactly when the raw value is falsy or has neither id nor name; otherwise id and name fall back to each other |
| GedcomUtils.ExtractResourceId | src/adapters/familysearch/utils.ts:187-199 | falsy gives none; a string is normalised as a ref; a result is non-empty and free of `/` |
| GedcomUtils.ExtractResourceIdOfReference | src/adapters/familysearch/utils.ts:190-198 | a `resource` of `#id` gives `id` |
| SearchAdapter.SplitName | src/adapters/familysearch/searchAdapter.ts:101-111 | the surname never holds a space |
| SearchAdapter.SplitNameBlank | src/adapters/familysearch/searchAdapter.ts:103 | both parts are empty exactly for a blank name |
| SearchAdapter.SplitNameSingle | src/adapters/familysearch/searchAdapter.ts:105-106 | a single token becomes the given name with an empty surname |
| SearchAdapter.SplitNameRejoin | src/adapters/familysearch/searchAdapter.ts:102-110 | with two or more tokens both parts are non-empty, and given name, space, surname is the trimmed, collapsed name |
| SearchAdapter.CollapsedSingleSpaced | src/adapters/familysearch/searchAdapter.ts:102 | trimming and collapsing leaves single spaces only, none at the ends; empty exactly for a blank name |
| SearchAdapter.SetParam | src/adapters/familysearch/searchAdapter.ts:75-97 | `set` gives the key the value, keeps every other key, and keeps a key's first position |
| SearchAdapter.SetNameParams | src/adapters/familysearch/searchAdapter.ts:78-84 | given name and surname are set only when non-empty, and `name` is the raw name in both branches |
| SearchAdapter.SetBirthDate | src/adapters/familysearch/searchAdapter.ts:85-91 | `from-to` with both years, else whichever year is given, else nothing |
| SearchAdapter.SetBirthPlace | src/adapters/familysearch/searchAdapter.ts:92-96 | a given place id is set, normalised when possible; otherwise a given place text |
| SearchAdapter.BuildSearchQuery | src/adapters/familysearch/searchAdapter.ts:74-99 | the query has distinct keys, each with a value |
| SearchAdapter.QueryForFixed | src/adapters/familysearch/searchAdapter.ts:76-97 | `count` is 20, `name` is the raw name and `order` is `lastModified` |
| SearchAdapter.QueryForOrder | src/adapters/familysearch/searchAdapter.ts:75-97 | `count` comes first and `order` last |
| SearchAdapter.QueryForNames | src/adapters/familysearch/searchAdapter.ts:78-79 | given name and surname appear exactly when non-empty |
| SearchAdapter.QueryForBirthDate | src/adapters/familysearch/searchAdapter.ts:85-91 | the birth date follows the three cases and is omitted when neither year is given |
| SearchAdapter.QueryForPlaceId | src/adapters/familysearch/searchAdapter.ts:92-93 | a place id wins and `birthPlace` is not set |
| SearchAdapter.QueryForPlaceText | src/adapters/familysearch/searchAdapter.ts:94-95 | without a place id, `birthPlace` is the text when given, and `birthPlaceId` is not set |
| SearchAdapter.BuildPersonUrl | src/adapters/familysearch/searchAdapter.ts:113-117 | the URL starts with the person-details address and its tail is percent-encoded; a safe id is kept as is |
| SearchAdapter.KeepFirst | src/adapters/familysearch/searchAdapter.ts:39-41 | the cache keeps the place it already had for an id, otherwise takes the new one |
| SearchAdapter.MergeNewPlaces | src/adapters/familysearch/searchAdapter.ts:39-41 | the `forEach` computes `KeepFirst` |
| SearchAdapter.PrimaryPerson | src/adapters/familysearch/searchAdapter.ts:44-45 | a person flagged `principal === true` is preferred, else the first |
| SearchAdapter.WithPersonUrl | src/adapters/familysearch/searchAdapter.ts:50-52 | a missing profile URL is filled in; nothing else changes |
| SearchAdapter.SkippedEntry | src/adapters/familysearch/searchAdapter.ts:37-43 | an entry without a document or without persons adds no person |
| SearchAdapter.MappedEntry | src/adapters/familysearch/searchAdapter.ts:46-53 | a mapped primary person is appended, with its URL |
| SearchAdapter.CollectEntriesAppends | src/adapters/familysearch/searchAdapter.ts:34-54 | persons are only appended, at most one per entry, in entry order |
| SearchAdapter.CollectEntriesUrls | src/adapters/familysearch/searchAdapter.ts:50-53 | every collected person has a profile URL |
| SearchAdapter.CollectEntriesKeepsCached | src/adapters/familysearch/searchAdapter.ts:39-41 | the first place cached for an id is never replaced |
| SearchAdapter.SearchPersons | src/adapters/familysearch/searchAdapter.ts:23-65 | a failed request is rethrown, wrapped unless it is an auth error; otherwise the collected persons ranked: same persons, sorted by non-increasing score |
| PedigreeAdapter.GedcomOf | src/adapters/familysearch/pedigreeAdapter.ts:82 | a non-object body is its own document |
| PedigreeAdapter.FreshNodes | src/adapters/familysearch/pedigreeAdapter.ts:88-93 | the keys are the ids of the mapped persons, each node holds a person with that id and empty lists |
| PedigreeAdapter.FreshNodesLastWins | src/adapters/familysearch/pedigreeAdapter.ts:91-92 | a later person with the same id overwrites the earlier node |
| PedigreeAdapter.PersonsMatchNodes | src/adapters/familysearch/pedigreeAdapter.ts:91-92 | the persons map and the nodes hold the same person for every id |
| PedigreeAdapter.StorePersons | src/adapters/familysearch/pedigreeAdapter.ts:88-93 | the loop fills the persons map and the nodes as the specification functions say |
| PedigreeAdapter.ExtractPersonsAndBuildNodes | src/adapters/familysearch/pedigreeAdapter.ts:81-96 | persons and nodes come from the persons of the document, else of the body, mapped with its places |
| PedigreeAdapter.ExtractRelationships | src/adapters/familysearch/pedigreeAdapter.ts:98-103 | the document's relationships, followed by the body's own when it has an array |
| PedigreeAdapter.RelationshipsTwice | src/adapters/familysearch/pedigreeAdapter.ts:99-101 | when the document is the body, its relationships appear twice |
| PedigreeAdapter.LinkOf | src/adapters/familysearch/pedigreeAdapter.ts:55-60 | a link exists exactly for a `parentchild` type whose two person ids both resolve |
| PedigreeAdapter.AddParent | src/adapters/familysearch/pedigreeAdapter.ts:62-66 | the parent joins the child's list only when the child node exists; nothing else changes |
| PedigreeAdapter.AddChild | src/adapters/familysearch/pedigreeAdapter.ts:67-71 | the child joins the parent's list only when the parent node exists; nothing else changes |
| PedigreeAdapter.LinkStep | src/adapters/familysearch/pedigreeAdapter.ts:54-72 | one relationship keeps the node keys and persons |
| PedigreeAdapter.LinkStepLists | src/adapters/familysearch/pedigreeAdapter.ts:62-71 | one link adds exactly its parent to an existing child and its child to an existing parent |
| PedigreeAdapter.LinkStepDistinct | src/adapters/familysearch/pedigreeAdapter.ts:63-70 | lists stay free of repetitions |
| PedigreeAdapter.LinkStepPrefix | src/adapters/familysearch/pedigreeAdapter.ts:63-70 | lists only grow at the end, so first-insertion order is kept |
| PedigreeAdapter.LinkAll | src/adapters/familysearch/pedigreeAdapter.ts:54-72 | the loop never adds or removes node keys or changes persons |
| PedigreeAdapter.LinkAllLists | src/adapters/familysearch/pedigreeAdapter.ts:54-72 | after the loop, `b` is a parent of `a` exactly when `a` has a node and some relationship links them |
| PedigreeAdapter.LinkAllDistinct | src/adapters/familysearch/pedigreeAdapter.ts:63-70 | after the loop every list is free of repetitions |
| PedigreeAdapter.LinkAllPrefix | src/adapters/familysearch/pedigreeAdapter.ts:63-70 | after the loop every list starts with its old entries, in order |
| PedigreeAdapter.LinkAllTwice | src/adapters/familysearch/pedigreeAdapter.ts:54-72 | running the relationships twice gives the same nodes as once |
| PedigreeAdapter.TwiceListedHarmless | src/adapters/familysearch/pedigreeAdapter.ts:98-103 | the duplicated relationships of a body that is its own document change nothing |
| PedigreeAdapter.BuildPedigreeResult | src/adapters/familysearch/pedigreeAdapter.ts:46-79 | root id and generations come back unchanged; the nodes are the fresh nodes linked by the relationships |
| PedigreeAdapter.PedigreeShape | src/adapters/familysearch/pedigreeAdapter.ts:46-96 | the result's keys are the mapped ids, lists are free of repetitions, and each list holds exactly the linked ids |
| HintsAdapter.ExtractEntries | src/adapters/familysearch/hintsAdapter.ts:47-53 | `entries`, then `matches`, then `content.entries`, else empty |
| HintsAdapter.CategoryTerm | src/adapters/familysearch/hintsAdapter.ts:62-63 | a string category gives its lower-cased text when non-empty |
| HintsAdapter.TermsHold | src/adapters/familysearch/hintsAdapter.ts:61-64 | every category with a term contributes it |
| HintsAdapter.TermsFrom | src/adapters/familysearch/hintsAdapter.ts:61-64 | every term comes from some category |
| HintsAdapter.CollectTerms | src/adapters/familysearch/hintsAdapter.ts:60-64 | the loop fills the lookup set with exactly the terms |
| HintsAdapter.FallbackCategory | src/adapters/familysearch/hintsAdapter.ts:71-78 | "tree" only from the first hint's type or from a summary holding `árvore` or `tree` |
| HintsAdapter.TreeCategoryWins | src/adapters/familysearch/hintsAdapter.ts:66-67 | a term containing `tree` decides "tree", whatever else is there |
| HintsAdapter.RecordCategoryNext | src/adapters/familysearch/hintsAdapter.ts:68 | without a `tree` term, a term containing `record` decides "record" |
| HintsAdapter.UndecidedCategoryFallsBack | src/adapters/familysearch/hintsAdapter.ts:71-78 | without a deciding term, the hint type, then the summary, then "record" decide |
| HintsAdapter.ExtractCategory | src/adapters/familysearch/hintsAdapter.ts:55-79 | the method computes `CategoryOf` |
| HintsAdapter.CountsCover | src/adapters/familysearch/hintsAdapter.ts:19-23 | every entry is counted exactly once: record plus tree counts equal the number of entries |
| HintsAdapter.CountCategories | src/adapters/familysearch/hintsAdapter.ts:16-23 | the counters end as the numbers of tree and record entries |
| HintsAdapter.Tally | src/adapters/familysearch/hintsAdapter.ts:19-22 | one turn of the loop raises exactly the counter of the entry's category, keeping both counters equal to the counts over the entries seen |
| HintsAdapter.BuildHintsUrl | src/adapters/familysearch/hintsAdapter.ts:81-83 | the URL is the sources page, the percent-encoded id and `?active=hints` |
| HintsAdapter.GetHintSummary | src/adapters/familysearch/hintsAdapter.ts:9-38 | a failed request is rethrown; otherwise the id is the normalised ref, the counts are per category, the total is the number of entries and the URL is built from the id |
| PlaceAdapter.EntryPlaces | src/adapters/familysearch/placeAdapter.ts:20-22 | each entry's places are keyed by their own ids |
| PlaceAdapter.FirstPlacesDistinct | src/adapters/familysearch/placeAdapter.ts:23-28 | the kept places have distinct ids |
| PlaceAdapter.FirstPlacesFirst | src/adapters/familysearch/placeAdapter.ts:24 | the place kept for an id is its first occurrence |
| PlaceAdapter.FirstPlacesComplete | src/adapters/familysearch/placeAdapter.ts:23-28 | every id seen has a kept place |
| PlaceAdapter.FirstPlacesOrder | src/adapters/familysearch/placeAdapter.ts:19-29 | kept places follow the order of first appearance |
| PlaceAdapter.KeptPlaces | src/adapters/familysearch/placeAdapter.ts:19-30 | the places of exactly the first 25 distinct ids to appear (all of them when fewer): a prefix of the first-occurrence places, distinct ids, each with its first place, in order of first appearance, and every id left out appears after every id kept |
| PlaceAdapter.KeepUnseen | src/adapters/familysearch/placeAdapter.ts:23-28 | the `forEach` keeps the seen set and result as the specification functions say |
| PlaceAdapter.VisitEntries | src/adapters/familysearch/placeAdapter.ts:19-29 | the loop over entries computes the first places of all entries |
| PlaceAdapter.PlacesOfEntry | src/adapters/familysearch/placeAdapter.ts:20-22 | an entry's document gives its collected places |
| PlaceAdapter.SearchPlaces | src/adapters/familysearch/placeAdapter.ts:9-37 | a blank query gives no places before any request; a failed request is rethrown wrapped; otherwise the kept places |
| PlaceAdapter.RequestedId | src/adapters/familysearch/placeAdapter.ts:43 | the normalised id, else the id itself |
| PlaceAdapter.WithId | src/adapters/familysearch/placeAdapter.ts:60 | the spread replaces `id` and keeps every other field |
| PlaceAdapter.ListedPlace | src/adapters/familysearch/placeAdapter.ts:59-62 | a truthy non-string id in the listed place yields none |
| PlaceAdapter.ListedPlaceKeepsId | src/adapters/familysearch/placeAdapter.ts:60 | the listed place keeps its own plain id |
| PlaceAdapter.MappedOwnId | src/adapters/familysearch/utils.ts:92-94 | a truthy record whose own id normalises to an id maps to a place with that id |
| PlaceAdapter.SelectPlace | src/adapters/familysearch/placeAdapter.ts:52-64 | the place keyed by the requested id, else the first collected place, else, when `data.places` is a non-empty array, exactly `ListedPlace` of its first record, else none |
| PlaceAdapter.GetPlaceById | src/adapters/familysearch/placeAdapter.ts:39-71 | an empty id gives undefined; only an auth error fails; other errors give undefined; otherwise the selected place |
| MockPlaceAdapter.SearchPlaces | src/adapters/mock/mockPlaceAdapter.ts:15-18 | exactly the first 10 places whose name matches case-insensitively (all of them when fewer match), in list order |
| MockPlaceAdapter.SearchPlacesEmptyQuery | src/adapters/mock/mockPlaceAdapter.ts:16-17 | an empty query lists the first 10 places |
| MockPlaceAdapter.ResolvePlaceSync | src/adapters/mock/mockPlaceAdapter.ts:24-26 | the first place with exactly that id, none when no place has it |
| MockPlaceAdapter.GetPlaceById | src/adapters/mock/mockPlaceAdapter.ts:19-21 | always agrees with `resolvePlaceSync` |
| MockSearchAdapter.Prefiltered | src/adapters/mock/mockSearchAdapter.ts:18-19 | exactly the matching persons, each as often as it occurs, in list order |
| MockSearchAdapter.SearchPersons | src/adapters/mock/mockSearchAdapter.ts:15-22 | every candidate matches the query, each match appears as often as in the fixture, sorted by non-increasing score, query place resolved from the fixture |
| McpServer.IsInitialize | src/mcp/server.ts:695-705 | for an array, true exactly when some element's `method` is `initialize`; otherwise true exactly when the body's own `method` is |
| McpServer.EmptyBatchIsNotInitialize | src/mcp/server.ts:697-698 | an empty batch is not an initialisation |
| McpServer.IsInitializeBatch | src/mcp/server.ts:697-698 | a batch initialises exactly when some message in it does |
| McpServer.MapGet | src/mcp/server.ts:474-491 | a lookup gives a stored person, undefined for a missing id |
| McpServer.PersonsMapOf | src/mcp/server.ts:473-474 | building the map fails exactly when `persons` is not a list of non-null values; stored values are listed persons |
| McpServer.RelationshipsOf | src/mcp/server.ts:472-480 | iteration fails exactly when `relationships` is neither absent nor iterable |
| McpServer.ParentsAdded | src/mcp/server.ts:484-492 | parents come only from a child-and-parents relationship whose child is `pid`: the present `parent1`, then `parent2` |
| McpServer.ChildrenAdded | src/mcp/server.ts:493-496 | a child is added exactly when the child is present and is not `pid`; nothing checks that `pid` is a parent |
| McpServer.SpousesAdded | src/mcp/server.ts:500-509 | `pid` as `person1` gives `person2`, `pid` as `person2` gives `person1`, otherwise no spouse |
| McpServer.Visit | src/mcp/server.ts:480-510 | one relationship fails exactly when its type has no `includes`; it adds at most two parents, one spouse and one child |
| McpServer.Classify | src/mcp/server.ts:480-510 | the loop fails exactly when some relationship's type has no `includes` |
| McpServer.ClassifyShape | src/mcp/server.ts:480-510 | the lists grow by at most two parents and one spouse and child per relationship, all from the persons map |
| McpServer.ClassifyStaysFailed | src/mcp/server.ts:480-510 | once the loop has thrown, later relationships change nothing |
| McpServer.NoParentsUnlessChild | src/mcp/server.ts:489-492 | no relationship naming `pid` as child means no parents |
| McpServer.NoSpousesUnlessPartner | src/mcp/server.ts:504-508 | no couple naming `pid` means no spouses |
| McpServer.VisitChildAndParents | src/mcp/server.ts:484-497 | the pushes append exactly the parents and child the relationship adds |
| McpServer.VisitCouple | src/mcp/server.ts:500-509 | the pushes append exactly the spouse the relationship adds |
| McpServer.VisitRelationship | src/mcp/server.ts:481-509 | one loop turn computes `Visit` |
| McpServer.Found | src/mcp/server.ts:520-522 | `filter(Boolean)` keeps, in order, exactly the truthy entries |
| McpServer.RelativesReply | src/mcp/server.ts:512-524 | the text counts the unfiltered lists; the structured lists are the filtered ones |
| McpServer.RelativesTool | src/mcp/server.ts:464-528 | the relatives come back exactly when the request, the map, the iteration and every relationship succeed |
| McpServer.ListedRelativesArePersons | src/mcp/server.ts:474-522 | every listed relative is a truthy member of `persons` |
| McpServer.SummaryCountsMissingPersons | src/mcp/server.ts:516-522 | a parent missing from `persons` is counted in the text but dropped from the list |
| McpServer.OneParentNotFound | src/mcp/server.ts:489-491 | a child relationship with only `parent1` pushes one lookup result |
| McpServer.ClassifyAll | src/mcp/server.ts:480-510 | the `for ... of` loop pushes what `Classify` describes and throws at the first relationship whose type has no `includes` |
| McpServer.PersonRelatives | src/mcp/server.ts:464-528 | the handler computes `RelativesTool` |
| McpServer.AuthCodeText | src/mcp/server.ts:682 | no auth error code is `unexpected_error` |
| McpServer.FormEncode | src/mcp/server.ts:640 | form encoding leaves only safe characters, `+` and `%`, and keeps safe text unchanged |
| McpServer.FormEncodeAppend | src/mcp/server.ts:640 | encoding distributes over concatenation |
| McpServer.LoginUrlForSession | src/mcp/server.ts:638-642 | the URL is the login address with `state=mcp%3A` and the encoded session id, which can hold no `&`, `#`, `=` or space |
| McpServer.HandleToolError | src/mcp/server.ts:672-693 | always an error; an auth error gives its code, its message and the login link; anything else gives `unexpected_error` and no link |
| Session.IsTokenExpired | src/lib/session.ts:51-55 | no account is expired; otherwise expired exactly when less than 60000 ms remain |
| Session.ExpiryIsMonotone | src/lib/session.ts:54 | expired now means expired at every later time |
| Session.FreshTokenOutlivesMargin | src/lib/session.ts:53-54 | a token not expired has at least a minute left |
| Session.AppSession.ClearAuth | src/lib/session.ts:57-59 | the account is forgotten, a pending sign-in is kept, and the session counts as expired at any time |
| Domain.Rethrow | src/adapters/familysearch/searchAdapter.ts:57-63 | an auth error is rethrown unchanged; any other gets the context in front of its message |
| Json.OrElse | src/adapters/familysearch/utils.ts:93-97 | `??` takes the right side exactly when the left is null or undefined |
| Seqs.SetAdd | src/adapters/familysearch/pedigreeAdapter.ts:63-65 | the Set round trip gives a list free of repetitions holding the old entries and the new one, appended when new |
| Uri.EncodeUriComponent | src/adapters/familysearch/searchAdapter.ts:114-116 | the result holds only unreserved characters and `%`; unreserved text is kept |
| Text.JoinSplitOn | src/adapters/familysearch/searchAdapter.ts:104-109 | joining the pieces of a split with the separator gives back the text |
| Text.IntStringRoundTrip | src/adapters/familysearch/utils.ts:143-144 | the decimal text of an integer reads back as that integer |

## Left out

- Unicode `toLowerCase`, `normalize('NFD')` and `\p{Diacritic}` are stand-ins. They handle ASCII and the Latin-1 letters only. The properties of `Normalization.NormalizeName` and `GedcomUtils.Slugify` hold whatever the stand-ins do, because a later step restricts the alphabet.
- Scores are exact reals. IEEE rounding of the weighted sum is not modelled, so a tie or a `>= 0.99` test that rounding would flip is not captured.
- JSON numbers are integers. `String(x)` of a fractional number is not modelled.
- HTTP requests, the FamilySearch client, `resolveClient` and `getFamilySearchContext` are I/O. Each adapter takes the parsed response, or the error the request threw, as a parameter.
- The request URLs and query strings the adapters send are not built, except through the parameter model of `buildSearchQuery`. `URLSearchParams.toString` serialisation is not modelled.
- `getAncestry` and `getDescendancy` only build a request and call `buildPedigreeResult`. They are not modelled, and neither is their `Math.max(1, generations)`.
- `mapGedcomPerson` and `extractYearFromFact` (src/adapters/familysearch/utils.ts:9-72, 156-161) are not part of this model. Loops that call `mapGedcomPerson` take it as a function parameter.
- `PedigreeAdapter.BuildPedigreeResult`: the `nodes` record is a Dafny map keyed by person id, so it holds only own keys. Three behaviours of the plain object are not modelled:
  - the key order of the JavaScript object;
  - a mapped person with id `__proto__`: `nodes[person.id] = …` (src/adapters/familysearch/pedigreeAdapter.ts:92) replaces the prototype of `nodes` with that node instead of adding an own key, so the source returns no `__proto__` key where the model returns one;
  - a relationship naming an id inherited from `Object.prototype` (`constructor`, `toString`, `__proto__` and the like): the tests `nodes[childId]` and `nodes[parentId]` (pedigreeAdapter.ts:62, 67) are truthy for it, and the source writes a `parents` or `children` field onto the inherited value. For `__proto__` that value is `Object.prototype` itself, so every object in the process inherits the field. The model finds no such id in its map and changes nothing.
- `PedigreeAdapter.StorePersons`: the map update stores a person with id `__proto__` under an own key, where the source's `nodes[person.id] = …` sets the prototype of `nodes` instead. This is the second case in the `BuildPedigreeResult` line above.
- `PedigreeAdapter.FreshNodes`: `nodes.Keys == IdsOf(ps)` includes an id `__proto__`, which the source's record does not own. This is the second case in the `BuildPedigreeResult` line above.
- `PedigreeAdapter.PedigreeShape`: "the keys are exactly the mapped ids" holds of the model. For a mapped id `__proto__` it does not hold of the source, and the writes to inherited members are not captured. These are the second and third cases in the `BuildPedigreeResult` line above.
- The mock adapters read `mocks/places.json` and `mocks/persons.json`. Both lists are parameters.
- `McpServer.PersonRelatives`: JavaScript `Map` keys are compared structurally here. JavaScript compares object keys by reference; string ids behave the same either way.
- `McpServer.PersonRelatives`: the TypeError messages a malformed body raises are short stand-in texts, not the engine's exact wording.
- `McpServer.PersonRelatives`: a string `relationships` is iterated by characters in JavaScript. No character has a `type`, so the model treats it as an empty list.
- `McpServer.PersonRelatives`: `resolveClientForSession` (src/mcp/server.ts:644-670) is folded into the response parameter, because it reads the MCP store. Its errors reach the handler as the `FetchFailed` case.
- `McpServer.LoginUrlForSession`: `new URL("/api/auth/login", origin)` is modelled as the origin text followed by the path. It is exact only for an origin that is already in the form `new URL` prints: a lower-case scheme and host, no default port, no path and no trailing slash. `new URL` normalises any other origin, and the model keeps the text as given.
- `McpServer.HandleToolError`: a thrown value is either an auth error or an `Error` with a message. A thrown non-`Error` value is not modelled.
- The rest of src/mcp/server.ts is left out: tool registration, transports and the session maps.
- `getSession`, the cookie options and iron-session sealing in src/lib/session.ts are left out. They are framework I/O.
- `PlaceAdapter.SearchPlaces`: the request asks for `count: '10'`, but the result is cut at 25. The model follows the code and keeps the cut at 25.
- `Ranking.RankCandidates`: the query-person argument of `relativesOverlapScore` is always `{}` in the source. The model proves the general rule once, in `Ranking.RelativesOverlapScore`, then uses the empty query.

- Non-string JSON values are read as absent wherever the source expects a string (`Json.AsString`). The domain records hold strings, as src/domain/types.ts declares, so the source's behaviour on other JSON types is not modelled. The lines below say what that leaves out. A throw listed below would end the whole adapter call (`searchPersons` rethrows it wrapped), and the model carries on instead.
- `GedcomUtils.MapPersonRef`: a non-string `id`, `personId` or name field is kept as it is by the source (`{id: 7}` gives `{id: 7, name: 7}`), but the model reads it as absent. A truthy non-string reference field reaches `normalizeRef`, which throws; the model reads it as absent.
- `GedcomUtils.GetNameFromNames`: a truthy non-string `value`, `fullText` or form text is returned as it is by the source; the model skips it and goes on searching.
- `GedcomUtils.NameFromNames`: the same gap as `GetNameFromNames`; a truthy non-string name text is skipped.
- `GedcomUtils.FormsText`: a truthy non-string `fullText` or `value` of a form is skipped, where the source returns it.
- `GedcomUtils.MapGedcomPlace`: a non-string `display.name`, `fullText` or `names[0].value` is kept as the display name by the source, but the model reads it as absent. The throws of `PlaceIdOf`, `JurisdictionIds` and `PlaceTypeOf` below are not modelled either.
- `GedcomUtils.PlaceIdOf`: a truthy non-string `raw.id` makes `normalizeRef` throw, and a truthy non-string `names[0].value` makes `slugify` throw; the model falls through to the next candidate.
- `GedcomUtils.JurisdictionIds`: a truthy non-string `resourceId` or `resource` makes `normalizeRef` throw; the model drops that entry.
- `GedcomUtils.PlaceTypeOf`: a truthy non-string `type` makes `raw.type.split` throw; the model gives no type.
- `GedcomUtils.ExtractResourceId`: a truthy non-string reference field of an object entry makes `normalizeRef` throw; the model gives none.

## Findings

| source | as written | input that shows it | evidently intended | confidence | as-written member | corrected member |
|---|---|---|---|---|---|---|
| src/adapters/familysearch/utils.ts:135-136 | `mapGender` tests `includes("male")` before `includes("female")` | `"Female"` gives `"Male"`, since `"female"` contains `"male"` | test `female` first, so a female input maps to Female | high, not executed | GedcomUtils.MapGenderFemaleInput | GedcomUtils.MapGenderIntendedDistinguishes |
| src/adapters/familysearch/utils.ts:138 | `GENDER_MAP[str]` reads a plain object literal, so it also finds members inherited from `Object.prototype` | `"constructor"` gives the `Object` function and `"__proto__"` gives `Object.prototype`; neither is a gender | look up only the map's own keys, so these texts give undefined | high, not executed | GedcomUtils.MapGenderConstructorInput | GedcomUtils.MapGenderIntendedConstructor |

=== FILE: domain.dfy ===
/**
 * The genealogy domain: places, persons and the values the engine hands back, together with
 * JavaScript's notion of a value that is "given" (truthy).
 */
module Domain {
  import opened Wrappers

  type Id = string

  datatype Place = Place(
    id: Id,
    displayName: string,
    placeType: Option<string>,
    jurisdictionPath: Option<seq<Id>>)    // parent place ids up the hierarchy

  datatype PersonRef = PersonRef(id: Id, name: Option<string>)

  datatype Gender = Male | Female | Unknown

  datatype Person = Person(
    id: Id,
    name: string,
    gender: Option<Gender>,
    birthYear: Option<int>,
    deathYear: Option<int>,
    lifespan: Option<string>,
    primaryPlace: Option<Place>,
    primaryPlaceText: Option<string>,
    father: Option<PersonRef>,
    mother: Option<PersonRef>,
    spouse: Option<PersonRef>,
    fsUrl: string)

  /** A ranked person with the chips that explain its score. */
  datatype MatchCandidate = MatchCandidate(person: Person, score: real, explanations: seq<string>)

  datatype HintSummary = HintSummary(
    personId: Id,
    total: nat,
    recordHints: nat,
    treeHints: nat,
    fsHintsUrl: string)

  datatype PedigreeNode = PedigreeNode(person: Person, parents: Option<seq<Id>>, children: Option<seq<Id>>)

  datatype SearchParams = SearchParams(
    name: string,
    birthYearFrom: Option<int>,
    birthYearTo: Option<int>,
    placeId: Option<string>,
    placeText: Option<string>)

  /** A partial score and the chip explaining it, if any. */
  datatype Scored = Scored(score: real, reason: Option<string>)

  /** A year is truthy when present and not 0. */
  predicate YearGiven(y: Option<int>) {
    y.Some? && y.value != 0
  }

  /** A string is truthy when present and not empty. */
  predicate TextGiven(t: Option<string>) {
    t.Some? && t.value != ""
  }

  /** The codes a `FamilySearchAuthError` carries. */
  datatype AuthCode = NotLinked | Expired | RefreshFailed

  /** What an upstream call can throw: an authorisation failure, or anything else. */
  datatype ClientError = AuthFailure(code: AuthCode, message: string) | RequestFailure(message: string)

  /** The outcome of an upstream request: its JSON body, or the error it threw. */
  datatype Fetch<+T> = Fetched(data: T) | FetchFailed(error: ClientError)

  /**
   * What an adapter's `catch` block throws on: an authorisation failure is rethrown as it is,
   * any other error becomes a new one whose message adds `context` in front.
   */
  function Rethrow(context: string, e: ClientError): (r: ClientError)
    ensures e.AuthFailure? ==> r == e
    ensures e.RequestFailure? ==> r.RequestFailure? && r.message == context + e.message
  {
    if e.AuthFailure? then e else RequestFailure(context + e.message)
  }
}

=== FILE: gedcom_utils.dfy ===
/**
 * The GEDCOM X helpers of the FamilySearch adapters: reference normalisation, year and
 * lifespan extraction, gender mapping, fact lookup, slugs, and the mapping of raw place and
 * person-reference records onto the domain types.
 */
module GedcomUtils {
  import opened Wrappers
  import opened Text
  import opened Domain
  import opened Json
  import opened Seqs
  import opened OrderedMap

  // ---------------------------------------------------------------- normalizeRef

  /** A non-empty id free of `/`, as `normalizeRef` produces. */
  predicate BareId(s: string) {
    s != "" && '/' !in s
  }

  /** Drops one leading `#`. */
  function StripHash(v: string): string {
    if StartsWith(v, "#") then v[1..] else v
  }

  /** What follows the last `/`, or everything when there is none. */
  function AfterLastSlash(v: string): (r: string)
    ensures '/' !in r
  {
    var slash := LastIndexOf(v, '/');
    if slash >= 0 then v[slash + 1..] else v
  }

  /** What follows the last `:`, unless that colon is the final character. */
  function AfterLastColon(v: string): (r: string)
    ensures '/' !in v ==> '/' !in r
    ensures ':' !in r || r[|r| - 1] == ':'
  {
    var colon := LastIndexOf(v, ':');
    if colon >= 0 && colon < |v| - 1 then v[colon + 1..]
    else v
  }

  /** The id a trimmed reference ends in: the three slicing steps of `normalizeRef`. */
  function RefOfTrimmed(t: string): (r: Option<string>)
    ensures r.Some? ==> BareId(r.value)
    ensures r.Some? ==> ':' !in r.value || r.value[|r.value| - 1] == ':'
  {
    var v := AfterLastColon(AfterLastSlash(StripHash(t)));
    if v == "" then None else Some(v)
  }

  /**
   * `normalizeRef(input)`: the bare id at the end of a reference such as `#P1`,
   * `https://host/platform/tree/persons/P1` or `place:123`. The result is non-empty, free
   * of `/`, and either free of `:` or ending in one.
   */
  function NormalizedRef(input: Option<string>): (r: Option<string>)
    ensures !TextGiven(input) ==> r.None?
    ensures r.Some? ==> BareId(r.value)
    ensures r.Some? ==> ':' !in r.value || r.value[|r.value| - 1] == ':'
  {
    if !TextGiven(input) then None else RefOfTrimmed(Trim(input.value))
  }

  /** `normalizeRef(input)` as the source writes it: trim, then the slicing steps. */
  method NormalizeRef(input: Option<string>) returns (r: Option<string>)
    ensures r == NormalizedRef(input)
  {
    if !TextGiven(input) {
      return None;
    }
    r := SliceRef(Trim(input.value));
  }

  /** The step-by-step reassignment of `value` in `normalizeRef`, after the trim. */
  method SliceRef(trimmed: string) returns (r: Option<string>)
    ensures r == RefOfTrimmed(trimmed)
  {
    var value := trimmed;
    value := DropHash(value);
    value := DropThroughSlash(value);
    value := DropThroughColon(value);
    r := if value == "" then None else Some(value);
  }

  /** `if (value.startsWith("#")) value = value.slice(1)`. */
  method DropHash(value: string) returns (v: string)
    ensures v == StripHash(value)
  {
    v := value;
    if StartsWith(v, "#") {
      v := v[1..];
    }
  }

  /** Keeps what follows the last `/` of `value`, when there is one. */
  method DropThroughSlash(value: string) returns (v: string)
    ensures v == AfterLastSlash(value)
  {
    v := value;
    var slash := LastIndexOf(v, '/');
    if slash >= 0 {
      v := v[slash + 1..];
    }
  }

  /** Keeps what follows the last `:` of `value`, unless that colon ends it. */
  method DropThroughColon(value: string) returns (v: string)
    ensures v == AfterLastColon(value)
  {
    v := value;
    var colon := LastIndexOf(v, ':');
    if colon >= 0 && colon < |v| - 1 {
      v := v[colon + 1..];
    }
  }

  /** A bare id: non-empty, no surrounding white space, no leading `#`, no `/` and no `:`. */
  predicate PlainRef(id: string) {
    id != "" && !IsSpace(id[0]) && !IsSpace(id[|id| - 1]) && id[0] != '#' && '/' !in id && ':' !in id
  }

  /** A bare id normalises to itself. */
  lemma NormalizeRefPlain(id: string)
    requires PlainRef(id)
    ensures NormalizedRef(Some(id)) == Some(id)
  {
    TrimByUnchanged(id, IsSpace);
    assert Trim(id) == id;
    assert StripHash(id) == id;
    assert LastIndexOf(id, '/') == -1;
    assert AfterLastSlash(id) == id;
    assert LastIndexOf(id, ':') == -1;
    assert AfterLastColon(id) == id;
  }

  /** `#id` normalises to the id. */
  lemma NormalizeRefHash(id: string)
    requires PlainRef(id)
    ensures NormalizedRef(Some("#" + id)) == Some(id)
  {
    var s := "#" + id;
    TrimByUnchanged(s, IsSpace);
    assert StartsWith(s, "#") && s[1..] == id;
    assert LastIndexOf(id, '/') == -1;
    assert LastIndexOf(id, ':') == -1;
  }

  /** Whatever path precedes it, the id after the last `/` is what a reference normalises to. */
  lemma NormalizeRefPath(path: string, id: string)
    requires PlainRef(id)
    ensures NormalizedRef(Some(path + "/" + id)) == Some(id)
  {
    var s := path + "/" + id;
    var t := TrimPathRef(path, id);
    assert t[|t| - |id| - 1..] == "/" + id;
    var u := StripHash(t);
    assert |u| >= |id| + 1 by {
      if |t| == |id| + 1 {
        assert t[0] == '/';
      }
    }
    assert u[|u| - |id| - 1..] == "/" + id;
    SlashBeforeTail(u, id);
    NoColonUnchanged(id);
    assert RefOfTrimmed(t) == Some(id);
  }

  /** Trimming `path/id` removes leading white space of the path only. */
  lemma TrimPathRef(path: string, id: string) returns (t: string)
    requires PlainRef(id)
    ensures Trim(path + "/" + id) == t
    ensures |t| >= |id| + 1 && t[|t| - |id| - 1..] == "/" + id
  {
    var tail := "/" + id;
    var s := path + tail;
    var a := LeadingCount(s, IsSpace);
    assert a <= |path| && Trim(path + "/" + id) == s[a..] by {
      assert s == path + "/" + id;
      assert s[|path|] == '/' && s[|s| - 1] == id[|id| - 1];
      TrimByKeepsEnd(s, IsSpace, |path|);
    }
    t := path[a..] + tail;
    assert s[a..] == t;
    assert t[|path[a..]|..] == tail;
  }

  /** A string ending in `/id`, with no `/` in `id`, is cut down to `id`. */
  lemma SlashBeforeTail(u: string, id: string)
    requires '/' !in id && |u| >= |id| + 1
    requires u[|u| - |id| - 1..] == "/" + id
    ensures AfterLastSlash(u) == id
  {
    var k := LastIndexOf(u, '/');
    assert u[|u| - |id| - 1] == '/';
    assert forall i :: |u| - |id| <= i < |u| ==> u[i] == id[i - (|u| - |id|)];
    assert k == |u| - |id| - 1;
  }

  lemma NoColonUnchanged(v: string)
    requires ':' !in v
    ensures AfterLastColon(v) == v
  {
    var colon := LastIndexOf(v, ':');
    assert colon < 0;
  }

  // ---------------------------------------------------------------- extractYearFromString

  /** Four decimal digits start at position `i`. */
  predicate FourDigitsAt(s: string, i: nat) {
    i + 4 <= |s| && AllDigits(s[i..i + 4])
  }

  /** The year `/-?\d{4}/` matches at position `i`, if it matches there (the sign is tried first). */
  function YearAt(s: string, i: nat): (r: Option<int>)
    ensures r.Some? ==> -9999 <= r.value <= 9999
    ensures r.Some? <==> (i < |s| && s[i] == '-' && FourDigitsAt(s, i + 1)) || FourDigitsAt(s, i)
  {
    assert Pow10(4) == 10000;
    if i < |s| && s[i] == '-' && FourDigitsAt(s, i + 1) then
      ParseNatBound(s[i + 1..i + 5]);
      Some(-(ParseNat(s[i + 1..i + 5]) as int))
    else if FourDigitsAt(s, i) then
      ParseNatBound(s[i..i + 4]);
      Some(ParseNat(s[i..i + 4]))
    else None
  }

  /** The leftmost position at or after `i` where the pattern matches, or -1. */
  function FirstYearAt(s: string, i: nat): (j: int)
    requires i <= |s|
    ensures j == -1 || (i <= j < |s| && YearAt(s, j).Some?)
    ensures forall k :: i <= k < |s| && (j < 0 || k < j) ==> YearAt(s, k).None?
    decreases |s| - i
  {
    if i == |s| then -1
    else if YearAt(s, i).Some? then i
    else FirstYearAt(s, i + 1)
  }

  /**
   * `extractYearFromString(input)`: the first match of `-?\d{4}` read as a decimal year, so
   * always within [-9999, 9999]; absent for a falsy input or when nothing matches.
   */
  function ExtractYearFromString(input: Option<string>): (r: Option<int>)
    ensures !TextGiven(input) ==> r.None?
    ensures r.Some? ==> -9999 <= r.value <= 9999
    ensures TextGiven(input) ==>
      (r.None? <==> forall k :: 0 <= k < |input.value| ==> YearAt(input.value, k).None?)
    ensures r.Some? ==> exists k :: (0 <= k < |input.value| && YearAt(input.value, k) == r
      && forall m :: 0 <= m < k ==> YearAt(input.value, m).None?)
  {
    if !TextGiven(input) then None
    else
      var j := FirstYearAt(input.value, 0);
      if j < 0 then None else YearAt(input.value, j)
  }

  /** A four-digit number prints as four digits. */
  lemma FourDigitString(y: nat)
    requires 1000 <= y <= 9999
    ensures |NatString(y)| == 4 && AllDigits(NatString(y))
  {
    assert NatString(y / 1000) == [DigitChar(y / 1000)];
    assert NatString(y / 100) == NatString(y / 1000) + [DigitChar(y / 100 % 10)];
    assert NatString(y / 10) == NatString(y / 100) + [DigitChar(y / 10 % 10)];
  }

  /**
   * A year of four digits printed after text with no digit and no `-`, whatever follows,
   * is the year `extractYearFromString` reads back.
   */
  lemma ExtractYearFromPrinted(prefix: string, y: int, suffix: string)
    requires 1000 <= y <= 9999 || -9999 <= y <= -1000
    requires forall i :: 0 <= i < |prefix| ==> !IsDigit(prefix[i]) && prefix[i] != '-'
    ensures ExtractYearFromString(Some(prefix + IntString(y) + suffix)) == Some(y)
  {
    var digits := NatString(if y < 0 then -y else y);
    FourDigitString(if y < 0 then -y else y);
    ParseNatString(if y < 0 then -y else y);
    var s := prefix + IntString(y) + suffix;
    var p := |prefix|;
    forall k | 0 <= k < p ensures YearAt(s, k).None? {
      assert s[k] == prefix[k];
      assert !FourDigitsAt(s, k) by {
        assert s[k..k + 4][0] == s[k];
      }
    }
    if y < 0 {
      assert IntString(y) == "-" + digits;
      assert s[p] == '-' && s[p + 1..p + 5] == digits;
    } else {
      assert IntString(y) == digits;
      assert s[p..p + 4] == digits;
    }
    assert YearAt(s, p) == Some(y);
    FirstYearSkips(s, 0, p);
  }

  /** The search passes over positions where nothing matches. */
  lemma {:induction false} FirstYearSkips(s: string, i: nat, p: nat)
    requires i <= p < |s|
    requires forall k :: i <= k < p ==> YearAt(s, k).None?
    requires YearAt(s, p).Some?
    ensures FirstYearAt(s, i) == p
    decreases p - i
  {
    if i < p {
      FirstYearSkips(s, i + 1, p);
    }
  }

  // ---------------------------------------------------------------- buildLifespan

  /** One side of a lifespan: the year when truthy, `…` otherwise. */
  function LifespanSide(year: Option<int>): (r: string)
    ensures '–' !in r
    ensures YearGiven(year) ==> r == IntString(year.value)
    ensures !YearGiven(year) ==> r == "…"
  {
    if YearGiven(year) then
      var r := IntString(year.value);
      assert forall i :: 0 <= i < |r| ==> r[i] == '-' || IsDigit(r[i]);
      r
    else "…"
  }

  /** `buildLifespan(birth, death)`: `birth–death`, absent when neither year is truthy. */
  function BuildLifespan(birth: Option<int>, death: Option<int>): (r: Option<string>)
    ensures r.None? <==> !YearGiven(birth) && !YearGiven(death)
  {
    if !YearGiven(birth) && !YearGiven(death) then None
    else Some(LifespanSide(birth) + "–" + LifespanSide(death))
  }

  /**
   * A lifespan splits at its single dash into the two sides: each is the printed year when
   * that year is truthy (and reads back to it) and `…` otherwise.
   */
  lemma LifespanParts(birth: Option<int>, death: Option<int>)
    requires YearGiven(birth) || YearGiven(death)
    ensures SplitOn(BuildLifespan(birth, death).value, '–') == [LifespanSide(birth), LifespanSide(death)]
    ensures YearGiven(birth) && birth.value > 0 ==> ParseNat(LifespanSide(birth)) == birth.value
    ensures YearGiven(death) && death.value > 0 ==> ParseNat(LifespanSide(death)) == death.value
    ensures !YearGiven(birth) <==> LifespanSide(birth) == "…"
    ensures !YearGiven(death) <==> LifespanSide(death) == "…"
  {
    SplitOnOnce(LifespanSide(birth), LifespanSide(death), '–');
    if YearGiven(birth) {
      IntStringRoundTrip(birth.value);
      assert IntString(birth.value)[0] != '…';
    }
    if YearGiven(death) {
      IntStringRoundTrip(death.value);
      assert IntString(death.value)[0] != '…';
    }
  }

  // ---------------------------------------------------------------- mapGender

  /**
   * What a property read on `GENDER_MAP` can give: one of the object's own entries, or the
   * member `key` that every plain object inherits from `Object.prototype`.
   */
  datatype GenderEntry = Own(gender: Gender) | Inherited(key: string)

  /**
   * `GENDER_MAP[str]`: the object literal holds `male`, `female` and `unknown`, and inherits
   * `constructor` and `__proto__`, the only members of `Object.prototype` whose names are
   * lower case.
   */
  function GenderMapLookup(str: string): (r: Option<GenderEntry>)
    ensures r.Some? && r.value.Own? <==> str == "male" || str == "female" || str == "unknown"
    ensures r.Some? && r.value.Inherited? <==> str == "constructor" || str == "__proto__"
    ensures r.Some? && r.value.Inherited? ==> r.value.key == str
  {
    if str == "male" then Some(Own(Male))
    else if str == "female" then Some(Own(Female))
    else if str == "unknown" then Some(Own(Unknown))
    else if str == "constructor" || str == "__proto__" then Some(Inherited(str))
    else None
  }

  /**
   * `mapGender(input)` as written: the "male" test comes first, and "female" contains
   * "male", so every female input maps to Male.
   */
  function MapGender(input: Value): (r: Option<GenderEntry>)
    ensures !Truthy(input) ==> r.None?
    ensures Truthy(input) && Contains(Lower(ToJsString(input)), "male") ==> r == Some(Own(Male))
  {
    if !Truthy(input) then None
    else
      var str := Lower(ToJsString(input));
      if Contains(str, "male") then Some(Own(Male))
      else if Contains(str, "female") then Some(Own(Female))
      else if Contains(str, "unknown") then Some(Own(Unknown))
      else GenderMapLookup(str)
  }

  /**
   * Every own key of the map contains its own name, so the final lookup can only find an
   * inherited member: it finds one exactly for `constructor` and `__proto__`.
   */
  lemma MapGenderFallbackInheritedOnly(str: string)
    requires !Contains(str, "male") && !Contains(str, "female") && !Contains(str, "unknown")
    ensures GenderMapLookup(str).Some? ==> GenderMapLookup(str).value.Inherited?
    ensures GenderMapLookup(str).Some? <==> str == "constructor" || str == "__proto__"
  {
    ContainsSelf(str);
  }

  /** `mapGender` gives an inherited member only for the texts `constructor` and `__proto__`. */
  lemma MapGenderInheritedOnly(input: Value)
    requires MapGender(input).Some? && MapGender(input).value.Inherited?
    ensures Truthy(input)
    ensures Lower(ToJsString(input)) in {"constructor", "__proto__"}
    ensures MapGender(input) == Some(Inherited(Lower(ToJsString(input))))
  {
    var str := Lower(ToJsString(input));
    assert Truthy(input);
    assert !Contains(str, "male") && !Contains(str, "female") && !Contains(str, "unknown");
    assert MapGender(input) == GenderMapLookup(str);
  }

  lemma FemaleContainsMale()
    ensures Contains("female", "male")
  {
    assert "female"[2..2 + |"male"|] == "male";
    ContainsAt("female", "male", 2);
  }

  /** The Female branch of `mapGender` is unreachable. */
  lemma MapGenderNeverFemale(input: Value)
    ensures MapGender(input) != Some(Own(Female))
  {
    if Truthy(input) {
      var str := Lower(ToJsString(input));
      if Contains(str, "female") {
        FemaleContainsMale();
        ContainsTransitive(str, "female", "male");
      }
    }
  }

  lemma LowerFemale()
    ensures Lower("Female") == "female"
  {
    var l := Lower("Female");
    assert l[0] == 'f' && l[1] == 'e' && l[2] == 'm' && l[3] == 'a' && l[4] == 'l' && l[5] == 'e';
  }

  lemma LowerMale()
    ensures Lower("Male") == "male"
  {
    var l := Lower("Male");
    assert l[0] == 'm' && l[1] == 'a' && l[2] == 'l' && l[3] == 'e';
  }

  /** The text `"constructor"` itself meets the requirement of the two lemmas below. */
  lemma LowerConstructor()
    ensures Lower("constructor") == "constructor"
  {
    LowerUnchanged("constructor");
  }

  /** `"constructor"` holds none of the three words: it lacks `m` and `k`. */
  lemma ConstructorHoldsNoGenderWord()
    ensures !Contains("constructor", "male") && !Contains("constructor", "female")
    ensures !Contains("constructor", "unknown")
  {
    ConstructorLacks('m');
    ConstructorLacks('k');
    assert "male"[0] == 'm' && "female"[2] == 'm' && "unknown"[2] == 'k';
    ContainsNeedsChar("constructor", "male", 'm');
    ContainsNeedsChar("constructor", "female", 'm');
    ContainsNeedsChar("constructor", "unknown", 'k');
  }

  lemma ConstructorLacks(c: char)
    requires c == 'm' || c == 'k'
    ensures c !in "constructor"
  {
    var s := "constructor";
    assert s == ['c', 'o', 'n', 's', 't', 'r', 'u', 'c', 't', 'o', 'r'];
    forall i | 0 <= i < |s|
      ensures s[i] != c
    {
    }
  }

  /** The input that shows it: `"Female"` maps to Male. */
  lemma MapGenderFemaleInput()
    ensures MapGender(Str("Female")) == Some(Own(Male))
  {
    LowerFemale();
    FemaleContainsMale();
  }

  /**
   * The input that shows it: any text that lower-cases to `"constructor"` reaches the table
   * fallback, which answers with the inherited `Object` constructor instead of a gender.
   */
  lemma MapGenderConstructorInput(text: string)
    requires Lower(text) == "constructor"
    ensures MapGender(Str(text)) == Some(Inherited("constructor"))
  {
    ConstructorHoldsNoGenderWord();
    assert Truthy(Str(text)) by { assert |text| == |"constructor"|; }
    var str := Lower(ToJsString(Str(text)));
    assert str == "constructor";
    assert MapGender(Str(text)) == GenderMapLookup(str);
  }

  /** `GENDER_MAP[str]` restricted to the map's own keys, as `Object.hasOwn` would check. */
  function OwnGenderLookup(str: string): (r: Option<Gender>)
    ensures r.Some? <==> GenderMapLookup(str).Some? && GenderMapLookup(str).value.Own?
    ensures r.Some? ==> GenderMapLookup(str) == Some(Own(r.value))
  {
    if str == "male" then Some(Male)
    else if str == "female" then Some(Female)
    else if str == "unknown" then Some(Unknown)
    else None
  }

  /**
   * `mapGender` as evidently intended: "female" tested before "male", and only the map's own
   * keys looked up, so the result is always a gender or none.
   */
  function MapGenderIntended(input: Value): (r: Option<Gender>)
    ensures !Truthy(input) ==> r.None?
    ensures Truthy(input) && Contains(Lower(ToJsString(input)), "female") ==> r == Some(Female)
    ensures (Truthy(input) && !Contains(Lower(ToJsString(input)), "female")
      && Contains(Lower(ToJsString(input)), "male")) ==> r == Some(Male)
  {
    if !Truthy(input) then None
    else
      var str := Lower(ToJsString(input));
      if Contains(str, "female") then Some(Female)
      else if Contains(str, "male") then Some(Male)
      else if Contains(str, "unknown") then Some(Unknown)
      else OwnGenderLookup(str)
  }

  /** A string shorter than `sub` does not contain it. */
  lemma ContainsNeedsLength(s: string, sub: string)
    requires |s| < |sub|
    ensures !Contains(s, sub)
  {
    if Contains(s, sub) {
      var i := ContainsWitness(s, sub);
    }
  }

  /** The corrected mapping tells the two genders apart. */
  lemma MapGenderIntendedDistinguishes()
    ensures MapGenderIntended(Str("Female")) == Some(Female)
    ensures MapGenderIntended(Str("Male")) == Some(Male)
  {
    LowerFemale();
    ContainsSelf("female");
    LowerMale();
    ContainsSelf("male");
    ContainsNeedsLength("male", "female");
  }

  /** The corrected mapping answers `"constructor"` with no gender rather than an inherited member. */
  lemma MapGenderIntendedConstructor(text: string)
    requires Lower(text) == "constructor"
    ensures MapGenderIntended(Str(text)) == None
  {
    ConstructorHoldsNoGenderWord();
    assert Truthy(Str(text)) by { assert |text| == |"constructor"|; }
    var str := Lower(ToJsString(Str(text)));
    assert str == "constructor";
    assert MapGenderIntended(Str(text)) == OwnGenderLookup(str);
  }

  // ---------------------------------------------------------------- findFact

  /** `String(f?.type ?? "").toLowerCase()`. */
  function FactType(f: Value): string {
    Lower(ToJsString(OrElse(Field(f, "type"), Str(""))))
  }

  /** Position of the first fact whose type ends with `suffix`, or -1. */
  function FactIndex(facts: seq<Value>, suffix: string): (i: int)
    ensures -1 <= i < |facts|
    ensures 0 <= i ==> EndsWith(FactType(facts[i]), suffix)
    ensures forall j :: 0 <= j < |facts| && (i < 0 || j < i) ==> !EndsWith(FactType(facts[j]), suffix)
    decreases |facts|
  {
    if facts == [] then -1
    else if EndsWith(FactType(facts[0]), suffix) then 0
    else
      var j := FactIndex(facts[1..], suffix);
      assert forall k :: 1 <= k < |facts| ==> facts[k] == facts[1..][k - 1];
      if j < 0 then -1 else j + 1
  }

  /**
   * `findFact(facts, typeSuffix)`: the first fact whose lower-cased type ends with the
   * lower-cased suffix; undefined for a non-array or when no fact does.
   */
  function FindFact(facts: Value, typeSuffix: string): (r: Value)
    ensures !facts.Arr? ==> r.Undefined?
    ensures facts.Arr? && FactIndex(facts.items, Lower(typeSuffix)) < 0 ==> r.Undefined?
    ensures facts.Arr? && FactIndex(facts.items, Lower(typeSuffix)) >= 0 ==>
      r == facts.items[FactIndex(facts.items, Lower(typeSuffix))]
  {
    if !facts.Arr? then Undefined
    else
      var i := FactIndex(facts.items, Lower(typeSuffix));
      if i < 0 then Undefined else facts.items[i]
  }

  // ---------------------------------------------------------------- slugify

  predicate IsSlugChar(c: char) {
    IsLowerLetter(c) || IsDigit(c) || c == '-'
  }

  predicate NotAsciiAlnum(c: char) {
    !IsAsciiAlnum(c)
  }

  predicate IsDash(c: char) {
    c == '-'
  }

  /** Made of ASCII letters, digits and dashes, with no two dashes in a row. */
  predicate DashedAlnum(s: string) {
    (forall i :: 0 <= i < |s| ==> IsAsciiAlnum(s[i]) || s[i] == '-')
    && (forall i :: 0 <= i < |s| - 1 ==> !(s[i] == '-' && s[i + 1] == '-'))
  }

  /** Replacing the runs outside `[a-zA-Z0-9]` by `-` leaves letters, digits and single dashes. */
  lemma CollapsedIsDashedAlnum(s: string)
    ensures DashedAlnum(CollapseRuns(s, NotAsciiAlnum, '-'))
  {
    var r := CollapseRuns(s, NotAsciiAlnum, '-');
    forall i | 0 <= i < |r| - 1
      ensures !(r[i] == '-' && r[i + 1] == '-')
    {
      assert !(NotAsciiAlnum(r[i]) && NotAsciiAlnum(r[i + 1]));
    }
  }

  /** Trimming dashes keeps the shape and leaves no dash at either end. */
  lemma TrimmedIsDashedAlnum(s: string)
    requires DashedAlnum(s)
    ensures DashedAlnum(TrimBy(s, IsDash))
  {
    var t := TrimBy(s, IsDash);
    var a := LeadingCount(s, IsDash);
    assert forall i :: 0 <= i < |t| ==> t[i] == s[a + i];
  }

  /** Lower-casing a dashed alphanumeric string gives slug characters in the same places. */
  lemma LowerDashedAlnum(s: string)
    requires DashedAlnum(s)
    ensures forall i :: 0 <= i < |Lower(s)| ==> IsSlugChar(Lower(s)[i]) && (Lower(s)[i] == '-' <==> s[i] == '-')
  {
  }

  /**
   * `slugify(input)`: accents stripped, every run of characters outside `[a-zA-Z0-9]`
   * turned into one `-`, dashes trimmed from both ends, lower-cased. The result is made of
   * `[a-z0-9-]`, neither starts nor ends with `-` and never holds `--`.
   */
  function Slugify(input: string): (r: string)
    ensures forall i :: 0 <= i < |r| ==> IsSlugChar(r[i])
    ensures r != [] ==> r[0] != '-' && r[|r| - 1] != '-'
    ensures forall i :: 0 <= i < |r| - 1 ==> !(r[i] == '-' && r[i + 1] == '-')
  {
    var dashed := CollapseRuns(StripDiacritics(Decompose(input)), NotAsciiAlnum, '-');
    CollapsedIsDashedAlnum(StripDiacritics(Decompose(input)));
    var trimmed := TrimBy(dashed, IsDash);
    TrimmedIsDashedAlnum(dashed);
    LowerDashedAlnum(trimmed);
    Lower(trimmed)
  }

  /** Slug characters are plain ASCII: no decomposition, no diacritic, no upper case. */
  lemma SlugCharsPlain(s: string)
    requires forall i :: 0 <= i < |s| ==> IsSlugChar(s[i])
    ensures StripDiacritics(Decompose(s)) == s
    ensures Lower(s) == s
  {
    forall i | 0 <= i < |s|
      ensures s[i] as int < 0xC0 && !IsDiacritic(s[i]) && !IsUpperLetter(s[i])
    {
      SlugCharPlain(s[i]);
    }
    LowerUnchanged(s);
  }

  lemma SlugCharPlain(c: char)
    requires IsSlugChar(c)
    ensures c as int < 0xC0 && !IsDiacritic(c) && !IsUpperLetter(c)
  {
  }

  lemma LowerUnchanged(s: string)
    requires forall i :: 0 <= i < |s| ==> s[i] as int < 0xC0 && !IsUpperLetter(s[i])
    ensures Lower(s) == s
  {
    assert forall i :: 0 <= i < |s| ==> Lower(s)[i] == LowerChar(s[i]) == s[i];
  }

  /** A slug is its own slug. */
  lemma SlugifyIdempotent(input: string)
    ensures Slugify(Slugify(input)) == Slugify(input)
  {
    var s := Slugify(input);
    SlugCharsPlain(s);
    CollapseRunsFixed(s, NotAsciiAlnum, '-');
    TrimByUnchanged(s, IsDash);
  }

  // ---------------------------------------------------------------- extractIdentifier

  /** `item?.value ?? item?.identifier ?? item`, when that is a string. */
  function IdentifierText(item: Value): Option<string> {
    AsString(OrElse(OrElse(Field(item, "value"), Field(item, "identifier")), item))
  }

  /** The id one identifier entry offers: its text, normalised. */
  function IdentifierRef(item: Value): (r: Option<string>)
    ensures r.Some? ==> BareId(r.value)
  {
    NormalizedRef(IdentifierText(item))
  }

  /** The first identifier entry that normalises to an id: its id, and no earlier entry gives one. */
  function IdentifierFrom(items: seq<Value>): (r: Option<string>)
    ensures r.Some? ==> r.value != "" && '/' !in r.value
    ensures r.None? <==> forall i :: 0 <= i < |items| ==> IdentifierRef(items[i]).None?
    ensures r.Some? ==> exists i :: (0 <= i < |items| && r == IdentifierRef(items[i])
      && forall j :: 0 <= j < i ==> IdentifierRef(items[j]).None?)
  {
    FirstSome(items, IdentifierRef)
  }

  /** `extractIdentifier(identifiers)` as a value: absent for a non-array. */
  function IdentifierOf(identifiers: Value): (r: Option<string>)
    ensures !identifiers.Arr? ==> r.None?
    ensures identifiers.Arr? ==> r == IdentifierFrom(identifiers.items)
  {
    if identifiers.Arr? then IdentifierFrom(identifiers.items) else None
  }

  /** `extractIdentifier(identifiers)`: the loop that returns the first usable identifier. */
  method ExtractIdentifier(identifiers: Value) returns (r: Option<string>)
    ensures r == IdentifierOf(identifiers)
  {
    if !identifiers.Arr? {
      return None;
    }
    var items := identifiers.items;
    var i := 0;
    while i < |items|
      invariant 0 <= i <= |items|
      invariant IdentifierFrom(items[i..]) == IdentifierFrom(items)
    {
      IdentifierFromStep(items, i);
      var value := OrElse(OrElse(Field(items[i], "value"), Field(items[i], "identifier")), items[i]);
      if value.Str? {
        var normalized := NormalizeRef(Some(value.s));
        if normalized.Some? {
          return normalized;
        }
      }
      i := i + 1;
    }
    return None;
  }

  lemma IdentifierFromStep(items: seq<Value>, i: nat)
    requires i < |items|
    ensures IdentifierFrom(items[i..]) ==
      if IdentifierRef(items[i]).Some? then IdentifierRef(items[i]) else IdentifierFrom(items[i + 1..])
  {
    FirstSomeStep(items, IdentifierRef, i);
  }

  // ---------------------------------------------------------------- getNameFromNames

  /** `form?.fullText`, else `form?.value`, when truthy. */
  function FormText(form: Value): (r: Option<string>)
    ensures r.Some? ==> r.value != ""
  {
    var full := AsString(Field(form, "fullText"));
    var value := AsString(Field(form, "value"));
    if TextGiven(full) then full else if TextGiven(value) then value else None
  }

  /** The first form with a truthy text: its text, and no earlier form has one. */
  function FormsText(forms: seq<Value>): (r: Option<string>)
    ensures r.Some? ==> r.value != ""
    ensures r.None? <==> forall i :: 0 <= i < |forms| ==> FormText(forms[i]).None?
    ensures r.Some? ==> exists i :: (0 <= i < |forms| && r == FormText(forms[i])
      && forall j :: 0 <= j < i ==> FormText(forms[j]).None?)
  {
    FirstSome(forms, FormText)
  }

  /** `name?.forms` when it is an array, else `name?.nameForms`. */
  function FormsOf(name: Value): Value {
    if Field(name, "forms").Arr? then Field(name, "forms") else Field(name, "nameForms")
  }

  /** The text one name entry offers: its own value or full text, else the text of its forms. */
  function NameText(name: Value): (r: Option<string>)
    ensures r.Some? ==> r.value != ""
  {
    var value := AsString(OrElse(Field(name, "value"), Field(name, "fullText")));
    if TextGiven(value) then value
    else if FormsOf(name).Arr? then FormsText(FormsOf(name).items)
    else None
  }

  /** `getNameFromNames(names)` as a value: the text of the first entry offering one. */
  function NameFromNames(names: seq<Value>): (r: Option<string>)
    ensures r.Some? ==> r.value != ""
    ensures r.None? <==> forall i :: 0 <= i < |names| ==> NameText(names[i]).None?
    ensures r.Some? ==> exists i :: (0 <= i < |names| && r == NameText(names[i])
      && forall j :: 0 <= j < i ==> NameText(names[j]).None?)
  {
    FirstSome(names, NameText)
  }

  /** `getNameFromNames(names)`: nested loops over names and their forms, with early returns. */
  method GetNameFromNames(names: seq<Value>) returns (r: Option<string>)
    ensures r == NameFromNames(names)
  {
    var i := 0;
    while i < |names|
      invariant 0 <= i <= |names|
      invariant NameFromNames(names[i..]) == NameFromNames(names)
    {
      FirstSomeStep(names, NameText, i);
      var name := names[i];
      var value := AsString(OrElse(Field(name, "value"), Field(name, "fullText")));
      if TextGiven(value) {
        return value;
      }
      var forms := FormsOf(name);
      if forms.Arr? {
        var j := 0;
        while j < |forms.items|
          invariant 0 <= j <= |forms.items|
          invariant FormsText(forms.items[j..]) == FormsText(forms.items)
        {
          FirstSomeStep(forms.items, FormText, j);
          var form := forms.items[j];
          var full := AsString(Field(form, "fullText"));
          if TextGiven(full) {
            return full;
          }
          var formValue := AsString(Field(form, "value"));
          if TextGiven(formValue) {
            return formValue;
          }
          j := j + 1;
        }
      }
      i := i + 1;
    }
    return None;
  }

  // ---------------------------------------------------------------- mapGedcomPlace

  /** `v.k1 ?? v.k2 ?? …` over the given property names. */
  function FirstPresent(v: Value, keys: seq<string>): (r: Value)
    ensures Nullish(r) <==> forall i :: 0 <= i < |keys| ==> Nullish(Field(v, keys[i]))
    ensures keys != [] && !Nullish(Field(v, keys[0])) ==> r == Field(v, keys[0])
    decreases |keys|
  {
    if keys == [] then Undefined
    else
      assert forall i :: 1 <= i < |keys| ==> keys[i] == keys[1..][i - 1];
      OrElse(Field(v, keys[0]), FirstPresent(v, keys[1..]))
  }

  /**
   * The id a raw place offers: its normalised `id`, else its first usable identifier, else
   * the slug of its first name. Every one of these is free of `/`.
   */
  function PlaceIdOf(raw: Value): (r: Option<string>)
    ensures r.Some? ==> '/' !in r.value
  {
    var names := Field(raw, "names");
    var firstName := AsString(Field(At(names, 0), "value"));
    var slug := if names.Arr? && TextGiven(firstName) then Some(Slugify(firstName.value)) else None;
    assert slug.Some? ==> '/' !in slug.value by {
      if slug.Some? {
        SlugHasNoSlash(slug.value);
      }
    }
    Coalesce(NormalizedRef(AsString(Field(raw, "id"))), Coalesce(IdentifierOf(Field(raw, "identifiers")), slug))
  }

  lemma SlugHasNoSlash(s: string)
    requires forall i :: 0 <= i < |s| ==> IsSlugChar(s[i])
    ensures '/' !in s
  {
  }

  /** The name a raw place offers: `display.name`, `fullText`, its first name's value, any name text. */
  function PlaceNameOf(raw: Value): Option<string> {
    var named := OrElse(Field(Field(raw, "display"), "name"), Field(raw, "fullText"));
    var names := Field(raw, "names");
    if !Nullish(named) then AsString(named)
    else if names.Arr? then
      var first := Field(At(names, 0), "value");
      if !Nullish(first) then AsString(first) else NameFromNames(names.items)
    else None
  }

  /** The normalised `j?.resourceId ?? j?.resource` of one jurisdiction entry. */
  function JurisdictionId(j: Value): (r: Option<Id>)
    ensures r.Some? ==> BareId(r.value)
  {
    NormalizedRef(AsString(OrElse(Field(j, "resourceId"), Field(j, "resource"))))
  }

  /**
   * The normalised `resourceId ?? resource` of each jurisdiction entry, dropping those that
   * give none. `JurisdictionIdsExact` and `JurisdictionIdsAppend` say which ids, in which order.
   */
  function JurisdictionIds(items: seq<Value>): (r: seq<Id>)
    ensures |r| <= |items|
    ensures forall k :: 0 <= k < |r| ==> BareId(r[k])
  {
    var r := SomeValues(items, JurisdictionId);
    assert forall k :: 0 <= k < |r| ==> BareId(r[k]) by {
      forall k | 0 <= k < |r|
        ensures BareId(r[k])
      {
        var i :| 0 <= i < |items| && JurisdictionId(items[i]) == Some(r[k]);
      }
    }
    r
  }

  /**
   * Every id comes from an entry, every entry's id is kept, and nothing is dropped exactly
   * when every entry gives an id.
   */
  lemma JurisdictionIdsExact(items: seq<Value>)
    ensures forall k :: 0 <= k < |JurisdictionIds(items)| ==>
      exists i :: 0 <= i < |items| && JurisdictionId(items[i]) == Some(JurisdictionIds(items)[k])
    ensures forall i :: 0 <= i < |items| && JurisdictionId(items[i]).Some? ==>
      JurisdictionId(items[i]).value in JurisdictionIds(items)
    ensures |JurisdictionIds(items)| == |items| <==> forall i :: 0 <= i < |items| ==> JurisdictionId(items[i]).Some?
  {
    SomeValuesComplete(items, JurisdictionId);
  }

  /**
   * The ids follow the entries' order: the list for two runs of entries is the list for the
   * first followed by the list for the second, and one entry gives its own id or nothing.
   */
  lemma JurisdictionIdsAppend(a: seq<Value>, b: seq<Value>)
    ensures JurisdictionIds(a + b) == JurisdictionIds(a) + JurisdictionIds(b)
    ensures forall x :: JurisdictionIds([x]) == if JurisdictionId(x).Some? then [JurisdictionId(x).value] else []
  {
    SomeValuesAppend(a, b, JurisdictionId);
    forall x
      ensures JurisdictionIds([x]) == if JurisdictionId(x).Some? then [JurisdictionId(x).value] else []
    {
      assert [x][1..] == [];
    }
  }

  /**
   * `raw.type ? raw.type.split("/").pop() : undefined`: present exactly for a truthy type, and
   * then the text after its last `/` (all of it when it has none).
   */
  function PlaceTypeOf(raw: Value): (r: Option<string>)
    ensures r.Some? <==> TextGiven(AsString(Field(raw, "type")))
    ensures r.Some? ==> var t := AsString(Field(raw, "type")).value;
      '/' !in r.value && EndsWith(t, r.value) && (|r.value| == |t| || t[|t| - |r.value| - 1] == '/')
  {
    var t := AsString(Field(raw, "type"));
    if TextGiven(t) then
      var parts := SplitOn(t.value, '/');
      SplitOnLastPiece(t.value, '/');
      Some(parts[|parts| - 1])
    else None
  }

  /**
   * `mapGedcomPlace(raw)`: undefined exactly when the record is falsy or offers neither an id
   * nor a name; otherwise the id and the display name each fall back on the other, the type is
   * the last segment of the record's type, and the jurisdiction path holds the bare ids of the
   * record's `jurisdiction` array, present exactly when there is one.
   */
  function MapGedcomPlace(raw: Value): (r: Option<Place>)
    ensures r.None? <==> !Truthy(raw) || (!TextGiven(PlaceIdOf(raw)) && !TextGiven(PlaceNameOf(raw)))
    ensures r.Some? && PlaceIdOf(raw).Some? ==> r.value.id == PlaceIdOf(raw).value
    ensures r.Some? && PlaceIdOf(raw).None? ==> r.value.id == r.value.displayName
    ensures r.Some? && PlaceNameOf(raw).Some? ==> r.value.displayName == PlaceNameOf(raw).value
    ensures r.Some? && PlaceNameOf(raw).None? ==> r.value.displayName == r.value.id
    ensures r.Some? ==> r.value.id != "" || r.value.displayName != ""
    ensures r.Some? ==> r.value.placeType == PlaceTypeOf(raw)
    ensures r.Some? ==> (r.value.jurisdictionPath.Some? <==> Field(raw, "jurisdiction").Arr?)
    ensures r.Some? && Field(raw, "jurisdiction").Arr? ==>
      r.value.jurisdictionPath == Some(JurisdictionIds(Field(raw, "jurisdiction").items))
    ensures r.Some? && r.value.jurisdictionPath.Some? ==>
      forall k :: 0 <= k < |r.value.jurisdictionPath.value| ==> BareId(r.value.jurisdictionPath.value[k])
  {
    if !Truthy(raw) then None
    else
      var id := PlaceIdOf(raw);
      var name := PlaceNameOf(raw);
      if !TextGiven(id) && !TextGiven(name) then None
      else
        var jurisdiction := Field(raw, "jurisdiction");
        Some(Place(
          Coalesce(id, name).GetOr(""),
          Coalesce(name, id).GetOr("Localidade"),
          PlaceTypeOf(raw),
          if jurisdiction.Arr? then Some(JurisdictionIds(jurisdiction.items)) else None))
  }

  // ---------------------------------------------------------------- collectPlacesFromGedcom

  /** `gedcom?.places` if it is an array, else `gedcom?.place` if it is one, else none. */
  function PlaceRecords(gedcom: Value): seq<Value> {
    if Field(gedcom, "places").Arr? then Field(gedcom, "places").items else ArrayOr(Field(gedcom, "place"))
  }

  /** The GEDCOM X document of a search entry, `entry?.content?.gedcomx ?? entry?.content?.gedcom ?? entry?.content`. */
  function EntryGedcom(entry: Value): Value {
    var content := Field(entry, "content");
    OrElse(OrElse(Field(content, "gedcomx"), Field(content, "gedcom")), content)
  }

  /** Setting an entry keyed by its own place's id keeps every entry keyed that way. */
  lemma PutKeyedById(m: seq<(Id, Place)>, p: Place)
    requires forall k :: 0 <= k < |m| ==> m[k].1.id == m[k].0
    ensures forall k :: 0 <= k < |Put(m, p.id, p)| ==> Put(m, p.id, p)[k].1.id == Put(m, p.id, p)[k].0
  {
  }

  /** The map `collectPlacesFromGedcom` fills, place record by place record. */
  function CollectedPlaces(raws: seq<Value>): (m: seq<(Id, Place)>)
    ensures DistinctKeys(m)
    ensures forall k :: 0 <= k < |m| ==> m[k].1.id == m[k].0
    decreases |raws|
  {
    if raws == [] then []
    else
      var m := CollectedPlaces(raws[..|raws| - 1]);
      var p := MapGedcomPlace(raws[|raws| - 1]);
      if p.None? then m
      else
        PutDistinct(m, p.value.id, p.value);
        PutKeyedById(m, p.value);
        Put(m, p.value.id, p.value)
  }

  /** The last record that maps to a place with this id, if any: what a later `set` leaves behind. */
  function LastPlaceWithId(raws: seq<Value>, id: Id): (r: Option<Place>)
    ensures r.Some? ==> r.value.id == id
    decreases |raws|
  {
    if raws == [] then None
    else
      var p := MapGedcomPlace(raws[|raws| - 1]);
      if p.Some? && p.value.id == id then p else LastPlaceWithId(raws[..|raws| - 1], id)
  }

  /** For a repeated id the collected map keeps the last place. */
  lemma {:induction false} CollectedPlacesLastWins(raws: seq<Value>, id: Id)
    ensures Get(CollectedPlaces(raws), id) == LastPlaceWithId(raws, id)
    decreases |raws|
  {
    if raws != [] {
      var init := raws[..|raws| - 1];
      CollectedPlacesLastWins(init, id);
      var p := MapGedcomPlace(raws[|raws| - 1]);
      if p.Some? && p.value.id != id {
        PutOther(CollectedPlaces(init), p.value.id, p.value, id);
      }
    }
  }

  /** `collectPlacesFromGedcom(gedcom)`: a loop calling `map.set(place.id, place)` per mapped record. */
  method CollectPlacesFromGedcom(gedcom: Value) returns (m: seq<(Id, Place)>)
    ensures m == CollectedPlaces(PlaceRecords(gedcom))
  {
    var places := PlaceRecords(gedcom);
    m := [];
    var i := 0;
    while i < |places|
      invariant 0 <= i <= |places|
      invariant m == CollectedPlaces(places[..i])
    {
      assert places[..i + 1][..i] == places[..i];
      var normalized := MapGedcomPlace(places[i]);
      if normalized.Some? {
        m := Put(m, normalized.value.id, normalized.value);
      }
      i := i + 1;
    }
    assert places[..i] == places;
  }

  /**
   * `mapGedcomPerson(raw, { placesById })`, which is not part of this model: the loops that
   * call it take it as a parameter.
   */
  type PersonMapper = (Value, seq<(Id, Place)>) -> Option<Person>

  // ---------------------------------------------------------------- mapPersonRef

  /** `raw.id ?? raw.personId ?? normalizeRef(raw.resourceId ?? raw.resource ?? …)`. */
  function PersonRefIdOf(raw: Value): Option<string> {
    var direct := OrElse(Field(raw, "id"), Field(raw, "personId"));
    if !Nullish(direct) then AsString(direct)
    else NormalizedRef(AsString(FirstPresent(raw, ["resourceId", "resource", "href", "identifier", "summaryId"])))
  }

  /** `raw.name ?? raw.displayName ?? raw.fullName ?? raw.text`. */
  function PersonRefNameOf(raw: Value): Option<string> {
    AsString(FirstPresent(raw, ["name", "displayName", "fullName", "text"]))
  }

  /**
   * `mapPersonRef(raw)`: undefined exactly when the record is falsy or offers neither an id
   * nor a name; otherwise a name is always present and id and name fall back on each other.
   */
  function MapPersonRef(raw: Value): (r: Option<PersonRef>)
    ensures r.None? <==> !Truthy(raw) || (!TextGiven(PersonRefIdOf(raw)) && !TextGiven(PersonRefNameOf(raw)))
    ensures r.Some? ==> r.value.name.Some?
    ensures r.Some? && PersonRefIdOf(raw).Some? ==> r.value.id == PersonRefIdOf(raw).value
    ensures r.Some? && PersonRefIdOf(raw).None? ==> r.value.name == Some(r.value.id)
    ensures r.Some? && PersonRefNameOf(raw).Some? ==> r.value.name == PersonRefNameOf(raw)
    ensures r.Some? && PersonRefNameOf(raw).None? ==> r.value.name == Some(r.value.id)
  {
    if !Truthy(raw) then None
    else
      var id := PersonRefIdOf(raw);
      var name := PersonRefNameOf(raw);
      if !TextGiven(id) && !TextGiven(name) then None
      else Some(PersonRef(Coalesce(id, name).GetOr(""), Coalesce(name, id)))
  }

  // ---------------------------------------------------------------- extractResourceId

  /** The properties `extractResourceId` tries, in order. */
  const ResourceKeys: seq<string> := ["resourceId", "resource", "personId", "id", "href", "@href", "identifier"]

  /**
   * `extractResourceId(entry)`: a string entry is normalised itself, an object through the
   * first present of its reference properties. Any id found is non-empty and free of `/`.
   */
  function ExtractResourceId(entry: Value): (r: Option<string>)
    ensures !Truthy(entry) ==> r.None?
    ensures r.Some? ==> r.value != "" && '/' !in r.value
    ensures Truthy(entry) && entry.Str? ==> r == NormalizedRef(Some(entry.s))
    ensures !entry.Str? && !entry.Obj? ==> r.None?
  {
    if !Truthy(entry) then None
    else if entry.Str? then NormalizedRef(Some(entry.s))
    else NormalizedRef(AsString(FirstPresent(entry, ResourceKeys)))
  }

  /** A GEDCOM X reference `{"resource": "#id"}` resolves to the id. */
  lemma ExtractResourceIdOfReference(id: string)
    requires PlainRef(id)
    ensures ExtractResourceId(Obj([("resource", Str("#" + id))])) == Some(id)
  {
    var entry := Obj([("resource", Str("#" + id))]);
    assert Field(entry, "resourceId") == Undefined;
    assert Field(entry, "resource") == Str("#" + id);
    assert FirstPresent(entry, ResourceKeys) == Str("#" + id);
    NormalizeRefHash(id);
  }
}

=== FILE: hints_adapter.dfy ===
/**
 * The FamilySearch hint summary (src/adapters/familysearch/hintsAdapter.ts): the match entries
 * of a person, each classified as a record hint or a tree hint, and counted.
 */
module HintsAdapter {
  import opened Wrappers
  import opened Text
  import opened Uri
  import opened Domain
  import opened Json
  import opened GedcomUtils

  /** The two kinds of hint `extractCategory` tells apart. */
  datatype HintCategory = Record | Tree

  // ---------------------------------------------------------------- extractEntries

  /**
   * `extractEntries(data)`: `data.entries`, else `data.matches`, else `data.content.entries`,
   * the first of them that is an array; none for a falsy body or when none is an array.
   */
  function ExtractEntries(data: Value): (r: seq<Value>)
    ensures !Truthy(data) ==> r == []
    ensures Truthy(data) && Field(data, "entries").Arr? ==> r == Field(data, "entries").items
    ensures Truthy(data) && !Field(data, "entries").Arr? && Field(data, "matches").Arr? ==>
      r == Field(data, "matches").items
    ensures !Field(data, "entries").Arr? && !Field(data, "matches").Arr? ==>
      r == ArrayOr(Field(Field(data, "content"), "entries"))
  {
    if !Truthy(data) then []
    else if Field(data, "entries").Arr? then Field(data, "entries").items
    else if Field(data, "matches").Arr? then Field(data, "matches").items
    else ArrayOr(Field(Field(data, "content"), "entries"))
  }

  // ---------------------------------------------------------------- extractCategory

  /** `entry.category` if it is an array, else `entry.categories` if it is one, else none. */
  function CategoriesOf(entry: Value): seq<Value> {
    if Field(entry, "category").Arr? then Field(entry, "category").items
    else ArrayOr(Field(entry, "categories"))
  }

  /**
   * The lower-cased term of a category: the category itself when it is a string, else its
   * `term ?? label`; none when that is falsy.
   */
  function CategoryTerm(category: Value): (r: Option<string>)
    ensures category.Str? && category.s != "" ==> r == Some(Lower(category.s))
    ensures category.Str? && category.s == "" ==> r.None?
  {
    var term := if category.Str? then category else OrElse(Field(category, "term"), Field(category, "label"));
    if Truthy(term) then Some(Lower(ToJsString(term))) else None
  }

  /** The terms of the categories, in order, with repetitions. */
  function Terms(categories: seq<Value>): (ts: seq<string>)
    ensures |ts| <= |categories|
    decreases |categories|
  {
    if categories == [] then []
    else
      var ts := Terms(categories[..|categories| - 1]);
      match CategoryTerm(categories[|categories| - 1])
      case None => ts
      case Some(t) => ts + [t]
  }

  /** Every category with a term contributes it. */
  lemma {:induction false} TermsHold(categories: seq<Value>, i: nat)
    requires i < |categories| && CategoryTerm(categories[i]).Some?
    ensures CategoryTerm(categories[i]).value in Terms(categories)
    decreases |categories|
  {
    if i < |categories| - 1 {
      assert categories[..|categories| - 1][i] == categories[i];
      TermsHold(categories[..|categories| - 1], i);
    }
  }

  /** Every term comes from some category. */
  lemma {:induction false} TermsFrom(categories: seq<Value>, t: string)
    requires t in Terms(categories)
    ensures exists i :: 0 <= i < |categories| && CategoryTerm(categories[i]) == Some(t)
    decreases |categories|
  {
    var init := categories[..|categories| - 1];
    if t in Terms(init) {
      TermsFrom(init, t);
      var i :| 0 <= i < |init| && CategoryTerm(init[i]) == Some(t);
      assert categories[i] == init[i];
    } else {
      assert CategoryTerm(categories[|categories| - 1]) == Some(t);
    }
  }

  /** Some term contains `sub` (`[...lookup].some((c) => c.includes(sub))`). */
  predicate SomeContains(terms: seq<string>, sub: string) {
    exists i :: 0 <= i < |terms| && Contains(terms[i], sub)
  }

  /** `String(entry?.summary ?? entry?.title ?? '').toLowerCase()`. */
  function SummaryOf(entry: Value): string {
    Lower(ToJsString(OrElse(Field(entry, "summary"), OrElse(Field(entry, "title"), Str("")))))
  }

  /** `entry.content.matches` if it is an array, else `entry.content.gedcomx.matches`. */
  function HintsOf(entry: Value): Value {
    var content := Field(entry, "content");
    if Field(content, "matches").Arr? then Field(content, "matches") else Field(Field(content, "gedcomx"), "matches")
  }

  /** `String(hints[0]?.type ?? hints[0]?.matchType ?? '').toLowerCase()`. */
  function FirstHintType(hints: seq<Value>): string
    requires hints != []
  {
    Lower(ToJsString(OrElse(Field(hints[0], "type"), OrElse(Field(hints[0], "matchType"), Str("")))))
  }

  /**
   * The category when no category term decides: the first hint's type if it names "tree" or
   * "record", else "tree" if the summary mentions "árvore" or "tree", else "record".
   */
  function FallbackCategory(entry: Value): (c: HintCategory)
    ensures c == Tree ==>
      (HintsOf(entry).Arr? && HintsOf(entry).items != [] && Contains(FirstHintType(HintsOf(entry).items), "tree"))
      || Contains(SummaryOf(entry), "árvore") || Contains(SummaryOf(entry), "tree")
  {
    var hints := HintsOf(entry);
    if hints.Arr? && hints.items != [] && Contains(FirstHintType(hints.items), "tree") then Tree
    else if hints.Arr? && hints.items != [] && Contains(FirstHintType(hints.items), "record") then Record
    else if Contains(SummaryOf(entry), "árvore") || Contains(SummaryOf(entry), "tree") then Tree
    else Record
  }

  /** What `extractCategory(entry)` answers. */
  function CategoryOf(entry: Value): HintCategory {
    var terms := Terms(CategoriesOf(entry));
    if terms != [] && SomeContains(terms, "tree") then Tree
    else if terms != [] && SomeContains(terms, "record") then Record
    else FallbackCategory(entry)
  }

  /** A category whose term mentions "tree" makes a tree hint, whatever the other categories say. */
  lemma TreeCategoryWins(entry: Value, i: nat)
    requires i < |CategoriesOf(entry)|
    requires CategoryTerm(CategoriesOf(entry)[i]).Some? && Contains(CategoryTerm(CategoriesOf(entry)[i]).value, "tree")
    ensures CategoryOf(entry) == Tree
  {
    var categories := CategoriesOf(entry);
    TermsHold(categories, i);
    var terms := Terms(categories);
    var k :| 0 <= k < |terms| && terms[k] == CategoryTerm(categories[i]).value;
  }

  /** Otherwise a category whose term mentions "record" makes a record hint. */
  lemma RecordCategoryNext(entry: Value, i: nat)
    requires i < |CategoriesOf(entry)|
    requires CategoryTerm(CategoriesOf(entry)[i]).Some? && Contains(CategoryTerm(CategoriesOf(entry)[i]).value, "record")
    requires forall j :: 0 <= j < |CategoriesOf(entry)| && CategoryTerm(CategoriesOf(entry)[j]).Some? ==>
      !Contains(CategoryTerm(CategoriesOf(entry)[j]).value, "tree")
    ensures CategoryOf(entry) == Record
  {
    var categories := CategoriesOf(entry);
    TermsHold(categories, i);
    var terms := Terms(categories);
    var k :| 0 <= k < |terms| && terms[k] == CategoryTerm(categories[i]).value;
    if SomeContains(terms, "tree") {
      var m :| 0 <= m < |terms| && Contains(terms[m], "tree");
      TermsFrom(categories, terms[m]);
      assert false;
    }
  }

  /** With no category term naming "tree" or "record", the hints and then the summary decide. */
  lemma UndecidedCategoryFallsBack(entry: Value)
    requires forall j :: 0 <= j < |CategoriesOf(entry)| && CategoryTerm(CategoriesOf(entry)[j]).Some? ==>
      !Contains(CategoryTerm(CategoriesOf(entry)[j]).value, "tree")
      && !Contains(CategoryTerm(CategoriesOf(entry)[j]).value, "record")
    ensures CategoryOf(entry) == FallbackCategory(entry)
  {
    var categories := CategoriesOf(entry);
    var terms := Terms(categories);
    if SomeContains(terms, "tree") {
      var m :| 0 <= m < |terms| && Contains(terms[m], "tree");
      TermsFrom(categories, terms[m]);
      assert false;
    }
    if SomeContains(terms, "record") {
      var m :| 0 <= m < |terms| && Contains(terms[m], "record");
      TermsFrom(categories, terms[m]);
      assert false;
    }
  }

  /** The loop filling the `lookup` set with the term of each category that has one. */
  method CollectTerms(categories: seq<Value>) returns (lookup: set<string>)
    ensures lookup == set t | t in Terms(categories)
  {
    lookup := {};
    var i := 0;
    while i < |categories|
      invariant 0 <= i <= |categories|
      invariant lookup == set t | t in Terms(categories[..i])
    {
      assert categories[..i + 1][..i] == categories[..i];
      var term := CategoryTerm(categories[i]);
      if term.Some? {
        lookup := lookup + {term.value};
      }
      i := i + 1;
    }
    assert categories[..i] == categories;
  }

  /** The `lookup` set answers the same questions as the list of terms it was filled from. */
  lemma LookupMirrorsTerms(lookup: set<string>, terms: seq<string>, sub: string)
    requires lookup == set t | t in terms
    ensures |lookup| > 0 <==> terms != []
    ensures (exists t :: t in lookup && Contains(t, sub)) <==> SomeContains(terms, sub)
  {
    if terms != [] {
      assert terms[0] in lookup;
    }
    if exists t :: t in lookup && Contains(t, sub) {
      var t :| t in lookup && Contains(t, sub);
      var k :| 0 <= k < |terms| && terms[k] == t;
    }
    if SomeContains(terms, sub) {
      var k :| 0 <= k < |terms| && Contains(terms[k], sub);
      assert terms[k] in lookup;
    }
  }

  /**
   * `extractCategory(entry)`: the category terms gathered into the `lookup` set, which decides
   * when one of them names "tree" or "record"; otherwise the first hint, then the summary.
   */
  method ExtractCategory(entry: Value) returns (c: HintCategory)
    ensures c == CategoryOf(entry)
  {
    var categories := CategoriesOf(entry);
    var lookup := CollectTerms(categories);
    var terms := Terms(categories);
    LookupMirrorsTerms(lookup, terms, "tree");
    LookupMirrorsTerms(lookup, terms, "record");
    if |lookup| > 0 {
      if exists t :: t in lookup && Contains(t, "tree") {
        return Tree;
      }
      if exists t :: t in lookup && Contains(t, "record") {
        return Record;
      }
    }
    var hints := HintsOf(entry);
    if hints.Arr? && |hints.items| > 0 {
      var hintType := FirstHintType(hints.items);
      if Contains(hintType, "tree") {
        return Tree;
      }
      if Contains(hintType, "record") {
        return Record;
      }
    }
    var summary := SummaryOf(entry);
    if Contains(summary, "árvore") || Contains(summary, "tree") {
      return Tree;
    }
    return Record;
  }

  // ---------------------------------------------------------------- getHintSummary

  /** The number of entries of category `k`. */
  function CountOf(entries: seq<Value>, k: HintCategory): (n: nat)
    ensures n <= |entries|
    decreases |entries|
  {
    if entries == [] then 0
    else CountOf(entries[..|entries| - 1], k) + (if CategoryOf(entries[|entries| - 1]) == k then 1 else 0)
  }

  /** Each entry is either a record hint or a tree hint, never both. */
  lemma {:induction false} CountsCover(entries: seq<Value>)
    ensures CountOf(entries, Record) + CountOf(entries, Tree) == |entries|
    decreases |entries|
  {
    if entries != [] {
      CountsCover(entries[..|entries| - 1]);
    }
  }

  const HintsPage := "https://www.familysearch.org/tree/person/sources/"
  const HintsQuery := "?active=hints"

  /**
   * `buildHintsUrl(pid)`: the person's sources page with the hints tab active; the id is
   * percent-encoded, so the first `?` of the URL starts the query.
   */
  function BuildHintsUrl(pid: Id): (url: string)
    ensures StartsWith(url, HintsPage) && EndsWith(url, HintsQuery)
    ensures |HintsPage| + |HintsQuery| <= |url|
    ensures forall i :: |HintsPage| <= i < |url| - |HintsQuery| ==> IsUnreserved(url[i]) || url[i] == '%'
    ensures (forall i :: 0 <= i < |pid| ==> IsUnreserved(pid[i])) ==> url == HintsPage + pid + HintsQuery
  {
    var encoded := EncodeUriComponent(pid);
    var url := HintsPage + encoded + HintsQuery;
    assert forall i :: |HintsPage| <= i < |HintsPage| + |encoded| ==> url[i] == encoded[i - |HintsPage|];
    assert url[|url| - |HintsQuery|..] == HintsQuery;
    url
  }

  const HintsFailure := "Falha ao carregar hints: "

  /** The id the request is made for: `normalizeRef(personId) ?? personId`. */
  function HintsPersonId(personId: string): Id {
    NormalizedRef(Some(personId)).GetOr(personId)
  }

  /** Counting one more entry adds one exactly when that entry is of category `k`. */
  lemma CountOfStep(entries: seq<Value>, i: nat, k: HintCategory, c: HintCategory)
    requires i < |entries| && c == CategoryOf(entries[i])
    ensures CountOf(entries[..i + 1], k) == CountOf(entries[..i], k) + if c == k then 1 else 0
  {
    var s := entries[..i + 1];
    assert s[..|s| - 1] == entries[..i] && s[|s| - 1] == entries[i];
    CountOfLast(s, k, c);
  }

  /** The last entry adds one exactly when it is of category `k`. */
  lemma CountOfLast(s: seq<Value>, k: HintCategory, c: HintCategory)
    requires s != [] && c == CategoryOf(s[|s| - 1])
    ensures CountOf(s, k) == CountOf(s[..|s| - 1], k) + if c == k then 1 else 0
  {
  }

  /** The counting loop of `getHintSummary`. */
  method CountCategories(entries: seq<Value>) returns (recordHints: nat, treeHints: nat)
    ensures treeHints == CountOf(entries, Tree) && recordHints == CountOf(entries, Record)
  {
    recordHints, treeHints := 0, 0;
    var i := 0;
    while i < |entries|
      invariant 0 <= i <= |entries|
      invariant treeHints == CountOf(entries[..i], Tree)
      invariant recordHints == CountOf(entries[..i], Record)
    {
      recordHints, treeHints := Tally(entries, i, recordHints, treeHints);
      i := i + 1;
    }
    assert entries[..i] == entries;
  }

  /** One turn of the counting loop: entry `i` adds one to the count of its category. */
  method Tally(entries: seq<Value>, i: nat, recordHints: nat, treeHints: nat) returns (record: nat, tree: nat)
    requires i < |entries|
    requires treeHints == CountOf(entries[..i], Tree) && recordHints == CountOf(entries[..i], Record)
    ensures tree == CountOf(entries[..i + 1], Tree) && record == CountOf(entries[..i + 1], Record)
  {
    var category := ExtractCategory(entries[i]);
    CountOfStep(entries, i, Tree, category);
    CountOfStep(entries, i, Record, category);
    if category == Tree {
      record, tree := recordHints, treeHints + 1;
    } else {
      record, tree := recordHints + 1, treeHints;
    }
  }

  /**
   * `getHintSummary(personId)` once the matches request for the normalised id has been
   * answered with `response`: every entry counted once, as a tree hint or a record hint; an
   * authorisation failure passes through, any other is wrapped.
   */
  method GetHintSummary(personId: string, response: Fetch<Value>) returns (r: Result<HintSummary, ClientError>)
    ensures response.FetchFailed? ==> r == Failure(Rethrow(HintsFailure, response.error))
    ensures response.Fetched? ==>
      var entries := ExtractEntries(response.data);
      && r.Success?
      && r.value.personId == HintsPersonId(personId)
      && r.value.treeHints == CountOf(entries, Tree)
      && r.value.recordHints == CountOf(entries, Record)
      && r.value.total == r.value.recordHints + r.value.treeHints == |entries|
      && r.value.fsHintsUrl == BuildHintsUrl(r.value.personId)
  {
    if response.FetchFailed? {
      return Failure(Rethrow(HintsFailure, response.error));
    }
    var pid := HintsPersonId(personId);
    var entries := ExtractEntries(response.data);
    var recordHints, treeHints := CountCategories(entries);
    CountsCover(entries);
    var total := recordHints + treeHints;
    r := Success(HintSummary(pid, total, recordHints, treeHints, BuildHintsUrl(pid)));
  }
}

=== FILE: json.dfy ===
/**
 * The untyped JSON values the FamilySearch adapters receive (`any` in the source), with the
 * JavaScript operations the adapters apply to them: property access through `?.`, `??`,
 * truthiness, `Array.isArray`, `typeof x === "string"` and `String(x)`.
 */
module Json {
  import opened Wrappers
  import opened Text

  /** A parsed JSON body. Numbers are integers; `Undefined` is an absent property. */
  datatype Value =
    | Undefined
    | Null
    | Bool(b: bool)
    | Num(n: int)
    | Str(s: string)
    | Arr(items: seq<Value>)
    | Obj(fields: seq<(string, Value)>)

  /** `v == null`: the values `??` and `?.` skip. */
  predicate Nullish(v: Value) {
    v.Undefined? || v.Null?
  }

  /** JavaScript truthiness: `false`, `0`, `""`, `null` and `undefined` are falsy. */
  predicate Truthy(v: Value) {
    match v
    case Undefined => false
    case Null => false
    case Bool(b) => b
    case Num(n) => n != 0
    case Str(s) => s != ""
    case Arr(_) => true
    case Obj(_) => true
  }

  /** `a ?? b`. */
  function OrElse(a: Value, b: Value): (r: Value)
    ensures !Nullish(a) ==> r == a
    ensures Nullish(a) ==> r == b
  {
    if Nullish(a) then b else a
  }

  /** The value of the last entry named `k` (JSON.parse keeps the last duplicate). */
  function Lookup(fields: seq<(string, Value)>, k: string): (r: Value)
    ensures r.Undefined? || exists i :: 0 <= i < |fields| && fields[i] == (k, r)
    decreases |fields|
  {
    if fields == [] then Undefined
    else if fields[|fields| - 1].0 == k then fields[|fields| - 1].1
    else Lookup(fields[..|fields| - 1], k)
  }

  /** `v?.k`: undefined unless `v` is an object carrying `k`. */
  function Field(v: Value, k: string): (r: Value)
    ensures !v.Obj? ==> r.Undefined?
  {
    if v.Obj? then Lookup(v.fields, k) else Undefined
  }

  /** `v?.[i]`: undefined unless `v` is an array longer than `i`. */
  function At(v: Value, i: nat): (r: Value)
    ensures v.Arr? && i < |v.items| ==> r == v.items[i]
    ensures !(v.Arr? && i < |v.items|) ==> r.Undefined?
  {
    if v.Arr? && i < |v.items| then v.items[i] else Undefined
  }

  /** `Array.isArray(v) ? v : []`. */
  function ArrayOr(v: Value): (r: seq<Value>)
    ensures v.Arr? ==> r == v.items
    ensures !v.Arr? ==> r == []
  {
    if v.Arr? then v.items else []
  }

  /**
   * A value the source uses as a string. Values of the other JSON types are read as absent.
   * The source is not that uniform: some callers keep such a value as it is, and others call
   * a string method on it and throw.
   */
  function AsString(v: Value): (r: Option<string>)
    ensures r.Some? <==> v.Str?
  {
    if v.Str? then Some(v.s) else None
  }

  /** `String(v)`. */
  function ToJsString(v: Value): (r: string)
    ensures v.Str? ==> r == v.s
    decreases v
  {
    match v
    case Undefined => "undefined"
    case Null => "null"
    case Bool(b) => if b then "true" else "false"
    case Num(n) => IntString(n)
    case Str(s) => s
    case Arr(items) =>
      Join(seq(|items|, i requires 0 <= i < |items| =>
        if Nullish(items[i]) then "" else ToJsString(items[i])), ",")
    case Obj(_) => "[object Object]"
  }
}

=== FILE: mcp_server.dfy ===
/**
 * The parts of the MCP server (src/mcp/server.ts) that decide something: whether a request body
 * opens a session (`isInitialize`), how `fs.person_relatives` sorts a person's relationships into
 * parents, spouses and children, and how a tool turns a thrown error into its error reply
 * (`handleToolError`, with `loginUrlForSession`). The upstream request and the session lookup in
 * front of it are a `Fetch` parameter; the application origin is a parameter.
 */
module McpServer {
  import opened Wrappers
  import opened Text
  import opened Uri
  import opened Domain
  import opened Json
  import opened Seqs
  import opened OrderedMap

  // ------------------------------------------------------------------------------------------
  // isInitialize

  /** `msg?.method === "initialize"`. */
  predicate InitializeMessage(msg: Value) {
    Field(msg, "method") == Str("initialize")
  }

  /**
   * `isInitialize(body)`: a batch opens a session when one of its messages is an initialize
   * request; any other body when it is itself one. The falsiness and `typeof` tests in front
   * exclude nothing that could carry a `method`.
   */
  function IsInitialize(body: Value): (r: bool)
    ensures body.Arr? ==> (r <==> exists i :: 0 <= i < |body.items| && InitializeMessage(body.items[i]))
    ensures !body.Arr? ==> (r <==> InitializeMessage(body))
  {
    if !Truthy(body) then false
    else if body.Arr? then exists i :: 0 <= i < |body.items| && InitializeMessage(body.items[i])
    else body.Obj? && InitializeMessage(body)
  }

  /** An empty batch opens nothing. */
  lemma EmptyBatchIsNotInitialize()
    ensures !IsInitialize(Arr([]))
  {
  }

  /** Adding a message to a batch makes it an initialize batch exactly when that message is one. */
  lemma IsInitializeBatch(ms: seq<Value>, m: Value)
    requires !m.Arr?
    ensures IsInitialize(Arr(ms + [m])) <==> IsInitialize(Arr(ms)) || IsInitialize(m)
  {
    var b := ms + [m];
    assert b[|ms|] == m;
    assert forall i :: 0 <= i < |ms| ==> b[i] == ms[i];
    if IsInitialize(Arr(b)) {
      var i :| 0 <= i < |b| && InitializeMessage(b[i]);
      if i < |ms| {
        assert InitializeMessage(ms[i]);
      }
    }
  }

  // ------------------------------------------------------------------------------------------
  // fs.person_relatives

  /** The relatives gathered so far, as `personsMap.get(id)` for each id pushed, found or not. */
  datatype Relatives = Relatives(parents: seq<Value>, spouses: seq<Value>, children: seq<Value>)

  /** What a tool answers: its summary with the three lists, or an error reply. */
  datatype ToolOutput =
    | RelativesFound(summary: string, parents: seq<Value>, spouses: seq<Value>, children: seq<Value>)
    | ToolError(texts: seq<string>, code: string, loginUrl: Option<string>)

  const ChildAndParents := "ChildAndParentsRelationship"
  const Couple := "Couple"

  /** The messages of the `TypeError`s the handler can throw on a body of the wrong shape. */
  const PersonsNotList := "persons.map is not a function"
  const PersonIsNull := "Cannot read properties of null (reading 'id')"
  const RelationshipsNotIterable := "relationships is not iterable"
  const TypeHasNoIncludes := "type?.includes is not a function"

  /** `rel?.type`. */
  function TypeOf(rel: Value): Value {
    Field(rel, "type")
  }

  /** `rel.<role>?.resourceId`. */
  function ResourceIdOf(rel: Value, role: string): Value {
    Field(Field(rel, role), "resourceId")
  }

  /** A `type` on which `type?.includes(...)` can be called: absent, a string or a list. */
  predicate IncludesDefined(t: Value) {
    Nullish(t) || t.Str? || t.Arr?
  }

  /** `type?.includes(text)`: substring search on a string, element search on a list. */
  predicate Includes(t: Value, text: string)
    requires IncludesDefined(t)
  {
    if t.Str? then Contains(t.s, text) else if t.Arr? then Str(text) in t.items else false
  }

  /** `personsMap.get(id)`: the person stored under `id`, or undefined. */
  function MapGet(m: seq<(Value, Value)>, id: Value): (r: Value)
    ensures r.Undefined? || r in Values(m)
    ensures id !in Keys(m) ==> r.Undefined?
  {
    var found := Get(m, id);
    if found.Some? then
      var i :| 0 <= i < |m| && m[i] == (id, found.value);
      assert Values(m)[i] == found.value;
      found.value
    else Undefined
  }

  /** `map.set(k, v)` keeps the entries it does not replace and adds only `(k, v)`. */
  lemma PutEntries<K, V>(m: seq<(K, V)>, k: K, v: V)
    ensures forall e :: e in Put(m, k, v) ==> e in m || e == (k, v)
  {
    var i := IndexOf(m, k);
    assert Put(m, k, v) == if i < 0 then m + [(k, v)] else m[i := (k, v)];
    forall e | e in Put(m, k, v)
      ensures e in m || e == (k, v)
    {
      var j :| 0 <= j < |Put(m, k, v)| && Put(m, k, v)[j] == e;
      if j < |m| && j != i {
        assert m[j] == e;
      }
    }
  }

  /**
   * `new Map(persons.map((p) => [p.id, p]))` over a list without null items: every stored value
   * is one of the persons.
   */
  function PersonsMap(persons: seq<Value>): (m: seq<(Value, Value)>)
    ensures forall i :: 0 <= i < |m| ==> m[i].1 in persons
    decreases |persons|
  {
    if persons == [] then []
    else
      var n := |persons| - 1;
      var prior := PersonsMap(persons[..n]);
      var p := persons[n];
      var m := Put(prior, Field(p, "id"), p);
      PutEntries(prior, Field(p, "id"), p);
      assert forall e :: e in prior ==> e.1 in persons[..n] by {
        forall e | e in prior ensures e.1 in persons[..n] {
          var j :| 0 <= j < |prior| && prior[j] == e;
        }
      }
      assert forall i :: 0 <= i < |m| ==> m[i] in prior || m[i] == (Field(p, "id"), p);
      assert forall i :: 0 <= i < n ==> persons[i] == persons[..n][i];
      m
  }

  /** `data?.persons ?? []` is a list without null items, the only shape the map is built from. */
  predicate PersonsListed(data: Value) {
    var persons := OrElse(Field(data, "persons"), Arr([]));
    persons.Arr? && forall i :: 0 <= i < |persons.items| ==> !Nullish(persons.items[i])
  }

  /** `data?.persons ?? []` turned into the map; a non-list or a null person throws. */
  function PersonsMapOf(data: Value): (r: Result<seq<(Value, Value)>, ClientError>)
    ensures r.Success? <==> PersonsListed(data)
    ensures r.Success? ==> forall i :: 0 <= i < |r.value| ==> r.value[i].1 in ArrayOr(Field(data, "persons"))
  {
    var persons := OrElse(Field(data, "persons"), Arr([]));
    if !persons.Arr? then Failure(RequestFailure(PersonsNotList))
    else if exists i :: 0 <= i < |persons.items| && Nullish(persons.items[i]) then Failure(RequestFailure(PersonIsNull))
    else Success(PersonsMap(persons.items))
  }

  /**
   * `for (const rel of data?.relationships ?? [])`: a list is walked item by item; a string
   * yields characters, which carry no `type` and so contribute nothing; anything else throws.
   */
  function RelationshipsOf(data: Value): (r: Result<seq<Value>, ClientError>)
    ensures r.Success? <==> IsIterable(OrElse(Field(data, "relationships"), Arr([])))
    ensures r.Success? ==> r.value == ArrayOr(Field(data, "relationships"))
  {
    var rels := OrElse(Field(data, "relationships"), Arr([]));
    if rels.Arr? then Success(rels.items)
    else if rels.Str? then Success([])
    else Failure(RequestFailure(RelationshipsNotIterable))
  }

  predicate IsIterable(v: Value) {
    v.Arr? || v.Str?
  }

  /**
   * The parents one relationship adds: only a child-and-parents relationship whose child is `pid`
   * adds any, one for each of `parent1` and `parent2` that is given, in that order.
   */
  function ParentsAdded(rel: Value, pid: string, pm: seq<(Value, Value)>): (r: seq<Value>)
    requires IncludesDefined(TypeOf(rel))
    ensures |r| <= 2 && FromMap(r, pm)
    ensures r != [] ==> Includes(TypeOf(rel), ChildAndParents) && ResourceIdOf(rel, "child") == Str(pid)
    ensures Includes(TypeOf(rel), ChildAndParents) && ResourceIdOf(rel, "child") == Str(pid) ==>
      (|r| == 2 <==> Truthy(ResourceIdOf(rel, "parent1")) && Truthy(ResourceIdOf(rel, "parent2")))
    ensures r != [] && Truthy(ResourceIdOf(rel, "parent1")) ==> r[0] == MapGet(pm, ResourceIdOf(rel, "parent1"))
    ensures r != [] && Truthy(ResourceIdOf(rel, "parent2")) ==> r[|r| - 1] == MapGet(pm, ResourceIdOf(rel, "parent2"))
  {
    var p1 := ResourceIdOf(rel, "parent1");
    var p2 := ResourceIdOf(rel, "parent2");
    if Includes(TypeOf(rel), ChildAndParents) && ResourceIdOf(rel, "child") == Str(pid) then
      (if Truthy(p1) then [MapGet(pm, p1)] else []) + (if Truthy(p2) then [MapGet(pm, p2)] else [])
    else []
  }

  /**
   * The child one relationship adds: a child-and-parents relationship whose child is given and is
   * not `pid` adds that child, whoever its parents are.
   */
  function ChildrenAdded(rel: Value, pid: string, pm: seq<(Value, Value)>): (r: seq<Value>)
    requires IncludesDefined(TypeOf(rel))
    ensures |r| <= 1 && FromMap(r, pm)
    ensures r != [] <==> (Includes(TypeOf(rel), ChildAndParents)
      && ResourceIdOf(rel, "child") != Str(pid) && Truthy(ResourceIdOf(rel, "child")))
    ensures r != [] ==> r[0] == MapGet(pm, ResourceIdOf(rel, "child"))
  {
    var child := ResourceIdOf(rel, "child");
    if Includes(TypeOf(rel), ChildAndParents) && child != Str(pid) && Truthy(child) then [MapGet(pm, child)]
    else []
  }

  /**
   * The spouse one relationship adds: in a couple relationship naming `pid` on one side and
   * someone on the other, that other person (`person1`'s side is looked at first).
   */
  function SpousesAdded(rel: Value, pid: string, pm: seq<(Value, Value)>): (r: seq<Value>)
    requires IncludesDefined(TypeOf(rel))
    ensures |r| <= 1 && FromMap(r, pm)
    ensures r != [] <==> (Includes(TypeOf(rel), Couple) && (
      (ResourceIdOf(rel, "person1") == Str(pid) && Truthy(ResourceIdOf(rel, "person2"))) ||
      (ResourceIdOf(rel, "person2") == Str(pid) && Truthy(ResourceIdOf(rel, "person1")))))
    ensures r != [] && ResourceIdOf(rel, "person1") == Str(pid) && Truthy(ResourceIdOf(rel, "person2")) ==>
      r == [MapGet(pm, ResourceIdOf(rel, "person2"))]
    ensures r != [] && ResourceIdOf(rel, "person1") != Str(pid) ==> r == [MapGet(pm, ResourceIdOf(rel, "person1"))]
  {
    var p1 := ResourceIdOf(rel, "person1");
    var p2 := ResourceIdOf(rel, "person2");
    if !Includes(TypeOf(rel), Couple) then []
    else if p1 == Str(pid) && Truthy(p2) then [MapGet(pm, p2)]
    else if p2 == Str(pid) && Truthy(p1) then [MapGet(pm, p1)]
    else []
  }

  /** Every entry is either `undefined` (an id missing from the map) or a stored person. */
  predicate FromMap(xs: seq<Value>, pm: seq<(Value, Value)>) {
    forall i :: 0 <= i < |xs| ==> xs[i].Undefined? || xs[i] in Values(pm)
  }

  /** Every relative gathered is a stored person or undefined. */
  predicate Stored(rs: Relatives, pm: seq<(Value, Value)>) {
    FromMap(rs.parents, pm) && FromMap(rs.spouses, pm) && FromMap(rs.children, pm)
  }

  /** At most two parents, one spouse and one child for each of `n` relationships. */
  predicate WithinBounds(rs: Relatives, n: nat) {
    |rs.parents| <= 2 * n && |rs.spouses| <= n && |rs.children| <= n
  }

  /** One pass of the loop body over `rel`. */
  function Visit(acc: Relatives, rel: Value, pid: string, pm: seq<(Value, Value)>): (r: Result<Relatives, ClientError>)
    ensures r.Failure? <==> !IncludesDefined(TypeOf(rel))
    ensures r.Success? && Stored(acc, pm) ==> Stored(r.value, pm)
    ensures r.Success? ==> (|r.value.parents| <= |acc.parents| + 2
      && |r.value.spouses| <= |acc.spouses| + 1 && |r.value.children| <= |acc.children| + 1)
  {
    if !IncludesDefined(TypeOf(rel)) then Failure(RequestFailure(TypeHasNoIncludes))
    else Success(Relatives(
      acc.parents + ParentsAdded(rel, pid, pm),
      acc.spouses + SpousesAdded(rel, pid, pm),
      acc.children + ChildrenAdded(rel, pid, pm)))
  }

  /**
   * The whole loop: the relatives of `pid` gathered from `rels` in order, or the error of the
   * first relationship whose `type` has no `includes`.
   */
  function Classify(rels: seq<Value>, pid: string, pm: seq<(Value, Value)>): (r: Result<Relatives, ClientError>)
    ensures r.Failure? <==> exists i :: 0 <= i < |rels| && !IncludesDefined(TypeOf(rels[i]))
    decreases |rels|
  {
    if rels == [] then Success(Relatives([], [], []))
    else
      var n := |rels| - 1;
      assert forall i :: 0 <= i < n ==> rels[..n][i] == rels[i];
      var prior := Classify(rels[..n], pid, pm);
      if prior.Failure? then prior
      else Visit(prior.value, rels[n], pid, pm)
  }

  /** Whatever the loop gathers is bounded by the number of relationships and stored in the map. */
  lemma {:induction false} ClassifyShape(rels: seq<Value>, pid: string, pm: seq<(Value, Value)>)
    requires Classify(rels, pid, pm).Success?
    ensures WithinBounds(Classify(rels, pid, pm).value, |rels|) && Stored(Classify(rels, pid, pm).value, pm)
    decreases |rels|
  {
    if rels != [] {
      ClassifyShape(rels[..|rels| - 1], pid, pm);
    }
  }

  /** Once the loop has thrown, the relationships after that point change nothing. */
  lemma {:induction false} ClassifyStaysFailed(rels: seq<Value>, k: nat, pid: string, pm: seq<(Value, Value)>)
    requires k <= |rels| && Classify(rels[..k], pid, pm).Failure?
    ensures Classify(rels, pid, pm) == Classify(rels[..k], pid, pm)
    decreases |rels|
  {
    if k < |rels| {
      var n := |rels| - 1;
      assert rels[..n][..k] == rels[..k];
      ClassifyStaysFailed(rels[..n], k, pid, pm);
    } else {
      assert rels[..k] == rels;
    }
  }

  /** A person who is the child in no relationship gets no parents. */
  lemma {:induction false} NoParentsUnlessChild(rels: seq<Value>, pid: string, pm: seq<(Value, Value)>)
    requires forall i :: 0 <= i < |rels| ==> ResourceIdOf(rels[i], "child") != Str(pid)
    requires Classify(rels, pid, pm).Success?
    ensures Classify(rels, pid, pm).value.parents == []
    decreases |rels|
  {
    if rels != [] {
      var n := |rels| - 1;
      assert forall i :: 0 <= i < n ==> rels[..n][i] == rels[i];
      NoParentsUnlessChild(rels[..n], pid, pm);
    }
  }

  /** A person named on neither side of any relationship gets no spouses. */
  lemma {:induction false} NoSpousesUnlessPartner(rels: seq<Value>, pid: string, pm: seq<(Value, Value)>)
    requires forall i :: 0 <= i < |rels| ==>
      ResourceIdOf(rels[i], "person1") != Str(pid) && ResourceIdOf(rels[i], "person2") != Str(pid)
    requires Classify(rels, pid, pm).Success?
    ensures Classify(rels, pid, pm).value.spouses == []
    decreases |rels|
  {
    if rels != [] {
      var n := |rels| - 1;
      assert forall i :: 0 <= i < n ==> rels[..n][i] == rels[i];
      NoSpousesUnlessPartner(rels[..n], pid, pm);
    }
  }

  /**
   * `listed` is what `.filter(Boolean)` leaves of `pushed`: the entries that are not undefined,
   * in their order, none dropped.
   */
  predicate Kept(listed: seq<Value>, pushed: seq<Value>) {
    Subsequence(listed, pushed)
    && (forall i :: 0 <= i < |listed| ==> Truthy(listed[i]))
    && (forall i :: 0 <= i < |pushed| && Truthy(pushed[i]) ==> pushed[i] in listed)
  }

  /** `.filter(Boolean)`. */
  function Found(pushed: seq<Value>): (listed: seq<Value>)
    ensures Kept(listed, pushed)
  {
    FilterSubsequence(pushed, Truthy);
    Filter(pushed, Truthy)
  }

  /** The summary line, which counts every id pushed, found or not. */
  function Summary(pid: string, rs: Relatives): string {
    "Pessoa " + pid + ": " + IntString(|rs.parents|) + " pai(s), "
      + IntString(|rs.spouses|) + " cônjuge(s), " + IntString(|rs.children|) + " filho(s)."
  }

  /** The reply: the summary over the lists as pushed, and the lists with the persons found. */
  function RelativesReply(pid: string, rs: Relatives): (out: ToolOutput)
    ensures out.RelativesFound? && out.summary == Summary(pid, rs)
    ensures Kept(out.parents, rs.parents) && Kept(out.spouses, rs.spouses) && Kept(out.children, rs.children)
  {
    RelativesFound(Summary(pid, rs), Found(rs.parents), Found(rs.spouses), Found(rs.children))
  }

  /**
   * `fs.person_relatives`: the body of the person's relatives request, sorted into the reply, or
   * the error reply for whatever was thrown on the way.
   */
  function RelativesTool(pid: string, sessionId: Option<string>, origin: string, response: Fetch<Value>): (out: ToolOutput)
    ensures out.RelativesFound? <==> (response.Fetched? && PersonsMapOf(response.data).Success?
      && RelationshipsOf(response.data).Success?
      && Classify(RelationshipsOf(response.data).value, pid, PersonsMapOf(response.data).value).Success?)
  {
    match response
    case FetchFailed(e) => HandleToolError(e, sessionId, origin)
    case Fetched(data) =>
      match PersonsMapOf(data)
      case Failure(e) => HandleToolError(e, sessionId, origin)
      case Success(pm) =>
        match RelationshipsOf(data)
        case Failure(e) => HandleToolError(e, sessionId, origin)
        case Success(rels) =>
          match Classify(rels, pid, pm)
          case Failure(e) => HandleToolError(e, sessionId, origin)
          case Success(rs) => RelativesReply(pid, rs)
  }

  /** Every relative listed in a reply is a person record of the response, and none is empty. */
  lemma ListedRelativesArePersons(pid: string, sessionId: Option<string>, origin: string, data: Value)
    requires RelativesTool(pid, sessionId, origin, Fetched(data)).RelativesFound?
    ensures var out := RelativesTool(pid, sessionId, origin, Fetched(data));
      ListedPersons(out.parents, data) && ListedPersons(out.spouses, data) && ListedPersons(out.children, data)
  {
    var pm := PersonsMapOf(data).value;
    var rels := RelationshipsOf(data).value;
    ClassifyShape(rels, pid, pm);
    var rs := Classify(rels, pid, pm).value;
    ListedFromMap(rs.parents, pm, data);
    ListedFromMap(rs.spouses, pm, data);
    ListedFromMap(rs.children, pm, data);
  }

  /** Every entry is a person record of the response, and none is empty. */
  predicate ListedPersons(xs: seq<Value>, data: Value) {
    forall i :: 0 <= i < |xs| ==> Truthy(xs[i]) && xs[i] in ArrayOr(Field(data, "persons"))
  }

  lemma ListedFromMap(pushed: seq<Value>, pm: seq<(Value, Value)>, data: Value)
    requires PersonsMapOf(data) == Success(pm) && FromMap(pushed, pm)
    ensures ListedPersons(Found(pushed), data)
  {
    var listed := Found(pushed);
    forall i | 0 <= i < |listed|
      ensures Truthy(listed[i]) && listed[i] in ArrayOr(Field(data, "persons"))
    {
      var j :| 0 <= j < |pushed| && pushed[j] == listed[i];
      assert listed[i] in Values(pm);
      var k :| 0 <= k < |pm| && Values(pm)[k] == listed[i];
    }
  }

  /** A relationship making `P1` the child of `P2`, in a response whose persons list is empty. */
  const MissingParent := Obj([
    ("child", Obj([("resourceId", Str("P1"))])),
    ("parent1", Obj([("resourceId", Str("P2"))])),
    ("type", Str(ChildAndParents))])
  const MissingParentBody := Obj([("persons", Arr([])), ("relationships", Arr([MissingParent]))])

  /**
   * A relationship naming `pid` as the child of one given parent, over an empty persons list,
   * gives one parent that is undefined and nothing else.
   */
  lemma {:induction false} OneParentNotFound(rel: Value, pid: string)
    requires IncludesDefined(TypeOf(rel))
    requires Includes(TypeOf(rel), ChildAndParents) && !Includes(TypeOf(rel), Couple)
    requires ResourceIdOf(rel, "child") == Str(pid)
    requires Truthy(ResourceIdOf(rel, "parent1")) && !Truthy(ResourceIdOf(rel, "parent2"))
    ensures Classify([rel], pid, []) == Success(Relatives([Undefined], [], []))
  {
    var none: seq<Value> := [];
    assert MapGet([], ResourceIdOf(rel, "parent1")) == Undefined;
    assert ParentsAdded(rel, pid, []) == [Undefined];
    assert ChildrenAdded(rel, pid, []) == none;
    assert SpousesAdded(rel, pid, []) == none;
    assert none + [Undefined] == [Undefined] && none + none == none;
    assert [rel][..0] == none;
  }

  /** A field lookup in a three-field object: the last entry carrying the name wins. */
  lemma LookupThree(a: (string, Value), b: (string, Value), c: (string, Value), k: string)
    ensures Lookup([a, b, c], k) == if c.0 == k then c.1 else if b.0 == k then b.1 else if a.0 == k then a.1 else Undefined
  {
    assert [a, b, c][..2] == [a, b];
    assert [a, b][..1] == [a];
    assert [a][..0] == [];
    assert Lookup([a], k) == if a.0 == k then a.1 else Undefined;
    assert Lookup([a, b], k) == if b.0 == k then b.1 else Lookup([a], k);
  }

  lemma MissingParentFields()
    ensures IncludesDefined(TypeOf(MissingParent))
    ensures Includes(TypeOf(MissingParent), ChildAndParents) && !Includes(TypeOf(MissingParent), Couple)
    ensures ResourceIdOf(MissingParent, "child") == Str("P1")
    ensures ResourceIdOf(MissingParent, "parent1") == Str("P2")
    ensures ResourceIdOf(MissingParent, "parent2") == Undefined
  {
    var child := ("child", Obj([("resourceId", Str("P1"))]));
    var parent1 := ("parent1", Obj([("resourceId", Str("P2"))]));
    var kind := ("type", Str(ChildAndParents));
    assert MissingParent.fields == [child, parent1, kind];
    LookupThree(child, parent1, kind, "type");
    LookupThree(child, parent1, kind, "child");
    LookupThree(child, parent1, kind, "parent1");
    LookupThree(child, parent1, kind, "parent2");
    assert Lookup([("resourceId", Str("P1"))], "resourceId") == Str("P1");
    assert Lookup([("resourceId", Str("P2"))], "resourceId") == Str("P2");
    assert StartsWith(ChildAndParents, ChildAndParents);
    NotContains(ChildAndParents, Couple);
  }

  /**
   * The summary counts ids the persons list does not hold, while the lists leave them out: a
   * parent missing from the response is counted as one parent and listed as none.
   */
  lemma SummaryCountsMissingPersons()
    ensures RelativesTool("P1", None, "https://app", Fetched(MissingParentBody))
      == RelativesFound("Pessoa " + "P1" + ": " + "1" + " pai(s), " + "0" + " cônjuge(s), " + "0" + " filho(s).", [], [], [])
  {
    var data := MissingParentBody;
    assert data.fields[1].0 != "persons";
    assert data.fields[..1] == [("persons", Arr([]))];
    assert Lookup(data.fields[..1], "persons") == Arr([]);
    assert Lookup(data.fields, "persons") == Lookup(data.fields[..1], "persons");
    assert Field(data, "persons") == Arr([]);
    assert PersonsMapOf(data) == Success([]);
    assert RelationshipsOf(data) == Success([MissingParent]);
    MissingParentFields();
    OneParentNotFound(MissingParent, "P1");
    var rs := Relatives([Undefined], [], []);
    assert IntString(1) == "1" && IntString(0) == "0";
    assert Found([Undefined]) == [];
  }

  /** `text` starts at no position of `s`, checked position by position. */
  lemma {:induction false} NotContains(s: string, text: string)
    requires |text| >= 2
    requires forall i :: 0 <= i < |s| - 1 ==> s[i] != text[0] || s[i + 1] != text[1]
    ensures !Contains(s, text)
    decreases |s|
  {
    if |text| <= |s| {
      assert s[..|text|][0] == s[0] && s[..|text|][1] == s[1];
    }
    if s != [] {
      forall i | 0 <= i < |s[1..]| - 1
        ensures s[1..][i] != text[0] || s[1..][i + 1] != text[1]
      {
        assert s[1..][i] == s[i + 1] && s[1..][i + 1] == s[i + 2];
      }
      NotContains(s[1..], text);
    }
  }

  // ------------------------------------------------------------------------------------------
  // handleToolError and loginUrlForSession

  /** The `code` a `FamilySearchAuthError` carries (src/lib/familysearch/client.ts). */
  function AuthCodeText(code: AuthCode): (r: string)
    ensures r != UnexpectedError
  {
    match code
    case NotLinked => "not_linked"
    case Expired => "expired"
    case RefreshFailed => "refresh_failed"
  }

  const UnexpectedError := "unexpected_error"
  const LoginPath := "/api/auth/login"

  /** The characters `URLSearchParams` writes as they are. */
  predicate FormSafe(c: char) {
    IsAsciiAlnum(c) || c in "*-._"
  }

  /** One character as `URLSearchParams` serialises it: space as `+`, the rest UTF-8 escaped. */
  function FormChar(c: char): (r: string)
    ensures forall i :: 0 <= i < |r| ==> FormSafe(r[i]) || r[i] == '+' || r[i] == '%'
    ensures FormSafe(c) ==> r == [c]
  {
    if FormSafe(c) then [c]
    else if c == ' ' then "+"
    else
      var r := PercentBytes(Utf8(c as int));
      assert forall i :: 0 <= i < |r| ==> r[i] == '%' || IsUpperHex(r[i]);
      r
  }

  /** What `URLSearchParams` writes ends no query value: no `&`, `#`, `=` or space. */
  lemma NotADelimiter(c: char)
    requires FormSafe(c) || c == '+' || c == '%'
    ensures c != '&' && c != '#' && c != '=' && c != ' '
  {
    assert "*-._" == ['*', '-', '.', '_'];
  }

  /** A query value as `URLSearchParams` serialises it. */
  function FormEncode(s: string): (r: string)
    ensures forall i :: 0 <= i < |r| ==> FormSafe(r[i]) || r[i] == '+' || r[i] == '%'
    ensures (forall i :: 0 <= i < |s| ==> FormSafe(s[i])) ==> r == s
    decreases |s|
  {
    if s == [] then [] else FormChar(s[0]) + FormEncode(s[1..])
  }

  lemma {:induction false} FormEncodeAppend(a: string, b: string)
    ensures FormEncode(a + b) == FormEncode(a) + FormEncode(b)
    decreases |a|
  {
    if a == [] {
      assert a + b == b;
    } else {
      assert (a + b)[0] == a[0] && (a + b)[1..] == a[1..] + b;
      FormEncodeAppend(a[1..], b);
    }
  }

  /** The colon after `mcp` is the one character of the prefix that is escaped. */
  lemma McpPrefixEncoded()
    ensures FormEncode("mcp:") == "mcp%3A"
  {
    assert FormChar(':') == "%3A" by {
      assert Utf8(':' as int) == [58];
      assert PercentBytes([58]) == PercentByte(58) + PercentBytes([]);
      assert HexDigit(3) == '3' && HexDigit(10) == 'A';
    }
    assert FormEncode(":") == "%3A" + FormEncode([]);
    assert FormEncode("p:") == "p" + FormEncode(":");
    assert FormEncode("cp:") == "c" + FormEncode("p:");
    assert FormEncode("mcp:") == "m" + FormEncode("cp:");
  }

  /** The login page's address up to the `state` value. */
  function LoginStateHead(origin: string): string {
    origin + LoginPath + "?state="
  }

  /**
   * `loginUrlForSession(sessionId)`: the login page with `state=mcp:<sessionId>`, the colon and
   * anything in the session id that could end the value escaped.
   */
  function LoginUrlForSession(origin: string, sessionId: string): (url: string)
    ensures StartsWith(url, LoginStateHead(origin))
    ensures url[|LoginStateHead(origin)|..] == "mcp%3A" + FormEncode(sessionId)
    ensures forall i :: |LoginStateHead(origin)| <= i < |url| ==>
      url[i] != '&' && url[i] != '#' && url[i] != '=' && url[i] != ' '
  {
    FormEncodeAppend("mcp:", sessionId);
    McpPrefixEncoded();
    var head := LoginStateHead(origin);
    var value := FormEncode("mcp:" + sessionId);
    var url := head + value;
    assert url[..|head|] == head && url[|head|..] == value;
    forall i | |head| <= i < |url|
      ensures url[i] != '&' && url[i] != '#' && url[i] != '=' && url[i] != ' '
    {
      assert url[i] == value[i - |head|];
      NotADelimiter(url[i]);
    }
    url
  }

  /**
   * `handleToolError(err, sessionId)`: an authorisation failure answers with its message, its
   * code and a login link (for this MCP session when there is one); anything else is an
   * unexpected error with no link.
   */
  function HandleToolError(err: ClientError, sessionId: Option<string>, origin: string): (out: ToolOutput)
    ensures out.ToolError?
    ensures out.code == UnexpectedError <==> err.RequestFailure?
    ensures out.loginUrl.Some? <==> err.AuthFailure?
    ensures err.AuthFailure? ==> (out.code == AuthCodeText(err.code) && |out.texts| == 2 && out.texts[0] == err.message
      && out.texts[1] == "Abra " + out.loginUrl.value + " para concluir a conexão.")
    ensures err.AuthFailure? && TextGiven(sessionId) ==> out.loginUrl == Some(LoginUrlForSession(origin, sessionId.value))
    ensures err.AuthFailure? && !TextGiven(sessionId) ==> out.loginUrl == Some(LoginStateHead(origin) + "mcp")
    ensures err.RequestFailure? ==> out.texts == ["Erro inesperado: " + err.message]
  {
    match err
    case AuthFailure(code, message) =>
      var url := if TextGiven(sessionId) then LoginUrlForSession(origin, sessionId.value)
        else LoginStateHead(origin) + "mcp";
      ToolError([message, "Abra " + url + " para concluir a conexão."], AuthCodeText(code), Some(url))
    case RequestFailure(message) =>
      ToolError(["Erro inesperado: " + message], UnexpectedError, None)
  }

  // ------------------------------------------------------------------------------------------
  // The relatives loop itself

  /**
   * The handler of `fs.person_relatives`, pushing into the three lists relationship by
   * relationship; it answers exactly what `RelativesTool` describes.
   */
  method PersonRelatives(pid: string, sessionId: Option<string>, origin: string, response: Fetch<Value>)
    returns (out: ToolOutput)
    ensures out == RelativesTool(pid, sessionId, origin, response)
  {
    if response.FetchFailed? {
      return HandleToolError(response.error, sessionId, origin);
    }
    var data := response.data;
    var personsMap := PersonsMapOf(data);
    if personsMap.Failure? {
      return HandleToolError(personsMap.error, sessionId, origin);
    }
    var relationships := RelationshipsOf(data);
    if relationships.Failure? {
      return HandleToolError(relationships.error, sessionId, origin);
    }
    var classified := ClassifyAll(relationships.value, pid, personsMap.value);
    if classified.Failure? {
      return HandleToolError(classified.error, sessionId, origin);
    }
    out := RelativesReply(pid, classified.value);
  }

  /**
   * The `for ... of` loop over the relationships: it pushes relationship by relationship and
   * throws at the first one whose `type` has no `includes`, as `Classify` describes.
   */
  method ClassifyAll(rels: seq<Value>, pid: string, pm: seq<(Value, Value)>)
    returns (r: Result<Relatives, ClientError>)
    ensures r == Classify(rels, pid, pm)
  {
    var parents, spouses, children := [], [], [];
    var i := 0;
    while i < |rels|
      invariant 0 <= i <= |rels|
      invariant Classify(rels[..i], pid, pm) == Success(Relatives(parents, spouses, children))
    {
      var rel := rels[i];
      assert rels[..i + 1][..i] == rels[..i];
      if !IncludesDefined(TypeOf(rel)) {
        ClassifyStaysFailed(rels, i + 1, pid, pm);
        return Failure(RequestFailure(TypeHasNoIncludes));
      }
      parents, spouses, children := VisitRelationship(rel, pid, pm, parents, spouses, children);
      i := i + 1;
    }
    assert rels[..i] == rels;
    r := Success(Relatives(parents, spouses, children));
  }

  /** One pass of the loop body, over a relationship whose `type` has an `includes`. */
  method VisitRelationship(rel: Value, pid: string, pm: seq<(Value, Value)>,
    parents0: seq<Value>, spouses0: seq<Value>, children0: seq<Value>)
    returns (parents: seq<Value>, spouses: seq<Value>, children: seq<Value>)
    requires IncludesDefined(TypeOf(rel))
    ensures Visit(Relatives(parents0, spouses0, children0), rel, pid, pm) == Success(Relatives(parents, spouses, children))
  {
    parents, children := VisitChildAndParents(rel, pid, pm, parents0, children0);
    spouses := VisitCouple(rel, pid, pm, spouses0);
  }

  /** The parent-child branch of the loop body: the parents and the child it pushes. */
  method VisitChildAndParents(rel: Value, pid: string, pm: seq<(Value, Value)>,
    parents0: seq<Value>, children0: seq<Value>)
    returns (parents: seq<Value>, children: seq<Value>)
    requires IncludesDefined(TypeOf(rel))
    ensures parents == parents0 + ParentsAdded(rel, pid, pm)
    ensures children == children0 + ChildrenAdded(rel, pid, pm)
  {
    parents, children := parents0, children0;
    if Includes(TypeOf(rel), ChildAndParents) {
      var childId := ResourceIdOf(rel, "child");
      var parent1Id := ResourceIdOf(rel, "parent1");
      var parent2Id := ResourceIdOf(rel, "parent2");
      if childId == Str(pid) {
        if Truthy(parent1Id) {
          parents := parents + [MapGet(pm, parent1Id)];
        }
        if Truthy(parent2Id) {
          parents := parents + [MapGet(pm, parent2Id)];
        }
      } else if Truthy(childId) {
        children := children + [MapGet(pm, childId)];
      }
    }
  }

  /** The couple branch of the loop body: the spouse it pushes. */
  method VisitCouple(rel: Value, pid: string, pm: seq<(Value, Value)>, spouses0: seq<Value>)
    returns (spouses: seq<Value>)
    requires IncludesDefined(TypeOf(rel))
    ensures spouses == spouses0 + SpousesAdded(rel, pid, pm)
  {
    spouses := spouses0;
    if Includes(TypeOf(rel), Couple) {
      var person1Id := ResourceIdOf(rel, "person1");
      var person2Id := ResourceIdOf(rel, "person2");
      if person1Id == Str(pid) && Truthy(person2Id) {
        spouses := spouses + [MapGet(pm, person2Id)];
      } else if person2Id == Str(pid) && Truthy(person1Id) {
        spouses := spouses + [MapGet(pm, person1Id)];
      }
    }
  }
}

=== FILE: mock_adapters.dfy ===
/**
 * The mock place adapter (src/adapters/mock/mockPlaceAdapter.ts): lookups over the fixture
 * list of places. The list, which the source reads from `mocks/places.json` once at start-up,
 * is a parameter here.
 */
module MockPlaceAdapter {
  import opened Wrappers
  import opened Text
  import opened Domain
  import opened Seqs

  /** `slice(0, 10)`. */
  const SearchLimit := 10

  /** `p.displayName.toLowerCase().includes(q.toLowerCase())`. */
  predicate NameMatches(q: string, p: Place) {
    Contains(Lower(p.displayName), Lower(q))
  }

  /**
   * `searchPlaces(q)`: the first 10 places whose lower-cased name contains the lower-cased
   * query, in list order; all of them when fewer than 10 match.
   */
  function SearchPlaces(places: seq<Place>, q: string): (r: seq<Place>)
    ensures var matching := Filter(places, (p: Place) => NameMatches(q, p));
      |r| == (if |matching| < SearchLimit then |matching| else SearchLimit) && r == matching[..|r|]
    ensures |r| <= SearchLimit
    ensures forall i :: 0 <= i < |r| ==> r[i] in places && NameMatches(q, r[i])
    ensures Subsequence(r, places)
    ensures |r| < SearchLimit ==> forall i :: 0 <= i < |places| && NameMatches(q, places[i]) ==> places[i] in r
  {
    var matching := Filter(places, (p: Place) => NameMatches(q, p));
    FilterSubsequence(places, (p: Place) => NameMatches(q, p));
    SubsequencePrefix(matching, places, |Take(matching, SearchLimit)|);
    assert Take(matching, SearchLimit) == matching[..|Take(matching, SearchLimit)|];
    Take(matching, SearchLimit)
  }

  /** Every name contains the empty string, so an empty query lists the first 10 places. */
  lemma SearchPlacesEmptyQuery(places: seq<Place>)
    ensures SearchPlaces(places, "") == Take(places, SearchLimit)
  {
    forall i | 0 <= i < |places|
      ensures NameMatches("", places[i])
    {
      assert StartsWith(Lower(places[i].displayName), "");
    }
    FilterAll(places, (p: Place) => NameMatches("", p));
  }

  /**
   * `resolvePlaceSync(id)`: the first place whose id is exactly `id`; absent when no place has
   * that id.
   */
  function ResolvePlaceSync(places: seq<Place>, id: Id): (r: Option<Place>)
    ensures r.None? <==> forall j :: 0 <= j < |places| ==> places[j].id != id
    ensures r.Some? ==> r.value.id == id
    ensures r.Some? ==>
      exists i :: 0 <= i < |places| && places[i] == r.value && (forall j :: 0 <= j < i ==> places[j].id != id)
  {
    FindIsFirst(places, (p: Place) => p.id == id);
    Find(places, (p: Place) => p.id == id)
  }

  /** `getPlaceById(id)`: the same search as `resolvePlaceSync`, so the two always agree. */
  function GetPlaceById(places: seq<Place>, id: Id): (r: Option<Place>)
    ensures r == ResolvePlaceSync(places, id)
  {
    Find(places, (p: Place) => p.id == id)
  }
}

/**
 * The mock person search (src/adapters/mock/mockSearchAdapter.ts): a case-insensitive name
 * pre-filter over the fixture persons, then the shared ranking with the query place resolved
 * from the fixture places. Both fixture lists, read from `mocks/` in the source, are parameters.
 */
module MockSearchAdapter {
  import opened Wrappers
  import opened Text
  import opened Domain
  import opened Seqs
  import opened Ranking
  import opened MockPlaceAdapter

  /** `p.name.toLowerCase().includes(params.name.toLowerCase())`. */
  predicate PersonMatches(name: string, p: Person) {
    Contains(Lower(p.name), Lower(name))
  }

  /** The pre-filter: the matching persons, each as often as it occurs, in list order. */
  function Prefiltered(persons: seq<Person>, name: string): (r: seq<Person>)
    ensures forall i :: 0 <= i < |r| ==> r[i] in persons && PersonMatches(name, r[i])
    ensures forall p :: PersonMatches(name, p) ==> multiset(r)[p] == multiset(persons)[p]
    ensures Subsequence(r, persons)
  {
    var r := Filter(persons, (p: Person) => PersonMatches(name, p));
    forall p | PersonMatches(name, p)
      ensures multiset(r)[p] == multiset(persons)[p]
    {
      FilterCounts(persons, (p: Person) => PersonMatches(name, p), p);
    }
    FilterSubsequence(persons, (p: Person) => PersonMatches(name, p));
    r
  }

  /** `(id) => resolvePlaceSync(id)`. */
  function PlaceResolver(places: seq<Place>): Id -> Option<Place> {
    id => ResolvePlaceSync(places, id)
  }

  /**
   * `searchPersons(params)`: the pre-filtered persons ranked best-first, with the query place
   * looked up in the fixture places. Every matching person appears as often as it occurs in the
   * fixture, and no other person appears.
   */
  method SearchPersons(params: SearchParams, persons: seq<Person>, places: seq<Place>)
    returns (list: seq<MatchCandidate>)
    ensures list == SortByScore(EvaluateAll(params,
      if TextGiven(params.placeId) then ResolvePlaceSync(places, params.placeId.value) else None,
      Prefiltered(persons, params.name)))
    ensures |list| == |Prefiltered(persons, params.name)|
    ensures forall i :: 0 <= i < |list| ==> list[i].person in persons && PersonMatches(params.name, list[i].person)
    ensures forall p :: PersonMatches(params.name, p) ==> multiset(Persons(list))[p] == multiset(persons)[p]
    ensures SortedByScore(list)
  {
    var prelim := Prefiltered(persons, params.name);
    list := RankCandidates(params, prelim, Some(PlaceResolver(places)));
    forall i | 0 <= i < |list|
      ensures list[i].person in persons && PersonMatches(params.name, list[i].person)
    {
      assert Persons(list)[i] == list[i].person;
      assert list[i].person in multiset(prelim);
    }
  }
}

=== FILE: normalization.dfy ===
/**
 * Name canonicalisation, token-set name similarity and the place-matching ladder
 * (src/services/normalization.ts).
 */
module Normalization {
  import opened Wrappers
  import opened Text
  import opened Domain

  // ---------------------------------------------------------------- normalizeName

  /** The alphabet of a canonical name: `a`..`z` and the plain space. */
  predicate IsNameChar(c: char) {
    IsLowerLetter(c) || c == ' '
  }

  /**
   * A canonical name: lower-case ASCII letters separated by single spaces, with no space at
   * either end.
   */
  predicate IsNormalName(s: string) {
    && (forall i :: 0 <= i < |s| ==> IsNameChar(s[i]))
    && (s != [] ==> s[0] != ' ' && s[|s| - 1] != ' ')
    && (forall i :: 0 <= i < |s| - 1 ==> !(s[i] == ' ' && s[i + 1] == ' '))
  }

  /** `.replace(/[^a-z\s]/g, ' ')` */
  function MaskNonLetters(s: string): (r: string)
    ensures |r| == |s|
    ensures forall i :: 0 <= i < |s| ==> r[i] == (if IsLowerLetter(s[i]) || IsSpace(s[i]) then s[i] else ' ')
  {
    seq(|s|, i requires 0 <= i < |s| => if IsLowerLetter(s[i]) || IsSpace(s[i]) then s[i] else ' ')
  }

  /**
   * The steps after case folding and accent removal:
   * `.replace(/[^a-z\s]/g, ' ').replace(/\s+/g, ' ').trim()`.
   * Whatever it is given, the result is a canonical name.
   */
  function Canonical(s: string): (r: string)
    ensures IsNormalName(r)
  {
    var c := CollapseRuns(MaskNonLetters(s), IsSpace, ' ');
    CollapsedMaskShape(s, c);
    var r := Trim(c);
    TrimKeepsShape(c, r);
    r
  }

  /** After masking and collapsing, only name characters remain and no two spaces touch. */
  lemma CollapsedMaskShape(s: string, c: string)
    requires c == CollapseRuns(MaskNonLetters(s), IsSpace, ' ')
    ensures forall i :: 0 <= i < |c| ==> IsNameChar(c[i])
    ensures forall i :: 0 <= i < |c| - 1 ==> !(c[i] == ' ' && c[i + 1] == ' ')
  {
    var m := MaskNonLetters(s);
    forall i | 0 <= i < |c| ensures IsNameChar(c[i]) {
      if c[i] != ' ' {
        assert c[i] in m && !IsSpace(c[i]);
        var j :| 0 <= j < |m| && m[j] == c[i];
      }
    }
    forall i | 0 <= i < |c| - 1 ensures !(c[i] == ' ' && c[i + 1] == ' ') {
      assert !(IsSpace(c[i]) && IsSpace(c[i + 1]));
    }
  }

  /** Trimming white space from such a string leaves a canonical name. */
  lemma TrimKeepsShape(c: string, r: string)
    requires forall i :: 0 <= i < |c| ==> IsNameChar(c[i])
    requires forall i :: 0 <= i < |c| - 1 ==> !(c[i] == ' ' && c[i + 1] == ' ')
    requires r == Trim(c)
    ensures IsNormalName(r)
  {
    var k := LeadingCount(c, IsSpace);
    assert r == c[k..k + |r|];
    assert forall i :: 0 <= i < |r| ==> r[i] == c[k + i];
  }

  /** `normalizeName`: lower-case, decompose, drop diacritics, then canonicalise. */
  function NormalizeName(name: string): (r: string)
    ensures IsNormalName(r)
  {
    Canonical(StripDiacritics(Decompose(Lower(name))))
  }

  /** Every canonical name passes through `Canonical` unchanged. */
  lemma CanonicalFixed(s: string)
    requires IsNormalName(s)
    ensures Canonical(s) == s
  {
    assert MaskNonLetters(s) == s;
    CollapseRunsFixed(s, IsSpace, ' ');
    TrimByUnchanged(s, IsSpace);
  }

  /** Case folding, decomposition and accent removal leave a canonical name as it is. */
  lemma FoldingFixesNormalName(n: string)
    requires IsNormalName(n)
    ensures StripDiacritics(Decompose(Lower(n))) == n
  {
    forall i | 0 <= i < |n| ensures LowerChar(n[i]) == n[i] {
      assert IsNameChar(n[i]);
    }
    assert Lower(n) == n;
    forall i | 0 <= i < |n| ensures n[i] as int < 0xC0 && !IsDiacritic(n[i]) {
      assert IsNameChar(n[i]);
    }
    assert Decompose(n) == n;
  }

  /** `normalizeName` is idempotent: a canonical name is its own normal form. */
  lemma NormalizeNameIdempotent(name: string)
    ensures NormalizeName(NormalizeName(name)) == NormalizeName(name)
  {
    var n := NormalizeName(name);
    FoldingFixesNormalName(n);
    CanonicalFixed(n);
  }

  // ---------------------------------------------------------------- nameVariantMatch

  /** The set of space-separated tokens of a canonical name (`new Set(n.split(' '))`). */
  function Tokens(n: string): (ts: set<string>)
    ensures ts != {}
  {
    var parts := SplitOn(n, ' ');
    var ts := set t | t in parts;
    assert parts[0] in ts;
    ts
  }

  /** A subset is no larger than its superset, and only an equal set is as large. */
  lemma {:induction false} SubsetCardinality<T>(a: set<T>, b: set<T>)
    requires a <= b
    ensures |a| <= |b|
    ensures |a| == |b| ==> a == b
    decreases |b|
  {
    if b != {} {
      var x :| x in b;
      SubsetCardinality(a - {x}, b - {x});
      if x in a {
        assert |a - {x}| == |a| - 1;
        assert a == (a - {x}) + {x};
        assert b == (b - {x}) + {x};
      } else {
        assert a - {x} == a;
      }
    }
  }

  /** A count over a non-zero count is a ratio in [0, 1], and 1 only for equal counts. */
  lemma RatioBounds(x: nat, y: nat)
    requires x <= y && y > 0
    ensures 0.0 <= x as real / y as real <= 1.0
    ensures x as real / y as real == 1.0 <==> x == y
  {
  }

  /** Two sets whose intersection is as large as their union are equal. */
  lemma SameSizeIntersection(a: set<string>, b: set<string>)
    requires |a * b| == |a + b|
    ensures a == b
  {
    SubsetCardinality(a * b, a + b);
    assert a <= a + b && b <= a + b;
  }

  /** Jaccard similarity `|a ∩ b| / |a ∪ b|` of two token sets, 0 for an empty union. */
  function Jaccard(a: set<string>, b: set<string>): (r: real)
    ensures 0.0 <= r <= 1.0
    ensures a + b != {} ==> (r == 1.0 <==> a == b)
  {
    var inter := |a * b|;
    var union := |a + b|;
    SubsetCardinality(a * b, a + b);
    assert a == b ==> a * b == a + b;
    if union > 0 then
      RatioBounds(inter, union);
      if inter == union then SameSizeIntersection(a, b); 1.0
      else inter as real / union as real
    else 0.0
  }

  /**
   * `nameVariantMatch`: 1 for names with the same normal form, otherwise the Jaccard
   * similarity of their token sets.
   */
  function NameVariantMatch(a: string, b: string): (r: real)
    ensures 0.0 <= r <= 1.0
    ensures NormalizeName(a) == NormalizeName(b) ==> r == 1.0
    ensures r == 1.0 <==> Tokens(NormalizeName(a)) == Tokens(NormalizeName(b))
  {
    var na := NormalizeName(a);
    var nb := NormalizeName(b);
    var ta := Tokens(na);
    var tb := Tokens(nb);
    if na == nb then 1.0
    else
      var union := |ta + tb|;
      assert union > 0 by {
        var x :| x in ta;
        assert x in ta + tb;
      }
      Jaccard(ta, tb)
  }

  /** The score does not depend on which name is the query. */
  lemma NameVariantMatchSymmetric(a: string, b: string)
    ensures NameVariantMatch(a, b) == NameVariantMatch(b, a)
  {
    var ta := Tokens(NormalizeName(a));
    var tb := Tokens(NormalizeName(b));
    assert ta * tb == tb * ta && ta + tb == tb + ta;
  }

  /** Every token of a non-empty canonical name is non-empty. */
  lemma NormalTokensNonEmpty(n: string)
    requires IsNormalName(n) && n != []
    ensures "" !in Tokens(n)
  {
    var parts := SplitOn(n, ' ');
    SplitOnFirstEmpty(n, ' ');
    SplitOnLaterPiecesNonEmpty(n, ' ');
  }

  /** The empty name's only token is the empty string, which a non-empty canonical name lacks. */
  lemma EmptyTokensDisjoint(nb: string)
    requires IsNormalName(nb) && nb != []
    ensures Tokens("") == {""}
    ensures Jaccard(Tokens(""), Tokens(nb)) == 0.0
  {
    assert SplitOn("", ' ') == [""];
    var tb := Tokens(nb);
    NormalTokensNonEmpty(nb);
    assert Tokens("") * tb == {};
  }

  /**
   * A name with no letters against a name with letters scores 0: the empty normal form splits
   * into the single empty token, which no token of the other name equals.
   */
  lemma NameVariantMatchEmptyAgainstNonEmpty(a: string, b: string)
    requires NormalizeName(a) == [] && NormalizeName(b) != []
    ensures NameVariantMatch(a, b) == 0.0
  {
    EmptyTokensDisjoint(NormalizeName(b));
  }

  // ---------------------------------------------------------------- placeMatchScore

  const SamePlaceReason := "Lugar ✓ (mesmo placeId)"
  const SameJurisdictionReason := "Lugar ~ (mesma jurisdição)"
  const TextMatchReason := "Lugar ✓ (texto compatível)"
  const WordMatchReason := "Lugar ~ (palavras coincidem)"

  /** The two sequences have an element in common (a non-empty Set intersection). */
  predicate Overlap(xs: seq<string>, ys: seq<string>) {
    exists i :: 0 <= i < |xs| && xs[i] in ys
  }

  /** The two places share an ancestor in their jurisdiction paths (a missing path is empty). */
  predicate SharedJurisdiction(a: Place, b: Place) {
    Overlap(a.jurisdictionPath.GetOr([]), b.jurisdictionPath.GetOr([]))
  }

  /** `(text ?? place?.displayName ?? '').toLowerCase()`: the explicit text wins, even when empty. */
  function PlaceText(text: Option<string>, place: Option<Place>): (r: string)
    ensures text.Some? ==> r == Lower(text.value)
    ensures text.None? && place.Some? ==> r == Lower(place.value.displayName)
    ensures text.None? && place.None? ==> r == []
  {
    if text.Some? then Lower(text.value)
    else if place.Some? then Lower(place.value.displayName)
    else ""
  }

  /** Place-name separators: `[,\s]`. */
  predicate IsPlaceSeparator(c: char) {
    c == ',' || IsSpace(c)
  }

  /** `s.split(/[,\s]+/).filter(Boolean)` */
  function PlaceWords(s: string): (r: seq<string>)
    ensures forall k :: 0 <= k < |r| ==> r[k] != [] && NoneSatisfy(r[k], IsPlaceSeparator)
  {
    Words(s, IsPlaceSeparator)
  }

  /**
   * `placeMatchScore`: the first rung that applies wins — same place id (1), shared
   * jurisdiction (0.6), one text containing the other (0.8), a shared word (0.5), else 0.
   */
  function PlaceMatchScore(
    queryPlace: Option<Place>, queryText: Option<string>,
    candidatePlace: Option<Place>, candidateText: Option<string>): (r: Scored)
    ensures r.score in {0.0, 0.5, 0.6, 0.8, 1.0}
    ensures r.reason.None? <==> r.score == 0.0
    ensures (queryPlace.Some? && candidatePlace.Some? && queryPlace.value.id == candidatePlace.value.id)
              ==> r == Scored(1.0, Some(SamePlaceReason))
    ensures r.score == 1.0 ==> queryPlace.Some? && candidatePlace.Some? && queryPlace.value.id == candidatePlace.value.id
    ensures r.score == 0.6 <==>
              queryPlace.Some? && candidatePlace.Some? && queryPlace.value.id != candidatePlace.value.id
              && SharedJurisdiction(queryPlace.value, candidatePlace.value)
    ensures r.score == 0.6 ==> r.reason == Some(SameJurisdictionReason)
    ensures r.score == 0.8 ==>
              var q := PlaceText(queryText, queryPlace);
              var c := PlaceText(candidateText, candidatePlace);
              q != [] && c != [] && (Contains(c, q) || Contains(q, c)) && r.reason == Some(TextMatchReason)
    ensures r.score == 0.5 ==>
              var q := PlaceText(queryText, queryPlace);
              var c := PlaceText(candidateText, candidatePlace);
              && !Contains(c, q) && !Contains(q, c)
              && Overlap(PlaceWords(q), PlaceWords(c)) && r.reason == Some(WordMatchReason)
    ensures r.score == 0.0 ==>
              var q := PlaceText(queryText, queryPlace);
              var c := PlaceText(candidateText, candidatePlace);
              q == [] || c == [] || (!Contains(c, q) && !Contains(q, c) && !Overlap(PlaceWords(q), PlaceWords(c)))
  {
    var both := queryPlace.Some? && candidatePlace.Some?;
    if both && queryPlace.value.id == candidatePlace.value.id then
      Scored(1.0, Some(SamePlaceReason))
    else if both && SharedJurisdiction(queryPlace.value, candidatePlace.value) then
      Scored(0.6, Some(SameJurisdictionReason))
    else
      var q := PlaceText(queryText, queryPlace);
      var c := PlaceText(candidateText, candidatePlace);
      if q != [] && c != [] then
        if Contains(c, q) || Contains(q, c) then Scored(0.8, Some(TextMatchReason))
        else if Overlap(PlaceWords(q), PlaceWords(c)) then Scored(0.5, Some(WordMatchReason))
        else Scored(0.0, None)
      else Scored(0.0, None)
  }

  /** Sharing an element does not depend on the order of the two sequences. */
  lemma OverlapSymmetric(xs: seq<string>, ys: seq<string>)
    ensures Overlap(xs, ys) <==> Overlap(ys, xs)
  {
    if Overlap(xs, ys) {
      var i :| 0 <= i < |xs| && xs[i] in ys;
      var j :| 0 <= j < |ys| && ys[j] == xs[i];
    }
    if Overlap(ys, xs) {
      var i :| 0 <= i < |ys| && ys[i] in xs;
      var j :| 0 <= j < |xs| && xs[j] == ys[i];
    }
  }

  /** Every rung of the ladder is symmetric, so swapping query and candidate changes nothing. */
  lemma PlaceMatchScoreSymmetric(
    queryPlace: Option<Place>, queryText: Option<string>,
    candidatePlace: Option<Place>, candidateText: Option<string>)
    ensures PlaceMatchScore(queryPlace, queryText, candidatePlace, candidateText)
         == PlaceMatchScore(candidatePlace, candidateText, queryPlace, queryText)
  {
    if queryPlace.Some? && candidatePlace.Some? {
      OverlapSymmetric(queryPlace.value.jurisdictionPath.GetOr([]), candidatePlace.value.jurisdictionPath.GetOr([]));
    }
    var q := PlaceText(queryText, queryPlace);
    var c := PlaceText(candidateText, candidatePlace);
    OverlapSymmetric(PlaceWords(q), PlaceWords(c));
  }

  /** Two equal non-empty place texts always reach at least the containment rung. */
  lemma SameTextScoresHigh(queryPlace: Option<Place>, candidatePlace: Option<Place>, text: string)
    requires Lower(text) != []
    ensures PlaceMatchScore(queryPlace, Some(text), candidatePlace, Some(text)).score >= 0.6
  {
    ContainsSelf(Lower(text));
  }
}

=== FILE: ordered_map.dfy ===
/**
 * A JavaScript `Map` (or `Set` of keys): entries kept in first-insertion order, at most one
 * entry per key.
 */
module OrderedMap {
  import opened Wrappers

  /** The keys, in insertion order. */
  function Keys<K, V>(m: seq<(K, V)>): (ks: seq<K>)
    ensures |ks| == |m|
    ensures forall i :: 0 <= i < |m| ==> ks[i] == m[i].0
  {
    if m == [] then [] else [m[0].0] + Keys(m[1..])
  }

  /** The values, in insertion order (`Array.from(map.values())`). */
  function Values<K, V>(m: seq<(K, V)>): (vs: seq<V>)
    ensures |vs| == |m|
    ensures forall i :: 0 <= i < |m| ==> vs[i] == m[i].1
  {
    if m == [] then [] else [m[0].1] + Values(m[1..])
  }

  predicate DistinctKeys<K(==), V>(m: seq<(K, V)>) {
    forall i, j :: 0 <= i < j < |m| ==> m[i].0 != m[j].0
  }

  /** Position of the first entry for `k`, or -1 when there is none. */
  function IndexOf<K(==), V>(m: seq<(K, V)>, k: K): (i: int)
    ensures -1 <= i < |m|
    ensures i == -1 <==> k !in Keys(m)
    ensures 0 <= i ==> m[i].0 == k && forall j :: 0 <= j < i ==> m[j].0 != k
  {
    if m == [] then -1
    else if m[0].0 == k then 0
    else
      var j := IndexOf(m[1..], k);
      assert Keys(m) == [m[0].0] + Keys(m[1..]);
      if j == -1 then -1 else j + 1
  }

  /** `map.get(k)`; absent exactly when `map.has(k)` is false. */
  function Get<K(==), V>(m: seq<(K, V)>, k: K): (r: Option<V>)
    ensures r.None? <==> k !in Keys(m)
    ensures r.Some? ==> (k, r.value) in m
  {
    var i := IndexOf(m, k);
    if i < 0 then None else Some(m[i].1)
  }

  /** `map.set(k, v)`: replaces the value of an existing key in place, or appends a new entry. */
  function Put<K(==), V>(m: seq<(K, V)>, k: K, v: V): (r: seq<(K, V)>)
    ensures Keys(r) == if k in Keys(m) then Keys(m) else Keys(m) + [k]
    ensures Get(r, k) == Some(v)
  {
    var i := IndexOf(m, k);
    var r := if i < 0 then m + [(k, v)] else m[i := (k, v)];
    assert Keys(r) == if k in Keys(m) then Keys(m) else Keys(m) + [k];
    assert IndexOf(r, k) == if i < 0 then |m| else i;
    r
  }

  /** The first entry carrying `k` is the one `IndexOf` finds. */
  lemma IndexOfFirst<K, V>(m: seq<(K, V)>, k: K, i: nat)
    requires i < |m| && m[i].0 == k
    requires forall j :: 0 <= j < i ==> m[j].0 != k
    ensures IndexOf(m, k) == i
  {
    var x := IndexOf(m, k);
    assert Keys(m)[i] == k;
  }

  /** Setting one key leaves every other key's value as it was. */
  lemma PutOther<K, V>(m: seq<(K, V)>, k: K, v: V, k': K)
    requires k' != k
    ensures Get(Put(m, k, v), k') == Get(m, k')
  {
    var r := Put(m, k, v);
    var j := IndexOf(m, k');
    assert |r| >= |m| && forall x :: 0 <= x < |m| ==> r[x].0 == m[x].0 && (m[x].0 == k' ==> r[x] == m[x]);
    assert forall x :: |m| <= x < |r| ==> r[x].0 == k;
    if 0 <= j {
      IndexOfFirst(r, k', j);
    }
  }

  /** `set` never introduces a second entry for a key. */
  lemma PutDistinct<K, V>(m: seq<(K, V)>, k: K, v: V)
    requires DistinctKeys(m)
    ensures DistinctKeys(Put(m, k, v))
  {
    var r := Put(m, k, v);
    assert Keys(r) == if k in Keys(m) then Keys(m) else Keys(m) + [k];
    forall i, j | 0 <= i < j < |r| ensures r[i].0 != r[j].0 {
      assert Keys(r)[i] == r[i].0 && Keys(r)[j] == r[j].0;
    }
  }
}

=== FILE: pedigree_adapter.dfy ===
/**
 * The FamilySearch ancestry and descendancy trees (src/adapters/familysearch/pedigreeAdapter.ts):
 * one node per mapped person, then the parent-child relationships of the response linked into
 * the nodes' `parents` and `children` lists.
 */
module PedigreeAdapter {
  import opened Wrappers
  import opened Text
  import opened Domain
  import opened Json
  import opened Seqs
  import opened OrderedMap
  import opened GedcomUtils

  /** An `AncestryResult` or a `DescendancyResult`: both have this shape. */
  datatype PedigreeResult = PedigreeResult(rootId: Id, generations: int, nodes: map<Id, PedigreeNode>)

  /** `data?.gedcomx ?? data?.gedcom ?? data?.content?.gedcomx ?? data?.content?.gedcom ?? data`. */
  function GedcomOf(data: Value): (r: Value)
    ensures !data.Obj? ==> r == data
  {
    var content := Field(data, "content");
    OrElse(Field(data, "gedcomx"), OrElse(Field(data, "gedcom"),
      OrElse(Field(content, "gedcomx"), OrElse(Field(content, "gedcom"), data))))
  }

  // ---------------------------------------------------------------- extractPersonsAndBuildNodes

  /** The raw persons: `gedcom.persons` if it is an array, else `data.persons` if it is one, else none. */
  function PersonsRaw(data: Value): seq<Value> {
    var gedcom := GedcomOf(data);
    if Field(gedcom, "persons").Arr? then Field(gedcom, "persons").items else ArrayOr(Field(data, "persons"))
  }

  /** The persons `mapGedcomPerson` makes of the raw records, in order, skipping those it rejects. */
  function MappedPersons(raws: seq<Value>, places: seq<(Id, Place)>, mapPerson: PersonMapper): (ps: seq<Person>)
    ensures |ps| <= |raws|
    decreases |raws|
  {
    if raws == [] then []
    else
      var ps := MappedPersons(raws[..|raws| - 1], places, mapPerson);
      match mapPerson(raws[|raws| - 1], places)
      case None => ps
      case Some(p) => ps + [p]
  }

  /** A node not yet linked: the person with empty `parents` and `children`. */
  function FreshNode(p: Person): PedigreeNode {
    PedigreeNode(p, Some([]), Some([]))
  }

  /** The ids of the persons, as a set. */
  function IdsOf(ps: seq<Person>): set<Id> {
    set p | p in ps :: p.id
  }

  /**
   * The `nodes` record filled person by person with `nodes[person.id] = …`: one fresh node per
   * distinct id, keyed by that id.
   */
  function FreshNodes(ps: seq<Person>): (nodes: map<Id, PedigreeNode>)
    ensures nodes.Keys == IdsOf(ps)
    ensures forall id :: id in nodes ==> nodes[id].person.id == id
    ensures forall id :: id in nodes ==> nodes[id].parents == Some([]) && nodes[id].children == Some([])
    decreases |ps|
  {
    if ps == [] then map[]
    else
      var init := ps[..|ps| - 1];
      var p := ps[|ps| - 1];
      assert ps == init + [p];
      FreshNodes(init)[p.id := FreshNode(p)]
  }

  /** The last person carrying `id`. */
  function LastWithId(ps: seq<Person>, id: Id): (r: Option<Person>)
    ensures r.Some? ==> r.value in ps && r.value.id == id
    ensures r.None? ==> id !in IdsOf(ps)
    decreases |ps|
  {
    if ps == [] then None
    else if ps[|ps| - 1].id == id then Some(ps[|ps| - 1])
    else
      var r := LastWithId(ps[..|ps| - 1], id);
      assert ps == ps[..|ps| - 1] + [ps[|ps| - 1]];
      r
  }

  /** For a repeated id the node holds the last person: a later `nodes[id] = …` overwrites. */
  lemma {:induction false} FreshNodesLastWins(ps: seq<Person>, id: Id)
    requires id in IdsOf(ps)
    ensures LastWithId(ps, id).Some? && FreshNodes(ps)[id].person == LastWithId(ps, id).value
    decreases |ps|
  {
    var init := ps[..|ps| - 1];
    assert ps == init + [ps[|ps| - 1]];
    if ps[|ps| - 1].id != id {
      assert id in IdsOf(init);
      FreshNodesLastWins(init, id);
    }
  }

  /** The `persons` map filled with `persons.set(person.id, person)`. */
  function PersonsById(ps: seq<Person>): (m: seq<(Id, Person)>)
    ensures DistinctKeys(m)
    decreases |ps|
  {
    if ps == [] then []
    else
      var m := PersonsById(ps[..|ps| - 1]);
      var p := ps[|ps| - 1];
      PutDistinct(m, p.id, p);
      Put(m, p.id, p)
  }

  /** The `persons` map and the `nodes` record agree: same ids, and each id's node holds its person. */
  lemma {:induction false} PersonsMatchNodes(ps: seq<Person>, id: Id)
    ensures Get(PersonsById(ps), id) == if id in FreshNodes(ps) then Some(FreshNodes(ps)[id].person) else None
    decreases |ps|
  {
    if ps != [] {
      var init := ps[..|ps| - 1];
      var p := ps[|ps| - 1];
      assert ps == init + [p];
      PersonsMatchNodes(init, id);
      if p.id != id {
        PutOther(PersonsById(init), p.id, p, id);
        assert id in IdsOf(ps) <==> id in IdsOf(init);
      }
    }
  }

  /** What `extractPersonsAndBuildNodes` returns. */
  datatype Extracted = Extracted(persons: seq<(Id, Person)>, nodes: map<Id, PedigreeNode>)

  /**
   * `extractPersonsAndBuildNodes(data)`: the persons mapped from the raw records, with the
   * places of the gedcom as `placesById`, each stored in `persons` and as a fresh node.
   */
  method ExtractPersonsAndBuildNodes(data: Value, mapPerson: PersonMapper) returns (r: Extracted)
    ensures var ps := MappedPersons(PersonsRaw(data), CollectedPlaces(PlaceRecords(GedcomOf(data))), mapPerson);
      r.persons == PersonsById(ps) && r.nodes == FreshNodes(ps)
  {
    var gedcom := GedcomOf(data);
    var places := CollectPlacesFromGedcom(gedcom);
    var persons, nodes := StorePersons(PersonsRaw(data), places, mapPerson);
    r := Extracted(persons, nodes);
  }

  /** The loop of `extractPersonsAndBuildNodes`: each mapped person set in `persons` and `nodes`. */
  method StorePersons(personsRaw: seq<Value>, places: seq<(Id, Place)>, mapPerson: PersonMapper)
    returns (persons: seq<(Id, Person)>, nodes: map<Id, PedigreeNode>)
    ensures persons == PersonsById(MappedPersons(personsRaw, places, mapPerson))
    ensures nodes == FreshNodes(MappedPersons(personsRaw, places, mapPerson))
  {
    persons, nodes := [], map[];
    var i := 0;
    while i < |personsRaw|
      invariant 0 <= i <= |personsRaw|
      invariant persons == PersonsById(MappedPersons(personsRaw[..i], places, mapPerson))
      invariant nodes == FreshNodes(MappedPersons(personsRaw[..i], places, mapPerson))
    {
      assert personsRaw[..i + 1][..i] == personsRaw[..i];
      ghost var before := MappedPersons(personsRaw[..i], places, mapPerson);
      var person := mapPerson(personsRaw[i], places);
      i := i + 1;
      if person.None? {
        continue;
      }
      ghost var after := before + [person.value];
      assert after[..|after| - 1] == before && after[|after| - 1] == person.value;
      persons := Put(persons, person.value.id, person.value);
      nodes := nodes[person.value.id := FreshNode(person.value)];
    }
    assert personsRaw[..i] == personsRaw;
  }

  // ---------------------------------------------------------------- extractRelationships

  /** `extractRelationships(data)`: the gedcom's relationships, then those of `data` itself. */
  function ExtractRelationships(data: Value): (rels: seq<Value>)
    ensures var own := ArrayOr(Field(GedcomOf(data), "relationships"));
      && |own| <= |rels|
      && rels[..|own|] == own
      && (Field(data, "relationships").Arr? ==> rels[|own|..] == Field(data, "relationships").items)
      && (!Field(data, "relationships").Arr? ==> rels == own)
  {
    var rels := ArrayOr(Field(GedcomOf(data), "relationships"));
    if Field(data, "relationships").Arr? then rels + Field(data, "relationships").items else rels
  }

  /** When the gedcom is `data` itself, its relationships are listed twice. */
  lemma RelationshipsTwice(data: Value)
    requires GedcomOf(data) == data && Field(data, "relationships").Arr?
    ensures ExtractRelationships(data) == Field(data, "relationships").items + Field(data, "relationships").items
  {
  }

  // ---------------------------------------------------------------- buildPedigreeResult

  /** `node.parents ?? []`. */
  function Parents(n: PedigreeNode): seq<Id> {
    n.parents.GetOr([])
  }

  /** `node.children ?? []`. */
  function Children(n: PedigreeNode): seq<Id> {
    n.children.GetOr([])
  }

  /** `String(rel?.type ?? '').toLowerCase()`. */
  function RelationshipType(rel: Value): string {
    Lower(ToJsString(OrElse(Field(rel, "type"), Str(""))))
  }

  /** A parent-child link: the ids of the parent (`person1`) and the child (`person2`). */
  datatype Link = Link(parent: Id, child: Id)

  /**
   * The link a relationship makes, if any: only a relationship whose type contains
   * "parentchild" and whose two persons both resolve to ids.
   */
  function LinkOf(rel: Value): (r: Option<Link>)
    ensures r.Some? ==> Contains(RelationshipType(rel), "parentchild")
    ensures r.Some? <==> (Contains(RelationshipType(rel), "parentchild")
      && ExtractResourceId(Field(rel, "person1")).Some? && ExtractResourceId(Field(rel, "person2")).Some?)
    ensures r.Some? ==> r.value.parent != "" && r.value.child != ""
  {
    if !Contains(RelationshipType(rel), "parentchild") then None
    else
      var parentId := ExtractResourceId(Field(rel, "person1"));
      var childId := ExtractResourceId(Field(rel, "person2"));
      if parentId.None? || childId.None? then None
      else Some(Link(parentId.value, childId.value))
  }

  /** The links the relationships make, in order. */
  function Links(rels: seq<Value>): (ls: seq<Link>)
    ensures |ls| <= |rels|
  {
    if rels == [] then []
    else (match LinkOf(rels[0]) case None => [] case Some(l) => [l]) + Links(rels[1..])
  }

  /** `nodes[c].parents = Array.from(new Set(nodes[c].parents ?? []).add(p))` when the node `c` exists. */
  function AddParent(nodes: map<Id, PedigreeNode>, c: Id, p: Id): (r: map<Id, PedigreeNode>)
    ensures r.Keys == nodes.Keys
    ensures forall id :: id in r ==> r[id].person == nodes[id].person && Children(r[id]) == Children(nodes[id])
    ensures forall id :: id in r ==> Parents(r[id]) == if id == c then SetAdd(Parents(nodes[id]), p) else Parents(nodes[id])
  {
    if c in nodes then nodes[c := nodes[c].(parents := Some(SetAdd(Parents(nodes[c]), p)))] else nodes
  }

  /** `nodes[p].children = Array.from(new Set(nodes[p].children ?? []).add(c))` when the node `p` exists. */
  function AddChild(nodes: map<Id, PedigreeNode>, p: Id, c: Id): (r: map<Id, PedigreeNode>)
    ensures r.Keys == nodes.Keys
    ensures forall id :: id in r ==> r[id].person == nodes[id].person && Parents(r[id]) == Parents(nodes[id])
    ensures forall id :: id in r ==> Children(r[id]) == if id == p then SetAdd(Children(nodes[id]), c) else Children(nodes[id])
  {
    if p in nodes then nodes[p := nodes[p].(children := Some(SetAdd(Children(nodes[p]), c)))] else nodes
  }

  /**
   * One turn of the relationship loop: the parent joins the child's `parents` if the child has
   * a node, then the child joins the parent's `children` if the parent has one.
   */
  function LinkStep(nodes: map<Id, PedigreeNode>, rel: Value): (r: map<Id, PedigreeNode>)
    ensures r.Keys == nodes.Keys
    ensures forall id :: id in r ==> r[id].person == nodes[id].person
  {
    match LinkOf(rel)
    case None => nodes
    case Some(Link(parentId, childId)) => AddChild(AddParent(nodes, childId, parentId), parentId, childId)
  }

  /** The relationship loop over the remaining relationships. */
  function LinkAll(nodes: map<Id, PedigreeNode>, rels: seq<Value>): (r: map<Id, PedigreeNode>)
    ensures r.Keys == nodes.Keys
    ensures forall id :: id in r ==> r[id].person == nodes[id].person
    decreases |rels|
  {
    if rels == [] then nodes else LinkAll(LinkStep(nodes, rels[0]), rels[1..])
  }

  /** Every `parents` and `children` list is free of repetitions. */
  ghost predicate ListsDistinct(nodes: map<Id, PedigreeNode>) {
    forall id :: id in nodes ==> Distinct(Parents(nodes[id])) && Distinct(Children(nodes[id]))
  }

  /** `x` is among the parents of the node `c`. */
  predicate HasParent(nodes: map<Id, PedigreeNode>, c: Id, x: Id) {
    c in nodes && x in Parents(nodes[c])
  }

  /** `x` is among the children of the node `p`. */
  predicate HasChild(nodes: map<Id, PedigreeNode>, p: Id, x: Id) {
    p in nodes && x in Children(nodes[p])
  }

  /** One link adds exactly its parent to an existing child node, and its child to an existing parent node. */
  lemma LinkStepLists(nodes: map<Id, PedigreeNode>, rel: Value, a: Id, b: Id)
    ensures HasParent(LinkStep(nodes, rel), a, b) <==>
      HasParent(nodes, a, b) || (a in nodes && LinkOf(rel) == Some(Link(b, a)))
    ensures HasChild(LinkStep(nodes, rel), a, b) <==>
      HasChild(nodes, a, b) || (a in nodes && LinkOf(rel) == Some(Link(a, b)))
  {
    if LinkOf(rel).Some? {
      var l := LinkOf(rel).value;
      AddParentLists(nodes, l.child, l.parent, a, b);
      AddChildLists(AddParent(nodes, l.child, l.parent), l.parent, l.child, a, b);
    }
  }

  /** `AddParent` puts `p` among the parents of an existing node `c` and touches nothing else. */
  lemma AddParentLists(nodes: map<Id, PedigreeNode>, c: Id, p: Id, a: Id, b: Id)
    ensures HasParent(AddParent(nodes, c, p), a, b) <==> HasParent(nodes, a, b) || (a in nodes && a == c && b == p)
    ensures HasChild(AddParent(nodes, c, p), a, b) <==> HasChild(nodes, a, b)
  {
    if a in nodes && a == c {
      SetAddMembers(Parents(nodes[a]), p, b);
    }
  }

  /** `AddChild` puts `c` among the children of an existing node `p` and touches nothing else. */
  lemma AddChildLists(nodes: map<Id, PedigreeNode>, p: Id, c: Id, a: Id, b: Id)
    ensures HasChild(AddChild(nodes, p, c), a, b) <==> HasChild(nodes, a, b) || (a in nodes && a == p && b == c)
    ensures HasParent(AddChild(nodes, p, c), a, b) <==> HasParent(nodes, a, b)
  {
    if a in nodes && a == p {
      SetAddMembers(Children(nodes[a]), c, b);
    }
  }

  /** The members of `SetAdd(s, x)` are those of `s` and `x`. */
  lemma SetAddMembers(s: seq<Id>, x: Id, y: Id)
    ensures y in SetAdd(s, x) <==> y in s || y == x
  {
    var r := SetAdd(s, x);
    if y in r {
      var i :| 0 <= i < |r| && r[i] == y;
    }
    if y in s {
      var i :| 0 <= i < |s| && s[i] == y;
    }
  }

  /** One link keeps every list free of repetitions. */
  lemma LinkStepDistinct(nodes: map<Id, PedigreeNode>, rel: Value)
    requires ListsDistinct(nodes)
    ensures ListsDistinct(LinkStep(nodes, rel))
  {
    if LinkOf(rel).Some? {
      var l := LinkOf(rel).value;
      AddParentDistinct(nodes, l.child, l.parent);
      AddChildDistinct(AddParent(nodes, l.child, l.parent), l.parent, l.child);
    }
  }

  /** `AddParent` keeps every list free of repetitions. */
  lemma AddParentDistinct(nodes: map<Id, PedigreeNode>, c: Id, p: Id)
    requires ListsDistinct(nodes)
    ensures ListsDistinct(AddParent(nodes, c, p))
  {
    var r := AddParent(nodes, c, p);
    forall id | id in r ensures Distinct(Parents(r[id])) && Distinct(Children(r[id])) {
    }
  }

  /** `AddChild` keeps every list free of repetitions. */
  lemma AddChildDistinct(nodes: map<Id, PedigreeNode>, p: Id, c: Id)
    requires ListsDistinct(nodes)
    ensures ListsDistinct(AddChild(nodes, p, c))
  {
    var r := AddChild(nodes, p, c);
    forall id | id in r ensures Distinct(Parents(r[id])) && Distinct(Children(r[id])) {
    }
  }

  /** On lists without repetitions, one link only appends: every list keeps its old entries first, in order. */
  lemma LinkStepPrefix(nodes: map<Id, PedigreeNode>, rel: Value, id: Id)
    requires ListsDistinct(nodes) && id in nodes
    ensures IsPrefix(Parents(nodes[id]), Parents(LinkStep(nodes, rel)[id]))
    ensures IsPrefix(Children(nodes[id]), Children(LinkStep(nodes, rel)[id]))
  {
    assert Parents(nodes[id])[..|Parents(nodes[id])|] == Parents(nodes[id]);
    assert Children(nodes[id])[..|Children(nodes[id])|] == Children(nodes[id]);
    if LinkOf(rel).Some? {
      var l := LinkOf(rel).value;
      var withParent := AddParent(nodes, l.child, l.parent);
      if id == l.child {
        SetAddPrefix(Parents(nodes[id]), l.parent);
      }
      if id == l.parent {
        SetAddPrefix(Children(withParent[id]), l.child);
      }
    }
  }

  /** Adding to a list without repetitions keeps the list as a prefix. */
  lemma SetAddPrefix(s: seq<Id>, x: Id)
    requires Distinct(s)
    ensures IsPrefix(s, SetAdd(s, x))
  {
    assert (s + [x])[..|s|] == s;
    assert s[..|s|] == s;
  }

  lemma PrefixTransitive(a: seq<Id>, b: seq<Id>, c: seq<Id>)
    requires IsPrefix(a, b) && IsPrefix(b, c)
    ensures IsPrefix(a, c)
  {
    assert c[..|b|][..|a|] == c[..|a|];
  }

  /** `b` is `a` followed by possibly more. */
  predicate IsPrefix(a: seq<Id>, b: seq<Id>) {
    |a| <= |b| && b[..|a|] == a
  }

  /**
   * After the loop a node's parents are its own and the parents of the links whose child it is,
   * and nothing else; likewise for children. So links are made only between existing nodes.
   */
  lemma {:induction false} LinkAllLists(nodes: map<Id, PedigreeNode>, rels: seq<Value>, a: Id, b: Id)
    ensures HasParent(LinkAll(nodes, rels), a, b) <==> HasParent(nodes, a, b) || (a in nodes && Link(b, a) in Links(rels))
    ensures HasChild(LinkAll(nodes, rels), a, b) <==> HasChild(nodes, a, b) || (a in nodes && Link(a, b) in Links(rels))
    decreases |rels|
  {
    if rels != [] {
      LinkStepLists(nodes, rels[0], a, b);
      LinkAllLists(LinkStep(nodes, rels[0]), rels[1..], a, b);
      assert Links(rels) == (match LinkOf(rels[0]) case None => [] case Some(l) => [l]) + Links(rels[1..]);
    }
  }

  /** The loop keeps every list free of repetitions. */
  lemma {:induction false} LinkAllDistinct(nodes: map<Id, PedigreeNode>, rels: seq<Value>)
    requires ListsDistinct(nodes)
    ensures ListsDistinct(LinkAll(nodes, rels))
    decreases |rels|
  {
    if rels != [] {
      LinkStepDistinct(nodes, rels[0]);
      LinkAllDistinct(LinkStep(nodes, rels[0]), rels[1..]);
    }
  }

  /** On lists without repetitions the loop only appends: each list keeps its old entries first, in order. */
  lemma {:induction false} LinkAllPrefix(nodes: map<Id, PedigreeNode>, rels: seq<Value>, id: Id)
    requires ListsDistinct(nodes) && id in nodes
    ensures IsPrefix(Parents(nodes[id]), Parents(LinkAll(nodes, rels)[id]))
    ensures IsPrefix(Children(nodes[id]), Children(LinkAll(nodes, rels)[id]))
    decreases |rels|
  {
    if rels != [] {
      var next := LinkStep(nodes, rels[0]);
      LinkStepDistinct(nodes, rels[0]);
      LinkStepPrefix(nodes, rels[0], id);
      LinkAllPrefix(next, rels[1..], id);
      var r := LinkAll(next, rels[1..]);
      PrefixTransitive(Parents(nodes[id]), Parents(next[id]), Parents(r[id]));
      PrefixTransitive(Children(nodes[id]), Children(next[id]), Children(r[id]));
    }
  }

  /** The loop over two lists of relationships is the loop over the first, then over the second. */
  lemma {:induction false} LinkAllAppend(nodes: map<Id, PedigreeNode>, a: seq<Value>, b: seq<Value>)
    ensures LinkAll(nodes, a + b) == LinkAll(LinkAll(nodes, a), b)
    decreases |a|
  {
    if a != [] {
      assert (a + b)[0] == a[0] && (a + b)[1..] == a[1..] + b;
      LinkAllAppend(LinkStep(nodes, a[0]), a[1..], b);
    } else {
      assert a + b == b;
    }
  }

  /** The link is already recorded on both of its nodes that exist. */
  ghost predicate Recorded(nodes: map<Id, PedigreeNode>, l: Link) {
    && (l.child in nodes ==> HasParent(nodes, l.child, l.parent))
    && (l.parent in nodes ==> HasChild(nodes, l.parent, l.child))
  }

  /** Adding a parent the child node already lists changes nothing. */
  lemma AddParentPresent(nodes: map<Id, PedigreeNode>, c: Id, p: Id)
    requires c in nodes ==> p in Parents(nodes[c]) && Distinct(Parents(nodes[c]))
    ensures AddParent(nodes, c, p) == nodes
  {
    if c in nodes {
      var n := nodes[c];
      assert n.parents.Some?;
      assert n.(parents := Some(SetAdd(Parents(n), p))) == n;
      assert nodes[c := n] == nodes;
    }
  }

  /** Adding a child the parent node already lists changes nothing. */
  lemma AddChildPresent(nodes: map<Id, PedigreeNode>, p: Id, c: Id)
    requires p in nodes ==> c in Children(nodes[p]) && Distinct(Children(nodes[p]))
    ensures AddChild(nodes, p, c) == nodes
  {
    if p in nodes {
      var n := nodes[p];
      assert n.children.Some?;
      assert n.(children := Some(SetAdd(Children(n), c))) == n;
      assert nodes[p := n] == nodes;
    }
  }

  /** A relationship whose link is already recorded changes nothing. */
  lemma LinkStepRecorded(nodes: map<Id, PedigreeNode>, rel: Value)
    requires ListsDistinct(nodes)
    requires LinkOf(rel).Some? ==> Recorded(nodes, LinkOf(rel).value)
    ensures LinkStep(nodes, rel) == nodes
  {
    if LinkOf(rel).Some? {
      var l := LinkOf(rel).value;
      AddParentPresent(nodes, l.child, l.parent);
      AddChildPresent(nodes, l.parent, l.child);
    }
  }

  /** Relationships whose links are all recorded change nothing. */
  lemma {:induction false} LinkAllRecorded(nodes: map<Id, PedigreeNode>, rels: seq<Value>)
    requires ListsDistinct(nodes)
    requires forall l :: l in Links(rels) ==> Recorded(nodes, l)
    ensures LinkAll(nodes, rels) == nodes
    decreases |rels|
  {
    if rels != [] {
      assert Links(rels) == (match LinkOf(rels[0]) case None => [] case Some(l) => [l]) + Links(rels[1..]);
      LinkStepRecorded(nodes, rels[0]);
      LinkAllRecorded(nodes, rels[1..]);
    }
  }

  /**
   * Going through the same relationships a second time changes nothing: the relationships that
   * `extractRelationships` lists twice are harmless.
   */
  lemma LinkAllTwice(nodes: map<Id, PedigreeNode>, rels: seq<Value>)
    requires ListsDistinct(nodes)
    ensures LinkAll(nodes, rels + rels) == LinkAll(nodes, rels)
  {
    var once := LinkAll(nodes, rels);
    LinkAllAppend(nodes, rels, rels);
    LinkAllDistinct(nodes, rels);
    forall l | l in Links(rels) ensures Recorded(once, l) {
      LinkAllLists(nodes, rels, l.child, l.parent);
      LinkAllLists(nodes, rels, l.parent, l.child);
    }
    LinkAllRecorded(once, rels);
  }

  /** When the gedcom is `data` itself, linking its twice-listed relationships is linking them once. */
  lemma TwiceListedHarmless(data: Value, nodes: map<Id, PedigreeNode>)
    requires GedcomOf(data) == data && Field(data, "relationships").Arr?
    requires ListsDistinct(nodes)
    ensures LinkAll(nodes, ExtractRelationships(data)) == LinkAll(nodes, Field(data, "relationships").items)
  {
    RelationshipsTwice(data);
    LinkAllTwice(nodes, Field(data, "relationships").items);
  }

  /**
   * `buildPedigreeResult(rootId, generations, data)` with the relationships of the response
   * linked into the nodes one after the other; `rootId` and `generations` come back as given.
   */
  method BuildPedigreeResult(rootId: Id, generations: int, data: Value, mapPerson: PersonMapper)
    returns (r: PedigreeResult)
    ensures r.rootId == rootId && r.generations == generations
    ensures var ps := MappedPersons(PersonsRaw(data), CollectedPlaces(PlaceRecords(GedcomOf(data))), mapPerson);
      r.nodes == LinkAll(FreshNodes(ps), ExtractRelationships(data))
  {
    var extracted := ExtractPersonsAndBuildNodes(data, mapPerson);
    var nodes := extracted.nodes;
    var relationships := ExtractRelationships(data);
    var i := 0;
    while i < |relationships|
      invariant 0 <= i <= |relationships|
      invariant LinkAll(nodes, relationships[i..]) == LinkAll(extracted.nodes, relationships)
    {
      assert relationships[i..][1..] == relationships[i + 1..];
      var rel := relationships[i];
      i := i + 1;
      var relType := RelationshipType(rel);
      if !Contains(relType, "parentchild") {
        continue;
      }
      var parentId := ExtractResourceId(Field(rel, "person1"));
      var childId := ExtractResourceId(Field(rel, "person2"));
      if parentId.None? || childId.None? {
        continue;
      }
      if childId.value in nodes {
        var parents := SetAdd(Parents(nodes[childId.value]), parentId.value);
        nodes := nodes[childId.value := nodes[childId.value].(parents := Some(parents))];
      }
      if parentId.value in nodes {
        var children := SetAdd(Children(nodes[parentId.value]), childId.value);
        nodes := nodes[parentId.value := nodes[parentId.value].(children := Some(children))];
      }
    }
    assert relationships[i..] == [];
    r := PedigreeResult(rootId, generations, nodes);
  }

  /**
   * The tree built from a response: one node per mapped id, lists without repetitions, and a
   * node's parents exactly the parents of the links whose child it is (its children likewise).
   */
  lemma PedigreeShape(data: Value, mapPerson: PersonMapper, a: Id, b: Id)
    ensures var ps := MappedPersons(PersonsRaw(data), CollectedPlaces(PlaceRecords(GedcomOf(data))), mapPerson);
      var nodes := LinkAll(FreshNodes(ps), ExtractRelationships(data));
      && nodes.Keys == IdsOf(ps)
      && ListsDistinct(nodes)
      && (HasParent(nodes, a, b) <==> a in IdsOf(ps) && Link(b, a) in Links(ExtractRelationships(data)))
      && (HasChild(nodes, a, b) <==> a in IdsOf(ps) && Link(a, b) in Links(ExtractRelationships(data)))
  {
    var ps := MappedPersons(PersonsRaw(data), CollectedPlaces(PlaceRecords(GedcomOf(data))), mapPerson);
    var initial := FreshNodes(ps);
    assert ListsDistinct(initial);
    LinkAllDistinct(initial, ExtractRelationships(data));
    LinkAllLists(initial, ExtractRelationships(data), a, b);
  }
}

=== FILE: place_adapter.dfy ===
/**
 * The FamilySearch place lookups (src/adapters/familysearch/placeAdapter.ts): the search that
 * keeps the first place seen per id across the response's entries, and the lookup by id that
 * picks one place out of a place document. The response body (or the error the request threw)
 * is a parameter.
 */
module PlaceAdapter {
  import opened Wrappers
  import opened Text
  import opened Domain
  import opened Json
  import opened Seqs
  import opened OrderedMap
  import opened GedcomUtils

  // ------------------------------------------------------------------ searchPlaces

  /** Prefix of the message a failed search is rethrown with. */
  const PlacesFailure := "Falha ao buscar lugares: "

  /** `result.slice(0, 25)`. */
  const MaxPlaces := 25

  /** Every entry is keyed by its own place's id, as `collectPlacesFromGedcom` builds its map. */
  predicate KeyedById(ps: seq<(Id, Place)>) {
    forall k :: 0 <= k < |ps| ==> ps[k].1.id == ps[k].0
  }

  /** The ids of a list of places, in order. */
  function PlaceIds(places: seq<Place>): (ids: seq<Id>)
    ensures |ids| == |places|
    ensures forall i :: 0 <= i < |places| ==> ids[i] == places[i].id
  {
    seq(|places|, i requires 0 <= i < |places| => places[i].id)
  }

  /** The (id, place) pairs one search entry contributes, in its map's order; none without a document. */
  function EntryPlaces(entry: Value): (ps: seq<(Id, Place)>)
    ensures KeyedById(ps)
  {
    var gedcom := EntryGedcom(entry);
    if Truthy(gedcom) then CollectedPlaces(PlaceRecords(gedcom)) else []
  }

  /** The pairs of all entries, entry after entry: the order in which the loop visits them. */
  function AllPlaces(entries: seq<Value>): (ps: seq<(Id, Place)>)
    ensures KeyedById(ps)
    decreases |entries|
  {
    if entries == [] then []
    else
      var before := AllPlaces(entries[..|entries| - 1]);
      var last := EntryPlaces(entries[|entries| - 1]);
      KeyedConcat(before, last);
      before + last
  }

  /** Visiting one more entry appends its pairs. */
  lemma AllPlacesStep(entries: seq<Value>, i: nat)
    requires i < |entries|
    ensures AllPlaces(entries[..i + 1]) == AllPlaces(entries[..i]) + EntryPlaces(entries[i])
  {
    assert entries[..i + 1][..i] == entries[..i];
  }

  /** Two lists keyed by their places' ids stay so when joined. */
  lemma KeyedConcat(a: seq<(Id, Place)>, b: seq<(Id, Place)>)
    requires KeyedById(a) && KeyedById(b)
    ensures KeyedById(a + b)
  {
    forall k | 0 <= k < |a + b|
      ensures (a + b)[k].1.id == (a + b)[k].0
    {
      if k < |a| {
        assert (a + b)[k] == a[k];
      } else {
        assert (a + b)[k] == b[k - |a|];
      }
    }
  }

  /** The place of the first visit to each id, in the order of first visits. */
  function FirstPlaces(ps: seq<(Id, Place)>): seq<Place>
    decreases |ps|
  {
    if ps == [] then []
    else
      var before := FirstPlaces(ps[..|ps| - 1]);
      if ps[|ps| - 1].0 in Keys(ps[..|ps| - 1]) then before else before + [ps[|ps| - 1].1]
  }

  /** Appending an entry changes the keys only by that entry's key. */
  lemma KeysAppend<K, V>(m: seq<(K, V)>, e: (K, V))
    ensures Keys(m + [e]) == Keys(m) + [e.0]
  {
  }

  /** Appending an entry leaves the first entry of an earlier key where it was. */
  lemma IndexOfAppendOld<K, V>(m: seq<(K, V)>, e: (K, V), k: K)
    requires k in Keys(m)
    ensures IndexOf(m + [e], k) == IndexOf(m, k)
  {
    IndexOfFirst(m + [e], k, IndexOf(m, k));
  }

  /** Appending an entry with a new key makes it that key's first entry. */
  lemma IndexOfAppendNew<K, V>(m: seq<(K, V)>, e: (K, V))
    requires e.0 !in Keys(m)
    ensures IndexOf(m + [e], e.0) == |m|
  {
    assert forall j :: 0 <= j < |m| ==> Keys(m)[j] == m[j].0;
    IndexOfFirst(m + [e], e.0, |m|);
  }

  /** Looking a key up after appending one entry: the earlier entries answer first. */
  lemma GetAppend<K, V>(m: seq<(K, V)>, e: (K, V), k: K)
    ensures Get(m + [e], k) == if k in Keys(m) then Get(m, k) else if k == e.0 then Some(e.1) else None
  {
    KeysAppend(m, e);
    if k in Keys(m) {
      IndexOfAppendOld(m, e, k);
    } else if k == e.0 {
      IndexOfAppendNew(m, e);
    }
  }

  /** Each kept place is the one the first visit to its id brought: `map.get` on all pairs finds it. */
  lemma {:induction false} FirstPlacesFirst(ps: seq<(Id, Place)>)
    requires KeyedById(ps)
    ensures forall i :: 0 <= i < |FirstPlaces(ps)| ==>
      FirstPlaces(ps)[i].id in Keys(ps) && Get(ps, FirstPlaces(ps)[i].id) == Some(FirstPlaces(ps)[i])
    decreases |ps|
  {
    if ps != [] {
      var pre := ps[..|ps| - 1];
      var e := ps[|ps| - 1];
      assert ps == pre + [e];
      FirstPlacesFirst(pre);
      KeysAppend(pre, e);
      var r := FirstPlaces(ps);
      forall i | 0 <= i < |r|
        ensures r[i].id in Keys(ps) && Get(ps, r[i].id) == Some(r[i])
      {
        GetAppend(pre, e, r[i].id);
        if i < |FirstPlaces(pre)| {
          assert r[i] == FirstPlaces(pre)[i];
        }
      }
    }
  }

  /** No id is kept twice. */
  lemma {:induction false} FirstPlacesDistinct(ps: seq<(Id, Place)>)
    requires KeyedById(ps)
    ensures Distinct(PlaceIds(FirstPlaces(ps)))
    decreases |ps|
  {
    if ps != [] {
      var pre := ps[..|ps| - 1];
      var e := ps[|ps| - 1];
      FirstPlacesDistinct(pre);
      FirstPlacesFirst(pre);
      var before := FirstPlaces(pre);
      var r := FirstPlaces(ps);
      if e.0 !in Keys(pre) {
        assert r == before + [e.1];
        forall i, j | 0 <= i < j < |r|
          ensures PlaceIds(r)[i] != PlaceIds(r)[j]
        {
          if j == |before| {
            assert before[i].id in Keys(pre);
          } else {
            assert PlaceIds(before)[i] != PlaceIds(before)[j];
          }
        }
      }
    }
  }

  /** Every id visited keeps a place: the first one its visits brought. */
  lemma {:induction false} FirstPlacesComplete(ps: seq<(Id, Place)>, k: Id)
    requires k in Keys(ps)
    ensures Get(ps, k).Some? && Get(ps, k).value in FirstPlaces(ps)
    decreases |ps|
  {
    var pre := ps[..|ps| - 1];
    var e := ps[|ps| - 1];
    assert ps == pre + [e];
    KeysAppend(pre, e);
    GetAppend(pre, e, k);
    if k in Keys(pre) {
      FirstPlacesComplete(pre, k);
    }
  }

  /** Kept places come in the order of their ids' first visits. */
  lemma {:induction false} FirstPlacesOrder(ps: seq<(Id, Place)>, i: nat, j: nat)
    requires KeyedById(ps)
    requires i < j < |FirstPlaces(ps)|
    ensures IndexOf(ps, FirstPlaces(ps)[i].id) < IndexOf(ps, FirstPlaces(ps)[j].id)
    decreases |ps|
  {
    var pre := ps[..|ps| - 1];
    var e := ps[|ps| - 1];
    assert ps == pre + [e];
    var before := FirstPlaces(pre);
    FirstPlacesFirst(pre);
    var r := FirstPlaces(ps);
    assert r[i] == before[i];
    IndexOfAppendOld(pre, e, before[i].id);
    if j < |before| {
      assert r[j] == before[j];
      FirstPlacesOrder(pre, i, j);
      IndexOfAppendOld(pre, e, before[j].id);
    } else {
      assert r[j] == e.1 && e.0 !in Keys(pre);
      IndexOfAppendNew(pre, e);
    }
  }

  /**
   * The places a search answers with, given the pairs its entries bring: the first 25 ids to
   * appear (all of them when fewer appear), no id twice, each with the first place brought for
   * it, in the order of first appearance; every id left out appears after every id kept.
   */
  function KeptPlaces(ps: seq<(Id, Place)>): (r: seq<Place>)
    requires KeyedById(ps)
    ensures |r| == if |FirstPlaces(ps)| < MaxPlaces then |FirstPlaces(ps)| else MaxPlaces
    ensures r == FirstPlaces(ps)[..|r|]
    ensures Distinct(PlaceIds(r))
    ensures forall i :: 0 <= i < |r| ==> r[i].id in Keys(ps) && Get(ps, r[i].id) == Some(r[i])
    ensures forall i, j :: 0 <= i < j < |r| ==> IndexOf(ps, r[i].id) < IndexOf(ps, r[j].id)
    ensures forall i, k :: 0 <= i < |r| && k in Keys(ps) && Get(ps, k).value !in r ==>
      IndexOf(ps, r[i].id) < IndexOf(ps, k)
    ensures |FirstPlaces(ps)| <= MaxPlaces ==> forall k :: k in Keys(ps) ==> Get(ps, k).value in r
  {
    var all := FirstPlaces(ps);
    FirstPlacesFirst(ps);
    FirstPlacesDistinct(ps);
    var r := Take(all, MaxPlaces);
    assert r == all[..|r|];
    forall i, j | 0 <= i < j < |r|
      ensures PlaceIds(r)[i] != PlaceIds(r)[j] && IndexOf(ps, r[i].id) < IndexOf(ps, r[j].id)
    {
      assert PlaceIds(r)[i] == PlaceIds(all)[i] && PlaceIds(r)[j] == PlaceIds(all)[j];
      FirstPlacesOrder(ps, i, j);
    }
    forall k | k in Keys(ps)
      ensures Get(ps, k).Some? && Get(ps, k).value in all
    {
      FirstPlacesComplete(ps, k);
    }
    forall i, k | 0 <= i < |r| && k in Keys(ps) && Get(ps, k).value !in r
      ensures IndexOf(ps, r[i].id) < IndexOf(ps, k)
    {
      FirstPlacesComplete(ps, k);
      var j :| 0 <= j < |all| && all[j] == Get(ps, k).value;
      PrefixHas(all, |r|, j);
      assert all[j].id == k by {
        assert ps[IndexOf(ps, k)].1.id == ps[IndexOf(ps, k)].0;
      }
      FirstPlacesOrder(ps, i, j);
    }
    r
  }

  /** The ids visited so far: the `seen` set. */
  function KeySet(ps: seq<(Id, Place)>): (ids: set<Id>)
    ensures forall k :: k in ids <==> k in Keys(ps)
  {
    set k | k in Keys(ps)
  }

  /** Visiting one more pair adds its id to those seen. */
  lemma KeySetAppend(s: seq<(Id, Place)>, e: (Id, Place))
    ensures KeySet(s + [e]) == KeySet(s) + {e.0}
  {
    KeysAppend(s, e);
  }

  /** One step of the visit: the pair's place is kept exactly when its id is new. */
  lemma FirstPlacesStep(s: seq<(Id, Place)>, e: (Id, Place))
    ensures FirstPlaces(s + [e]) == if e.0 in Keys(s) then FirstPlaces(s) else FirstPlaces(s) + [e.1]
    ensures Keys(s + [e]) == Keys(s) + [e.0]
  {
    assert (s + [e])[..|s|] == s;
    KeysAppend(s, e);
  }

  /** The loop step of `KeepUnseen`: recording an unseen id and pushing its place keeps both in step with the visit. */
  lemma KeepUnseenStep(visited: seq<(Id, Place)>, places: seq<(Id, Place)>, j: nat, seen: set<Id>, result: seq<Place>)
    requires j < |places|
    requires seen == KeySet(visited + places[..j]) && result == FirstPlaces(visited + places[..j])
    ensures KeySet(visited + places[..j + 1]) == if places[j].0 in seen then seen else seen + {places[j].0}
    ensures FirstPlaces(visited + places[..j + 1]) == if places[j].0 in seen then result else result + [places[j].1]
  {
    var before := visited + places[..j];
    assert visited + places[..j + 1] == before + [places[j]];
    FirstPlacesStep(before, places[j]);
    KeySetAppend(before, places[j]);
  }

  /**
   * The `places.forEach` of one entry: each place whose id is not in `seen` is recorded there and
   * pushed onto `result`.
   */
  method KeepUnseen(places: seq<(Id, Place)>, seen: set<Id>, result: seq<Place>, ghost visited: seq<(Id, Place)>)
    returns (seen': set<Id>, result': seq<Place>)
    requires seen == KeySet(visited)
    requires result == FirstPlaces(visited)
    ensures seen' == KeySet(visited + places)
    ensures result' == FirstPlaces(visited + places)
  {
    seen', result' := seen, result;
    var j := 0;
    assert visited + places[..0] == visited;
    while j < |places|
      invariant 0 <= j <= |places|
      invariant seen' == KeySet(visited + places[..j])
      invariant result' == FirstPlaces(visited + places[..j])
    {
      var (id, place) := places[j];
      KeepUnseenStep(visited, places, j, seen', result');
      if id !in seen' {
        seen' := seen' + {id};
        result' := result' + [place];
      }
      j := j + 1;
    }
    assert places[..|places|] == places;
  }

  /**
   * `searchPlaces(q)`: a blank query answers `[]` without a request; otherwise the entries'
   * places are visited in order and a place is kept when its id has not been seen, and the first
   * 25 kept places are the answer. An authorisation failure is rethrown as it is; any other
   * failure is rethrown with the search's message prefix.
   */
  method SearchPlaces(q: string, response: Fetch<Value>) returns (r: Result<seq<Place>, ClientError>)
    ensures Trim(q) == "" ==> r == Success([])
    ensures Trim(q) != "" && response.FetchFailed? ==> r == Failure(Rethrow(PlacesFailure, response.error))
    ensures Trim(q) != "" && response.Fetched? ==>
      r == Success(KeptPlaces(AllPlaces(ArrayOr(Field(response.data, "entries")))))
  {
    if Trim(q) == "" {
      return Success([]);
    }
    if response.FetchFailed? {
      return Failure(Rethrow(PlacesFailure, response.error));
    }
    var entries := ArrayOr(Field(response.data, "entries"));
    var result := VisitEntries(entries);
    r := Success(Take(result, MaxPlaces));
  }

  /** The body of the entry loop up to `forEach`: the entry's document, skipped when falsy, and its places. */
  method PlacesOfEntry(entry: Value) returns (places: seq<(Id, Place)>)
    ensures places == EntryPlaces(entry)
  {
    var gedcom := EntryGedcom(entry);
    if !Truthy(gedcom) {
      return [];
    }
    places := CollectPlacesFromGedcom(gedcom);
  }

  /** The `for (const entry of entries)` loop: the places kept, in order, before the cut to 25. */
  method VisitEntries(entries: seq<Value>) returns (result: seq<Place>)
    ensures result == FirstPlaces(AllPlaces(entries))
  {
    result := [];
    var seen: set<Id> := {};
    var i := 0;
    while i < |entries|
      invariant 0 <= i <= |entries|
      invariant seen == KeySet(AllPlaces(entries[..i]))
      invariant result == FirstPlaces(AllPlaces(entries[..i]))
    {
      var places := PlacesOfEntry(entries[i]);
      seen, result := KeepUnseen(places, seen, result, AllPlaces(entries[..i]));
      AllPlacesStep(entries, i);
      i := i + 1;
    }
    assert entries[..|entries|] == entries;
  }

  // ------------------------------------------------------------------ getPlaceById

  /** The id a lookup asks for: `normalizeRef(id) ?? id`. */
  function RequestedId(id: string): (n: string)
    ensures id != "" ==> n != ""
    ensures NormalizedRef(Some(id)).Some? ==> BareId(n)
  {
    NormalizedRef(Some(id)).GetOr(id)
  }

  /** The place document: `data.gedcomx ?? data.gedcom ?? data.content.gedcomx ?? data.content.gedcom ?? undefined`. */
  function PlaceDocument(data: Value): Value {
    var content := Field(data, "content");
    OrElse(OrElse(OrElse(OrElse(Field(data, "gedcomx"), Field(data, "gedcom")),
      Field(content, "gedcomx")), Field(content, "gedcom")), Undefined)
  }

  /** The places collected from the document, in insertion order; none when there is no document. */
  function DocumentPlaces(data: Value): (ps: seq<(Id, Place)>)
    ensures KeyedById(ps)
  {
    var doc := PlaceDocument(data);
    if Truthy(doc) then CollectedPlaces(PlaceRecords(doc)) else []
  }

  /**
   * `{ ...raw, id }`: the raw record's own fields with `id` put last, so that it wins. Spreading
   * a value that is not an object contributes no field that the place mapper reads.
   */
  function WithId(raw: Value, id: string): (r: Value)
    ensures Field(r, "id") == Str(id)
    ensures forall k :: k != "id" ==> Field(r, k) == Field(raw, k)
  {
    var own := if raw.Obj? then raw.fields else [];
    assert (own + [("id", Str(id))])[..|own|] == own;
    Obj(own + [("id", Str(id))])
  }

  /**
   * The place made from the first `data.places` record, its id replaced by its normalised own
   * id or else by the requested one. An own id that is truthy but not a string makes
   * `normalizeRef` throw, and the lookup's `catch` answers undefined.
   */
  function ListedPlace(data: Value, requested: string): (r: Option<Place>)
    ensures var rawId := Field(At(Field(data, "places"), 0), "id");
      Truthy(rawId) && !rawId.Str? ==> r.None?
  {
    var raw := At(Field(data, "places"), 0);
    var rawId := Field(raw, "id");
    if Truthy(rawId) && !rawId.Str? then None
    else MapGedcomPlace(WithId(raw, NormalizedRef(AsString(rawId)).GetOr(requested)))
  }

  /**
   * The choice `getPlaceById` makes once the response is in: the document's place keyed by the
   * requested id; else the document's first place; else the first `data.places` record, when
   * there is one and it maps to a place; else nothing.
   */
  function SelectPlace(requested: string, data: Value): (r: Option<Place>)
    ensures DocumentPlaces(data) != [] ==> r.Some? && r.value in Values(DocumentPlaces(data))
    ensures requested in Keys(DocumentPlaces(data)) ==> r.Some? && r.value.id == requested
    ensures DocumentPlaces(data) != [] && requested !in Keys(DocumentPlaces(data)) ==>
      r == Some(DocumentPlaces(data)[0].1)
    ensures DocumentPlaces(data) == [] ==>
      (r.Some? <==> Field(data, "places").Arr? && Field(data, "places").items != [] && ListedPlace(data, requested).Some?)
    ensures DocumentPlaces(data) == [] ==>
      r == (if Field(data, "places").Arr? && Field(data, "places").items != [] then ListedPlace(data, requested) else None)
  {
    var places := DocumentPlaces(data);
    var listed := Field(data, "places");
    if Get(places, requested).Some? then
      assert places[IndexOf(places, requested)].1.id == requested;
      Get(places, requested)
    else if places != [] then Some(places[0].1)
    else if listed.Arr? && listed.items != [] then ListedPlace(data, requested)
    else None
  }

  /** A listed record whose own id is already bare keeps that id. */
  lemma ListedPlaceKeepsId(data: Value, requested: string, own: string)
    requires Field(At(Field(data, "places"), 0), "id") == Str(own)
    requires PlainRef(own)
    ensures ListedPlace(data, requested).Some? && ListedPlace(data, requested).value.id == own
  {
    NormalizeRefPlain(own);
    var raw := WithId(At(Field(data, "places"), 0), own);
    assert ListedPlace(data, requested) == MapGedcomPlace(raw) by {
      assert NormalizedRef(AsString(Str(own))).GetOr(requested) == own;
    }
    assert AsString(Field(raw, "id")) == Some(own);
    MappedOwnId(raw, own);
  }

  /** A record whose own id normalises to `own` maps to a place with id `own`. */
  lemma MappedOwnId(raw: Value, own: string)
    requires Truthy(raw) && NormalizedRef(AsString(Field(raw, "id"))) == Some(own)
    ensures MapGedcomPlace(raw).Some? && MapGedcomPlace(raw).value.id == own
  {
    assert PlaceIdOf(raw) == Some(own);
  }

  /**
   * `getPlaceById(id)`: an empty id answers undefined without a request. An authorisation failure
   * is rethrown; any other failure answers undefined. Otherwise the place `SelectPlace` picks
   * for the normalised id.
   */
  function GetPlaceById(id: string, response: Fetch<Value>): (r: Result<Option<Place>, ClientError>)
    ensures id == "" ==> r == Success(None)
    ensures r.Failure? <==> id != "" && response.FetchFailed? && response.error.AuthFailure?
    ensures r.Failure? ==> r.error == response.error
    ensures id != "" && response.Fetched? ==> r == Success(SelectPlace(RequestedId(id), response.data))
  {
    if id == "" then Success(None)
    else
      match response
      case FetchFailed(e) => if e.AuthFailure? then Failure(e) else Success(None)
      case Fetched(data) => Success(SelectPlace(RequestedId(id), data))
  }
}

=== FILE: ranking.dfy ===
/**
 * Candidate scoring and ranking (src/services/ranking.ts): a fixed weighted sum of place, date,
 * relatives and name scores, explanation chips, and a stable best-first sort.
 */
module Ranking {
  import opened Wrappers
  import opened Text
  import opened Domain
  import opened Normalization

  // ---------------------------------------------------------------- stable sort by score

  /** Best first: scores never increase along the sequence. */
  predicate SortedByScore(s: seq<MatchCandidate>) {
    forall i, j :: 0 <= i < j < |s| ==> s[i].score >= s[j].score
  }

  /** The persons of the candidates, in order. */
  function Persons(s: seq<MatchCandidate>): (ps: seq<Person>)
    ensures |ps| == |s|
    ensures forall i :: 0 <= i < |s| ==> ps[i] == s[i].person
  {
    seq(|s|, i requires 0 <= i < |s| => s[i].person)
  }

  /** The candidates whose score is exactly `v`, in order. */
  function WithScore(s: seq<MatchCandidate>, v: real): (r: seq<MatchCandidate>)
    ensures |r| <= |s|
  {
    if s == [] then []
    else (if s[0].score == v then [s[0]] else []) + WithScore(s[1..], v)
  }

  lemma {:induction false} WithScoreAppend(a: seq<MatchCandidate>, b: seq<MatchCandidate>, v: real)
    ensures WithScore(a + b, v) == WithScore(a, v) + WithScore(b, v)
    decreases |a|
  {
    if a == [] {
      assert a + b == b;
    } else {
      var head := if a[0].score == v then [a[0]] else [];
      var ab := a + b;
      assert ab[0] == a[0] && ab[1..] == a[1..] + b;
      WithScoreAppend(a[1..], b, v);
    }
  }

  /** Where no entry scores `v`, nothing is selected. */
  lemma {:induction false} NoneWithScore(s: seq<MatchCandidate>, v: real)
    requires forall k :: 0 <= k < |s| ==> s[k].score != v
    ensures WithScore(s, v) == []
    decreases |s|
  {
    if s != [] {
      NoneWithScore(s[1..], v);
    }
  }

  /** In a best-first sequence nothing outscores the first entry. */
  lemma {:induction false} SortedHead(s: seq<MatchCandidate>)
    requires SortedByScore(s) && s != []
    ensures forall k :: 0 <= k < |s| ==> s[k].score <= s[0].score
  {
  }

  /**
   * Inserts `x` into a best-first sequence after every entry scoring at least as much, which
   * is where a stable sort puts an element that came later in its input.
   */
  function InsertByScore(x: MatchCandidate, s: seq<MatchCandidate>): (r: seq<MatchCandidate>)
    ensures |r| == |s| + 1
  {
    if s == [] || s[0].score < x.score then [x] + s
    else [s[0]] + InsertByScore(x, s[1..])
  }

  lemma {:induction false} InsertByScoreSorted(x: MatchCandidate, s: seq<MatchCandidate>)
    requires SortedByScore(s)
    ensures SortedByScore(InsertByScore(x, s))
    ensures InsertByScore(x, s)[0] == x || InsertByScore(x, s)[0] == s[0]
    decreases |s|
  {
    var r := InsertByScore(x, s);
    if s == [] || s[0].score < x.score {
      if s != [] {
        SortedHead(s);
      }
      assert r == [x] + s;
      forall i, j | 0 <= i < j < |r| ensures r[i].score >= r[j].score {
        if i > 0 {
          assert r[i] == s[i - 1] && r[j] == s[j - 1];
        }
      }
    } else {
      var rest := InsertByScore(x, s[1..]);
      InsertByScoreSorted(x, s[1..]);
      assert r == [s[0]] + rest;
      SortedHead(s);
      assert s[0].score >= rest[0].score;
      assert SortedByScore(rest);
      forall i, j | 0 <= i < j < |r| ensures r[i].score >= r[j].score {
        if i == 0 {
          assert rest[0].score >= rest[j - 1].score || j == 1;
        } else {
          assert r[i] == rest[i - 1] && r[j] == rest[j - 1];
        }
      }
    }
  }

  /** Inserting adds exactly one entry, `x`. */
  lemma {:induction false} InsertByScorePermutation(x: MatchCandidate, s: seq<MatchCandidate>)
    ensures multiset(InsertByScore(x, s)) == multiset(s) + multiset{x}
    decreases |s|
  {
    if s != [] && s[0].score >= x.score {
      InsertByScorePermutation(x, s[1..]);
      assert s == [s[0]] + s[1..];
    }
  }

  lemma {:induction false} PersonsAppend(a: seq<MatchCandidate>, b: seq<MatchCandidate>)
    ensures Persons(a + b) == Persons(a) + Persons(b)
  {
  }

  lemma {:induction false} InsertByScorePersons(x: MatchCandidate, s: seq<MatchCandidate>)
    ensures multiset(Persons(InsertByScore(x, s))) == multiset(Persons(s)) + multiset{x.person}
    decreases |s|
  {
    if s == [] || s[0].score < x.score {
      PersonsAppend([x], s);
    } else {
      InsertByScorePersons(x, s[1..]);
      PersonsAppend([s[0]], InsertByScore(x, s[1..]));
      PersonsAppend([s[0]], s[1..]);
      assert s == [s[0]] + s[1..];
    }
  }

  /** Inserting `x` puts it after the entries with its own score and leaves the other groups alone. */
  lemma {:induction false} InsertByScoreStable(x: MatchCandidate, s: seq<MatchCandidate>, v: real)
    requires SortedByScore(s)
    ensures WithScore(InsertByScore(x, s), v) == WithScore(s, v) + WithScore([x], v)
    decreases |s|
  {
    var wx := WithScore([x], v);
    if s == [] || s[0].score < x.score {
      WithScoreAppend([x], s, v);
      if x.score == v {
        if s != [] {
          SortedHead(s);
        }
        NoneWithScore(s, v);
      } else {
        assert wx == [];
      }
    } else {
      var head := if s[0].score == v then [s[0]] else [];
      var rest := InsertByScore(x, s[1..]);
      assert SortedByScore(s[1..]);
      InsertByScoreStable(x, s[1..], v);
      assert ([s[0]] + rest)[0] == s[0] && ([s[0]] + rest)[1..] == rest;
      assert WithScore([s[0]] + rest, v) == head + WithScore(rest, v);
      assert WithScore(s, v) == head + WithScore(s[1..], v);
    }
  }

  /** `list.sort((a, b) => b.score - a.score)`: a stable sort, best first. */
  function SortByScore(s: seq<MatchCandidate>): (r: seq<MatchCandidate>)
    ensures |r| == |s|
    ensures SortedByScore(r)
  {
    if s == [] then []
    else
      var sorted := SortByScore(s[..|s| - 1]);
      InsertByScoreSorted(s[|s| - 1], sorted);
      InsertByScore(s[|s| - 1], sorted)
  }

  lemma {:induction false} PersonsSnoc(s: seq<MatchCandidate>)
    requires s != []
    ensures Persons(s) == Persons(s[..|s| - 1]) + [s[|s| - 1].person]
  {
  }

  /** Sorting only reorders: every person keeps its multiplicity. */
  lemma {:induction false} SortByScorePersons(s: seq<MatchCandidate>)
    ensures multiset(Persons(SortByScore(s))) == multiset(Persons(s))
    decreases |s|
  {
    if s != [] {
      var init := s[..|s| - 1];
      SortByScorePersons(init);
      InsertByScorePersons(s[|s| - 1], SortByScore(init));
      PersonsSnoc(s);
    }
  }

  lemma {:induction false} MultisetSnoc(s: seq<MatchCandidate>)
    requires s != []
    ensures multiset(s) == multiset(s[..|s| - 1]) + multiset{s[|s| - 1]}
  {
    assert s == s[..|s| - 1] + [s[|s| - 1]];
  }

  /** The sort is a permutation of its input. */
  lemma {:induction false} SortByScorePermutation(s: seq<MatchCandidate>)
    ensures multiset(SortByScore(s)) == multiset(s)
    decreases |s|
  {
    if s != [] {
      var init := s[..|s| - 1];
      SortByScorePermutation(init);
      InsertByScorePermutation(s[|s| - 1], SortByScore(init));
      MultisetSnoc(s);
    }
  }

  /** The sort is stable: the entries sharing any one score keep their input order. */
  lemma {:induction false} SortByScoreStable(s: seq<MatchCandidate>, v: real)
    ensures WithScore(SortByScore(s), v) == WithScore(s, v)
    decreases |s|
  {
    if s != [] {
      var init := s[..|s| - 1];
      var x := s[|s| - 1];
      SortByScoreStable(init, v);
      InsertByScoreStable(x, SortByScore(init), v);
      assert s == init + [x];
      WithScoreAppend(init, [x], v);
    }
  }

  // ---------------------------------------------------------------- weights

  /** The four weights of the final score. */
  datatype Weights = Weights(place: real, date: real, relatives: real, nameVariant: real)

  const DefaultWeights := Weights(0.45, 0.25, 0.2, 0.1)

  /** The weighted sum of the four partial scores. */
  function WeightedScore(w: Weights, place: real, date: real, relatives: real, name: real): real {
    w.place * place + w.date * date + w.relatives * relatives + w.nameVariant * name
  }

  predicate InUnit(x: real) {
    0.0 <= x <= 1.0
  }

  /**
   * The default weights are non-negative and sum to 1, so partial scores in [0, 1] give a final
   * score in [0, 1], and perfect partial scores give exactly 1.
   */
  lemma DefaultWeightsNormalised(place: real, date: real, relatives: real, name: real)
    requires InUnit(place) && InUnit(date) && InUnit(relatives) && InUnit(name)
    ensures DefaultWeights.place >= 0.0 && DefaultWeights.date >= 0.0
    ensures DefaultWeights.relatives >= 0.0 && DefaultWeights.nameVariant >= 0.0
    ensures DefaultWeights.place + DefaultWeights.date + DefaultWeights.relatives + DefaultWeights.nameVariant == 1.0
    ensures InUnit(WeightedScore(DefaultWeights, place, date, relatives, name))
    ensures WeightedScore(DefaultWeights, 1.0, 1.0, 1.0, 1.0) == 1.0
  {
  }

  // ---------------------------------------------------------------- dateOverlapScore

  const NoBirthYearReason := "Data ? (sem ano de nascimento)"
  const WindowReason := "Data ✓ (janela ±2)"
  const FromReason := "Data ~ (>= de-2)"
  const ToReason := "Data ~ (<= até+2)"
  const OutsideReason := "Data ~ (fora mas próximo)"

  /**
   * `dateOverlapScore`: how well the birth year fits the searched window, with two years of
   * slack on each side. A year of 0 counts as absent.
   */
  function DateOverlapScore(p: Person, from: Option<int>, to: Option<int>): (r: Scored)
    ensures r.score in {0.0, 0.2, 0.6, 1.0}
    ensures r.reason.None? <==> !YearGiven(from) && !YearGiven(to)
    ensures r.score == 0.0 <==> !YearGiven(p.birthYear) || (!YearGiven(from) && !YearGiven(to))
    ensures ((YearGiven(from) || YearGiven(to)) && !YearGiven(p.birthYear))
              ==> r == Scored(0.0, Some(NoBirthYearReason))
    ensures r.score == 1.0 <==>
              YearGiven(from) && YearGiven(to) && YearGiven(p.birthYear)
              && from.value - 2 <= p.birthYear.value <= to.value + 2
    ensures r.score == 0.2 <==>
              YearGiven(p.birthYear) && (YearGiven(from) || YearGiven(to))
              && (YearGiven(from) ==> p.birthYear.value < from.value - 2)
              && (YearGiven(to) ==> p.birthYear.value > to.value + 2)
  {
    if !YearGiven(from) && !YearGiven(to) then Scored(0.0, None)
    else if !YearGiven(p.birthYear) then Scored(0.0, Some(NoBirthYearReason))
    else
      var year := p.birthYear.value;
      if YearGiven(from) && YearGiven(to) && year >= from.value - 2 && year <= to.value + 2 then
        Scored(1.0, Some(WindowReason))
      else if YearGiven(from) && year >= from.value - 2 then Scored(0.6, Some(FromReason))
      else if YearGiven(to) && year <= to.value + 2 then Scored(0.6, Some(ToReason))
      else Scored(0.2, Some(OutsideReason))
  }

  /**
   * With both bounds given and in order, a known birth year never scores below 0.6: a year
   * below the window still passes the `to` test, a year above it the `from` test.
   */
  lemma DateBothBoundsAtLeastPartial(p: Person, from: int, to: int)
    requires from != 0 && to != 0 && from <= to && YearGiven(p.birthYear)
    ensures DateOverlapScore(p, Some(from), Some(to)).score >= 0.6
  {
  }

  // ---------------------------------------------------------------- relativesOverlapScore

  /** The relatives of a partially known query person (the only fields the score reads). */
  datatype QueryRelatives = QueryRelatives(father: Option<PersonRef>, mother: Option<PersonRef>, spouse: Option<PersonRef>)

  /** The query the ranking passes: an empty object. */
  const NoRelatives := QueryRelatives(None, None, None)

  const ParentsLabel := "Pais"
  const SpouseLabel := "Cônjuge"

  /** The same relative by id (both ids non-empty). */
  predicate SameRelativeId(qa: PersonRef, ca: PersonRef) {
    qa.id != "" && ca.id != "" && qa.id == ca.id
  }

  /** The same relative by name: both names given and a variant match of at least 0.7. */
  predicate SameRelativeName(qa: PersonRef, ca: PersonRef) {
    TextGiven(qa.name) && TextGiven(ca.name) && NameVariantMatch(qa.name.value, ca.name.value) >= 0.7
  }

  /** What one pair of relatives adds: 0.4 for the same id, else 0.25 for a matching name. */
  function RelativeWeight(qa: Option<PersonRef>, ca: Option<PersonRef>): (w: real)
    ensures w in {0.0, 0.25, 0.4}
    ensures w == 0.4 <==> qa.Some? && ca.Some? && SameRelativeId(qa.value, ca.value)
    ensures w == 0.25 <==> qa.Some? && ca.Some? && !SameRelativeId(qa.value, ca.value) && SameRelativeName(qa.value, ca.value)
  {
    if qa.None? || ca.None? then 0.0
    else if SameRelativeId(qa.value, ca.value) then 0.4
    else if SameRelativeName(qa.value, ca.value) then 0.25
    else 0.0
  }

  /** The chip one pair of relatives contributes: `relation ✓`, `relation ~`, or none. */
  function RelativeChip(relation: string, qa: Option<PersonRef>, ca: Option<PersonRef>): (chips: seq<string>)
    ensures RelativeWeight(qa, ca) == 0.4 ==> chips == [relation + " ✓"]
    ensures RelativeWeight(qa, ca) == 0.25 ==> chips == [relation + " ~"]
    ensures RelativeWeight(qa, ca) == 0.0 ==> chips == []
  {
    var w := RelativeWeight(qa, ca);
    if w == 0.4 then [relation + " ✓"] else if w == 0.25 then [relation + " ~"] else []
  }

  /** The capped sum of the three relative weights. */
  function CappedSum(q: QueryRelatives, c: Person): real {
    var sum := RelativeWeight(q.father, c.father) + RelativeWeight(q.mother, c.mother)
               + RelativeWeight(q.spouse, c.spouse);
    if sum < 1.0 then sum else 1.0
  }

  /** The chips of the three pairs, pushed onto an empty list: father, then mother, then spouse. */
  function RelativeChips(q: QueryRelatives, c: Person): seq<string> {
    [] + RelativeChip(ParentsLabel, q.father, c.father) + RelativeChip(ParentsLabel, q.mother, c.mother)
    + RelativeChip(SpouseLabel, q.spouse, c.spouse)
  }

  /** The reason of the relatives score: the chips joined with ", ", or none when that is empty. */
  function ChipsReason(chips: seq<string>): Option<string> {
    var joined := Join(chips, ", ");
    if joined == "" then None else Some(joined)
  }

  /**
   * `relativesOverlapScore`: father, mother and spouse are compared independently, the sum is
   * capped at 1 and the chips are joined with ", ".
   */
  function RelativesScore(q: QueryRelatives, c: Person): (r: Scored)
    ensures InUnit(r.score)
    ensures r.reason.None? <==> r.score == 0.0
  {
    var chips := RelativeChips(q, c);
    assert chips != [] ==> chips[0] != "";
    Scored(CappedSum(q, c), ChipsReason(chips))
  }

  /** An empty query has no relatives to compare: score 0 and no chip. */
  lemma RelativesScoreEmptyQuery(c: Person)
    ensures RelativesScore(NoRelatives, c) == Scored(0.0, None)
  {
  }

  /** One call of the `overlaps` closure: adds the pair's weight to `s` and its chip to `reasons`. */
  method Overlaps(relation: string, qa: Option<PersonRef>, ca: Option<PersonRef>, s: real, reasons: seq<string>)
    returns (s1: real, reasons1: seq<string>)
    ensures s1 == s + RelativeWeight(qa, ca)
    ensures reasons1 == reasons + RelativeChip(relation, qa, ca)
  {
    s1, reasons1 := s, reasons;
    if qa.None? || ca.None? {
      return;
    }
    if qa.value.id != "" && ca.value.id != "" && qa.value.id == ca.value.id {
      s1 := s1 + 0.4;
      reasons1 := reasons1 + [relation + " ✓"];
    } else if TextGiven(qa.value.name) && TextGiven(ca.value.name)
              && NameVariantMatch(qa.value.name.value, ca.value.name.value) >= 0.7 {
      s1 := s1 + 0.25;
      reasons1 := reasons1 + [relation + " ~"];
    }
  }

  /** `relativesOverlapScore` as the source runs it: accumulate, cap, join. */
  method RelativesOverlapScore(q: QueryRelatives, c: Person) returns (r: Scored)
    ensures r == RelativesScore(q, c)
  {
    var s := 0.0;
    var reasons: seq<string> := [];
    s, reasons := Overlaps(ParentsLabel, q.father, c.father, s, reasons);
    s, reasons := Overlaps(ParentsLabel, q.mother, c.mother, s, reasons);
    s, reasons := Overlaps(SpouseLabel, q.spouse, c.spouse, s, reasons);
    r := Scored(if s < 1.0 then s else 1.0, ChipsReason(reasons));
  }

  // ---------------------------------------------------------------- one candidate

  const NameReason := "Nome ✓"
  const VariantsReason := "Variantes ✓"

  /** The name chip: "Nome ✓" from 0.99, else "Variantes ✓" from 0.6. */
  function NameChips(nm: real): (chips: seq<string>)
    ensures NameReason in chips <==> nm >= 0.99
    ensures VariantsReason in chips <==> 0.6 <= nm < 0.99
    ensures |chips| <= 1
  {
    if nm >= 0.99 then [NameReason] else if nm >= 0.6 then [VariantsReason] else []
  }

  /** `if (reason) explanations.push(reason)`: only a non-empty reason becomes a chip. */
  function ReasonChips(reason: Option<string>): (chips: seq<string>)
    ensures chips == [] <==> !TextGiven(reason)
    ensures chips != [] ==> chips == [reason.value]
  {
    if TextGiven(reason) then [reason.value] else []
  }

  /** The chips of one candidate, pushed in the order name, place, date, relatives. */
  function Explanations(nm: real, place: Scored, date: Scored, relatives: Scored): seq<string> {
    NameChips(nm) + ReasonChips(place.reason) + ReasonChips(date.reason) + ReasonChips(relatives.reason)
  }

  /** The candidate's place text: its place's display name, else its free-text place. */
  function CandidatePlaceText(p: Person): (t: Option<string>)
    ensures p.primaryPlace.Some? ==> t == Some(p.primaryPlace.value.displayName)
    ensures p.primaryPlace.None? ==> t == p.primaryPlaceText
  {
    if p.primaryPlace.Some? then Some(p.primaryPlace.value.displayName) else p.primaryPlaceText
  }

  /** The place sub-score of one candidate. */
  function PlaceScore(params: SearchParams, queryPlace: Option<Place>, p: Person): Scored {
    PlaceMatchScore(queryPlace, params.placeText, p.primaryPlace, CandidatePlaceText(p))
  }

  /**
   * The scored entry the ranking builds for one person against a query person whose relatives
   * are `q`, before sorting.
   */
  function Evaluate(params: SearchParams, queryPlace: Option<Place>, q: QueryRelatives, p: Person): (m: MatchCandidate)
    ensures m.person == p
    ensures InUnit(m.score)
  {
    var nm := NameVariantMatch(params.name, p.name);
    var pl := PlaceScore(params, queryPlace, p);
    var dt := DateOverlapScore(p, params.birthYearFrom, params.birthYearTo);
    var rl := RelativesScore(q, p);
    DefaultWeightsNormalised(pl.score, dt.score, rl.score, nm);
    MatchCandidate(p, WeightedScore(DefaultWeights, pl.score, dt.score, rl.score, nm), Explanations(nm, pl, dt, rl))
  }

  /**
   * Without a relatives reason the chips come in the order name, place, date: the first chip is
   * "Nome ✓" from a name score of 0.99, "Variantes ✓" from 0.6, and below 0.6 the chips are
   * only the place and date reasons.
   */
  lemma {:induction false} ExplanationsOrder(nm: real, place: Scored, date: Scored, relatives: Scored)
    requires relatives.reason.None?
    ensures var rest := ReasonChips(place.reason) + ReasonChips(date.reason);
            var e := Explanations(nm, place, date, relatives);
            && (nm >= 0.99 ==> e == [NameReason] + rest)
            && (0.6 <= nm < 0.99 ==> e == [VariantsReason] + rest)
            && (nm < 0.6 ==> e == rest)
            && |e| <= 3
  {
    var rest := ReasonChips(place.reason) + ReasonChips(date.reason);
    assert Explanations(nm, place, date, relatives) == NameChips(nm) + rest;
  }

  /** The ranking queries without relatives, so a candidate's chips are its name, place and date chips. */
  lemma EvaluateExplanations(params: SearchParams, queryPlace: Option<Place>, p: Person)
    ensures Evaluate(params, queryPlace, NoRelatives, p).explanations
            == Explanations(NameVariantMatch(params.name, p.name), PlaceScore(params, queryPlace, p),
                            DateOverlapScore(p, params.birthYearFrom, params.birthYearTo), Scored(0.0, None))
  {
    RelativesScoreEmptyQuery(p);
  }

  /** `if (reason) explanations.push(reason)` */
  method PushReason(explanations: seq<string>, reason: Option<string>) returns (e: seq<string>)
    ensures e == explanations + ReasonChips(reason)
  {
    e := explanations;
    if reason.Some? && reason.value != "" {
      e := e + [reason.value];
    }
  }

  /** One iteration of the scoring callback: computes the sub-scores and pushes the chips one by one. */
  method ScoreCandidate(params: SearchParams, queryPlace: Option<Place>, q: QueryRelatives, p: Person)
    returns (m: MatchCandidate)
    ensures m == Evaluate(params, queryPlace, q, p)
  {
    var explanations: seq<string> := [];
    var nm := NameVariantMatch(params.name, p.name);
    if nm >= 0.99 {
      explanations := explanations + [NameReason];
    } else if nm >= 0.6 {
      explanations := explanations + [VariantsReason];
    }
    assert explanations == NameChips(nm);
    var pl := PlaceMatchScore(queryPlace, params.placeText, p.primaryPlace, CandidatePlaceText(p));
    explanations := PushReason(explanations, pl.reason);
    var dt := DateOverlapScore(p, params.birthYearFrom, params.birthYearTo);
    explanations := PushReason(explanations, dt.reason);
    var rl := RelativesOverlapScore(q, p);
    explanations := PushReason(explanations, rl.reason);
    m := MatchCandidate(p, WeightedScore(DefaultWeights, pl.score, dt.score, rl.score, nm), explanations);
  }

  // ---------------------------------------------------------------- rankCandidates

  /** The query place: resolved through the resolver only when a non-empty place id is given. */
  function QueryPlace(params: SearchParams, resolver: Option<Id -> Option<Place>>): (qp: Option<Place>)
    ensures !TextGiven(params.placeId) || resolver.None? ==> qp.None?
  {
    if TextGiven(params.placeId) && resolver.Some? then resolver.value(params.placeId.value) else None
  }

  /** `candidates.map(...)`: every person scored, in input order. */
  function EvaluateAll(params: SearchParams, queryPlace: Option<Place>, ps: seq<Person>): (ms: seq<MatchCandidate>)
    ensures |ms| == |ps|
  {
    seq(|ps|, i requires 0 <= i < |ps| => Evaluate(params, queryPlace, NoRelatives, ps[i]))
  }

  /** Entry `i` is person `i`, scored, and its score lies in [0, 1]. */
  lemma EvaluateAllAt(params: SearchParams, queryPlace: Option<Place>, ps: seq<Person>, i: nat)
    requires i < |ps|
    ensures EvaluateAll(params, queryPlace, ps)[i] == Evaluate(params, queryPlace, NoRelatives, ps[i])
    ensures EvaluateAll(params, queryPlace, ps)[i].person == ps[i]
    ensures InUnit(EvaluateAll(params, queryPlace, ps)[i].score)
  {
  }

  /** Scoring keeps the persons: the entries are the input persons, in order. */
  lemma EvaluateAllPersons(params: SearchParams, queryPlace: Option<Place>, ps: seq<Person>)
    ensures Persons(EvaluateAll(params, queryPlace, ps)) == ps
  {
    var ms := EvaluateAll(params, queryPlace, ps);
    forall i | 0 <= i < |ps|
      ensures Persons(ms)[i] == ps[i]
    {
      EvaluateAllAt(params, queryPlace, ps, i);
    }
  }

  /**
   * `rankCandidates`: one entry per input person, scored, then sorted best-first; entries with
   * equal scores keep their input order.
   */
  method RankCandidates(params: SearchParams, candidates: seq<Person>, resolver: Option<Id -> Option<Place>>)
    returns (list: seq<MatchCandidate>)
    ensures list == SortByScore(EvaluateAll(params, QueryPlace(params, resolver), candidates))
    ensures |list| == |candidates|
    ensures multiset(Persons(list)) == multiset(candidates)
    ensures SortedByScore(list)
    ensures forall v :: WithScore(list, v) == WithScore(EvaluateAll(params, QueryPlace(params, resolver), candidates), v)
    ensures forall i :: 0 <= i < |list| ==> InUnit(list[i].score)
  {
    var qp := QueryPlace(params, resolver);
    var scored := EvaluateAll(params, qp, candidates);
    var a := new MatchCandidate[|scored|](k requires 0 <= k < |scored| => scored[k]);
    assert a[..] == scored;
    SortInPlace(a);
    list := a[..];
    EvaluateAllPersons(params, qp, candidates);
    SortByScorePersons(scored);
    SortByScorePermutation(scored);
    forall v {
      SortByScoreStable(scored, v);
    }
    forall i | 0 <= i < |scored|
      ensures InUnit(scored[i].score)
    {
      EvaluateAllAt(params, qp, candidates, i);
    }
    UnitScoresPermutation(scored, list);
  }

  /** Reordering keeps every score in [0, 1]. */
  lemma UnitScoresPermutation(s: seq<MatchCandidate>, t: seq<MatchCandidate>)
    requires multiset(s) == multiset(t)
    requires forall i :: 0 <= i < |s| ==> InUnit(s[i].score)
    ensures forall i :: 0 <= i < |t| ==> InUnit(t[i].score)
  {
    forall i | 0 <= i < |t|
      ensures InUnit(t[i].score)
    {
      assert t[i] in multiset(s);
    }
  }

  /** Where the inner loop stops, `InsertByScore` puts `x`: after the entries scoring at least `x`. */
  lemma {:induction false} InsertByScoreAt(x: MatchCandidate, s: seq<MatchCandidate>, j: nat)
    requires j <= |s|
    requires forall k :: 0 <= k < j ==> s[k].score >= x.score
    requires j < |s| ==> s[j].score < x.score
    ensures InsertByScore(x, s) == s[..j] + [x] + s[j..]
    decreases j
  {
    if j > 0 {
      InsertByScoreAt(x, s[1..], j - 1);
      assert s[1..][..j - 1] == s[1..j];
      assert s[1..][j - 1..] == s[j..];
      assert s[..j] == [s[0]] + s[1..j];
    } else {
      assert s[..0] == [] && s[0..] == s;
    }
  }

  /** In a sorted sequence, `x` goes after the entries scoring at least `x` and before the rest. */
  lemma InsertionPoint(x: MatchCandidate, s: seq<MatchCandidate>, j: nat)
    requires SortedByScore(s) && j <= |s|
    requires forall k :: j <= k < |s| ==> s[k].score < x.score
    requires j > 0 ==> s[j - 1].score >= x.score
    ensures InsertByScore(x, s) == s[..j] + [x] + s[j..]
  {
    assert forall k :: 0 <= k < j ==> s[k].score >= x.score by {
      if j > 0 {
        assert forall k :: 0 <= k < j ==> s[k].score >= s[j - 1].score;
      }
    }
    InsertByScoreAt(x, s, j);
  }

  /**
   * One step of the insertion sort: `a[i]` moves left past every entry of the sorted prefix
   * `a[..i]` that scores strictly less, which shift one place right.
   */
  method InsertLast(a: array<MatchCandidate>, i: nat)
    requires i < a.Length
    requires SortedByScore(a[..i])
    modifies a
    ensures a[..i + 1] == InsertByScore(old(a[i]), old(a[..i]))
    ensures a[i + 1..] == old(a[i + 1..])
  {
    ghost var sorted := a[..i];
    ghost var rest := a[i + 1..];
    var x := a[i];
    var j := i;
    while j > 0 && a[j - 1].score < x.score
      invariant 0 <= j <= i
      invariant forall k :: 0 <= k < j ==> a[k] == sorted[k]
      invariant forall k :: j < k <= i ==> a[k] == sorted[k - 1]
      invariant forall k :: j <= k < i ==> sorted[k].score < x.score
      invariant a[i + 1..] == rest
    {
      a[j] := a[j - 1];
      j := j - 1;
    }
    a[j] := x;
    assert a[..i + 1] == sorted[..j] + [x] + sorted[j..];
    InsertionPoint(x, sorted, j);
  }

  /** The comparator sort of the ranking, in place: an insertion sort, stable like the original. */
  method SortInPlace(a: array<MatchCandidate>)
    modifies a
    ensures a[..] == SortByScore(old(a[..]))
  {
    ghost var input := a[..];
    var i := 0;
    while i < a.Length
      invariant 0 <= i <= a.Length
      invariant a[..i] == SortByScore(input[..i])
      invariant a[i..] == input[i..]
    {
      assert input[..i + 1][..i] == input[..i];
      InsertLast(a, i);
      i := i + 1;
    }
    assert input[..a.Length] == input;
  }
}

=== FILE: search_adapter.dfy ===
/**
 * The FamilySearch person search (src/adapters/familysearch/searchAdapter.ts): splitting the
 * query name, building the search parameters, and turning the entries of the response into
 * persons before they are ranked.
 */
module SearchAdapter {
  import opened Wrappers
  import opened Text
  import opened Uri
  import opened Domain
  import opened Json
  import opened Seqs
  import opened OrderedMap
  import opened GedcomUtils
  import opened Ranking

  // ---------------------------------------------------------------- splitName

  /**
   * A string with single plain spaces between its words: white space occurs only as `' '`,
   * never twice in a row, and not at either end.
   */
  predicate SingleSpaced(c: string) {
    && (forall i :: 0 <= i < |c| && IsSpace(c[i]) ==> c[i] == ' ')
    && (forall i :: 0 <= i < |c| - 1 ==> !(c[i] == ' ' && c[i + 1] == ' '))
    && (c != [] ==> c[0] != ' ' && c[|c| - 1] != ' ')
  }

  /** `name.trim().replace(/\s+/g, " ")`. */
  function Collapsed(name: string): string {
    CollapseRuns(Trim(name), IsSpace, ' ')
  }

  /** The collapsed name is single-spaced, and empty exactly for a blank name. */
  lemma CollapsedSingleSpaced(name: string)
    ensures SingleSpaced(Collapsed(name))
    ensures Collapsed(name) == [] <==> AllSatisfy(name, IsSpace)
  {
    CollapsedShape(Trim(name), Collapsed(name));
  }

  /** Collapsing the runs of a trimmed string leaves it single-spaced. */
  lemma CollapsedShape(t: string, c: string)
    requires t != [] ==> !IsSpace(t[0]) && !IsSpace(t[|t| - 1])
    requires c == CollapseRuns(t, IsSpace, ' ')
    ensures SingleSpaced(c)
  {
    forall i | 0 <= i < |c| - 1 ensures !(c[i] == ' ' && c[i + 1] == ' ') {
      assert !(IsSpace(c[i]) && IsSpace(c[i + 1]));
    }
    if t != [] {
      CollapseRunsLast(t, IsSpace, ' ');
    }
  }

  /** The given names and the surname a query name is split into. */
  datatype NameParts = NameParts(givenName: string, surname: string)

  /** The split of a trimmed and collapsed name: its last word is the surname, the words before it the given name. */
  function SplitWords(c: string): (r: NameParts)
    ensures ' ' !in r.surname
  {
    if c == "" then NameParts("", "")
    else
      var parts := SplitOn(c, ' ');
      if |parts| == 1 then NameParts(parts[0], "")
      else NameParts(Join(parts[..|parts| - 1], " "), parts[|parts| - 1])
  }

  /**
   * `splitName(name)`: a blank name gives two empty parts, a single word is the given name,
   * and otherwise the last word is the surname and the words before it the given name.
   */
  function SplitName(name: string): (r: NameParts)
    ensures ' ' !in r.surname
  {
    SplitWords(Collapsed(name))
  }

  /** A blank name, and only a blank name, splits into two empty parts. */
  lemma SplitNameBlank(name: string)
    ensures SplitName(name) == NameParts("", "") <==> AllSatisfy(name, IsSpace)
  {
    var c := Collapsed(name);
    CollapsedSingleSpaced(name);
    if c != "" {
      var parts := SplitOn(c, ' ');
      SplitOnFirstEmpty(c, ' ');
      if |parts| > 1 {
        assert StartsWith(Join(parts[..|parts| - 1], " "), parts[0]);
      }
    }
  }

  /** A name of one word is all given name. */
  lemma SplitNameSingle(name: string)
    requires Collapsed(name) != "" && ' ' !in Collapsed(name)
    ensures SplitName(name) == NameParts(Collapsed(name), "")
  {
    SplitOnAbsent(Collapsed(name), ' ');
  }

  /**
   * A name of several words splits into two non-empty parts, the surname a single word, which
   * joined by one space give back the trimmed and collapsed name.
   */
  lemma SplitNameRejoin(name: string)
    requires ' ' in Collapsed(name)
    ensures SplitName(name).givenName != "" && SplitName(name).surname != ""
    ensures SplitName(name).givenName + " " + SplitName(name).surname == Collapsed(name)
  {
    CollapsedSingleSpaced(name);
    SplitWordsRejoin(Collapsed(name));
  }

  /** A single-spaced string of several words splits into two non-empty parts that rejoin to it. */
  lemma SplitWordsRejoin(c: string)
    requires SingleSpaced(c) && ' ' in c
    ensures SplitWords(c).givenName != "" && SplitWords(c).surname != ""
    ensures SplitWords(c).givenName + " " + SplitWords(c).surname == c
  {
    var parts := SplitOn(c, ' ');
    SplitOnSeveral(c, ' ');
    SplitOnFirstEmpty(c, ' ');
    SplitOnLaterPiecesNonEmpty(c, ' ');
    assert StartsWith(Join(parts[..|parts| - 1], " "), parts[0]);
    JoinSnoc(parts, " ");
    JoinSplitOn(c, ' ');
  }

  // ---------------------------------------------------------------- buildSearchQuery

  /**
   * A `URLSearchParams` whose names each occur once: the names in the order they were first
   * set, and the value of each.
   */
  datatype ParamName = Count | GivenName | Surname | Name | BirthDate | BirthPlaceId | BirthPlace | Order

  /** The name each parameter carries in the query string. */
  function ParamText(k: ParamName): (r: string)
    ensures r != ""
  {
    match k
    case Count => "count"
    case GivenName => "givenName"
    case Surname => "surname"
    case Name => "name"
    case BirthDate => "birthDate"
    case BirthPlaceId => "birthPlaceId"
    case BirthPlace => "birthPlace"
    case Order => "order"
  }

  datatype Query = Query(names: seq<ParamName>, values: map<ParamName, string>)

  /** Every name occurs once, and exactly the named parameters have values. */
  ghost predicate ValidQuery(q: Query) {
    && (forall i, j :: 0 <= i < j < |q.names| ==> q.names[i] != q.names[j])
    && (forall i :: 0 <= i < |q.names| ==> q.names[i] in q.values)
    && |q.values| == |q.names|
  }

  /** `search.get(k)`: the value of parameter `k`, absent when it was never set. */
  function Param(q: Query, k: ParamName): (r: Option<string>)
    ensures r.Some? <==> k in q.values
  {
    if k in q.values then Some(q.values[k]) else None
  }

  /** `search.set(k, v)`: a new name goes last, an existing one keeps its place and the others their values. */
  function SetParam(q: Query, k: ParamName, v: string): (r: Query)
    requires ValidQuery(q)
    ensures ValidQuery(r)
    ensures Param(r, k) == Some(v)
    ensures forall k' :: k' != k ==> Param(r, k') == Param(q, k')
    ensures k in q.values ==> r.names == q.names
    ensures k !in q.values ==> r.names == q.names + [k]
  {
    Query(if k in q.values then q.names else q.names + [k], q.values[k := v])
  }

  /** The first name stays first, and names are never removed. */
  ghost predicate KeepsFirst(q: Query, r: Query) {
    |q.names| <= |r.names| && (q.names != [] ==> r.names[0] == q.names[0])
  }

  /** The name parameters: `givenName` and `surname` when non-empty, and `name` always. */
  function SetNameParams(q: Query, name: string, parts: NameParts): (r: Query)
    requires ValidQuery(q)
    ensures ValidQuery(r)
    ensures Param(r, GivenName) == if parts.givenName != "" then Some(parts.givenName) else Param(q, GivenName)
    ensures Param(r, Surname) == if parts.surname != "" then Some(parts.surname) else Param(q, Surname)
    ensures Param(r, Name) == Some(name)
    ensures forall k :: k != GivenName && k != Surname && k != Name ==> Param(r, k) == Param(q, k)
    ensures KeepsFirst(q, r)
  {
    var withGiven := if parts.givenName != "" then SetParam(q, GivenName, parts.givenName) else q;
    var withSurname := if parts.surname != "" then SetParam(withGiven, Surname, parts.surname) else withGiven;
    // Both branches of the source set the same value.
    if parts.givenName == "" && parts.surname == "" then SetParam(withSurname, Name, name)
    else SetParam(withSurname, Name, name)
  }

  /** The text of a truthy year, as a template literal prints it. */
  function YearText(y: Option<int>): string
    requires YearGiven(y)
  {
    IntString(y.value)
  }

  /** `birthDate`: `from-to` when both bounds are truthy, else the truthy one, else left unset. */
  function SetBirthDate(q: Query, from: Option<int>, to: Option<int>): (r: Query)
    requires ValidQuery(q)
    ensures ValidQuery(r)
    ensures YearGiven(from) && YearGiven(to) ==> Param(r, BirthDate) == Some(YearText(from) + "-" + YearText(to))
    ensures YearGiven(from) && !YearGiven(to) ==> Param(r, BirthDate) == Some(YearText(from))
    ensures !YearGiven(from) && YearGiven(to) ==> Param(r, BirthDate) == Some(YearText(to))
    ensures !YearGiven(from) && !YearGiven(to) ==> r == q
    ensures forall k :: k != BirthDate ==> Param(r, k) == Param(q, k)
    ensures KeepsFirst(q, r)
  {
    if YearGiven(from) && YearGiven(to) then SetParam(q, BirthDate, YearText(from) + "-" + YearText(to))
    else if YearGiven(from) then SetParam(q, BirthDate, YearText(from))
    else if YearGiven(to) then SetParam(q, BirthDate, YearText(to))
    else q
  }

  /** The place: the normalised `birthPlaceId` when a place id is given, else the `birthPlace` text if any. */
  function SetBirthPlace(q: Query, placeId: Option<string>, placeText: Option<string>): (r: Query)
    requires ValidQuery(q)
    ensures ValidQuery(r)
    ensures TextGiven(placeId) ==> Param(r, BirthPlaceId) == Some(NormalizedRef(placeId).GetOr(placeId.value))
    ensures !TextGiven(placeId) && TextGiven(placeText) ==> Param(r, BirthPlace) == Some(placeText.value)
    ensures !TextGiven(placeId) && !TextGiven(placeText) ==> r == q
    ensures forall k :: k != (if TextGiven(placeId) then BirthPlaceId else BirthPlace) ==> Param(r, k) == Param(q, k)
    ensures KeepsFirst(q, r)
  {
    if TextGiven(placeId) then SetParam(q, BirthPlaceId, NormalizedRef(placeId).GetOr(placeId.value))
    else if TextGiven(placeText) then SetParam(q, BirthPlace, placeText.value)
    else q
  }

  /**
   * The parameters `buildSearchQuery` sets for `params` once the query name has been split
   * into `parts`: `count` first, then the name parts, `name`, `birthDate`, the place and
   * finally `order`.
   */
  function QueryFor(params: SearchParams, parts: NameParts): (search: Query)
    ensures ValidQuery(search)
  {
    var counted := SetParam(Query([], map[]), Count, "20");
    var named := SetNameParams(counted, params.name, parts);
    var dated := SetBirthDate(named, params.birthYearFrom, params.birthYearTo);
    var placed := SetBirthPlace(dated, params.placeId, params.placeText);
    SetParam(placed, Order, "lastModified")
  }

  /** `buildSearchQuery(params)`: the parameters for the split query name. */
  function BuildSearchQuery(params: SearchParams): (search: Query)
    ensures ValidQuery(search)
  {
    QueryFor(params, SplitName(params.name))
  }

  /** `count` is the first parameter and `order` the last. */
  lemma QueryForOrder(params: SearchParams, parts: NameParts)
    ensures var search := QueryFor(params, parts);
      |search.names| >= 2 && search.names[0] == Count && search.names[|search.names| - 1] == Order
  {
    var counted := SetParam(Query([], map[]), Count, "20");
    assert counted.names == [Count];
    var named := SetNameParams(counted, params.name, parts);
    var dated := SetBirthDate(named, params.birthYearFrom, params.birthYearTo);
    var placed := SetBirthPlace(dated, params.placeId, params.placeText);
    assert Param(placed, Order) == None by {
      assert Param(counted, Order) == None;
      assert Param(named, Order) == None;
      assert Param(dated, Order) == None;
    }
  }

  /** `count`, `name` and `order` are always set, `name` to the query name as given. */
  lemma QueryForFixed(params: SearchParams, parts: NameParts)
    ensures Param(QueryFor(params, parts), Count) == Some("20")
    ensures Param(QueryFor(params, parts), Name) == Some(params.name)
    ensures Param(QueryFor(params, parts), Order) == Some("lastModified")
  {
    var counted := SetParam(Query([], map[]), Count, "20");
    var named := SetNameParams(counted, params.name, parts);
    var dated := SetBirthDate(named, params.birthYearFrom, params.birthYearTo);
    var placed := SetBirthPlace(dated, params.placeId, params.placeText);
    assert Param(placed, Name) == Param(named, Name);
    assert Param(placed, Count) == Param(counted, Count);
  }

  /** `givenName` and `surname` are the name parts, each set only when non-empty. */
  lemma QueryForNames(params: SearchParams, parts: NameParts)
    ensures Param(QueryFor(params, parts), GivenName) == if parts.givenName != "" then Some(parts.givenName) else None
    ensures Param(QueryFor(params, parts), Surname) == if parts.surname != "" then Some(parts.surname) else None
  {
    var counted := SetParam(Query([], map[]), Count, "20");
    var named := SetNameParams(counted, params.name, parts);
    var dated := SetBirthDate(named, params.birthYearFrom, params.birthYearTo);
    var placed := SetBirthPlace(dated, params.placeId, params.placeText);
    assert Param(counted, GivenName) == None && Param(counted, Surname) == None;
    assert Param(placed, GivenName) == Param(named, GivenName);
    assert Param(placed, Surname) == Param(named, Surname);
  }

  /** `birthDate` is `from-to` when both year bounds are truthy, else the truthy one, else unset. */
  lemma QueryForBirthDate(params: SearchParams, parts: NameParts)
    ensures var from, to, search := params.birthYearFrom, params.birthYearTo, QueryFor(params, parts);
      && (YearGiven(from) && YearGiven(to) ==> Param(search, BirthDate) == Some(YearText(from) + "-" + YearText(to)))
      && (YearGiven(from) && !YearGiven(to) ==> Param(search, BirthDate) == Some(YearText(from)))
      && (!YearGiven(from) && YearGiven(to) ==> Param(search, BirthDate) == Some(YearText(to)))
      && (!YearGiven(from) && !YearGiven(to) ==> Param(search, BirthDate).None?)
  {
    var counted := SetParam(Query([], map[]), Count, "20");
    var named := SetNameParams(counted, params.name, parts);
    var dated := SetBirthDate(named, params.birthYearFrom, params.birthYearTo);
    var placed := SetBirthPlace(dated, params.placeId, params.placeText);
    assert Param(named, BirthDate) == None;
    assert Param(placed, BirthDate) == Param(dated, BirthDate);
  }

  /** A given place id is sent, normalised, as `birthPlaceId`, and `birthPlace` is then left unset. */
  lemma QueryForPlaceId(params: SearchParams, parts: NameParts)
    requires TextGiven(params.placeId)
    ensures Param(QueryFor(params, parts), BirthPlaceId) == Some(NormalizedRef(params.placeId).GetOr(params.placeId.value))
    ensures Param(QueryFor(params, parts), BirthPlace).None?
  {
    var counted := SetParam(Query([], map[]), Count, "20");
    var named := SetNameParams(counted, params.name, parts);
    var dated := SetBirthDate(named, params.birthYearFrom, params.birthYearTo);
    var placed := SetBirthPlace(dated, params.placeId, params.placeText);
    assert Param(counted, BirthPlace) == None;
    assert Param(named, BirthPlace) == None;
    assert Param(dated, BirthPlace) == None;
    assert Param(placed, BirthPlace) == None;
    assert QueryFor(params, parts) == SetParam(placed, Order, "lastModified");
  }

  /** Without a place id, `birthPlaceId` is unset and `birthPlace` carries the place text when there is one. */
  lemma QueryForPlaceText(params: SearchParams, parts: NameParts)
    requires !TextGiven(params.placeId)
    ensures Param(QueryFor(params, parts), BirthPlaceId).None?
    ensures Param(QueryFor(params, parts), BirthPlace) == if TextGiven(params.placeText) then Some(params.placeText.value) else None
  {
    var counted := SetParam(Query([], map[]), Count, "20");
    var named := SetNameParams(counted, params.name, parts);
    var dated := SetBirthDate(named, params.birthYearFrom, params.birthYearTo);
    var placed := SetBirthPlace(dated, params.placeId, params.placeText);
    assert Param(counted, BirthPlaceId) == None && Param(counted, BirthPlace) == None;
    assert Param(named, BirthPlaceId) == None && Param(named, BirthPlace) == None;
    assert Param(dated, BirthPlaceId) == None && Param(dated, BirthPlace) == None;
    assert Param(placed, BirthPlaceId) == None;
    assert QueryFor(params, parts) == SetParam(placed, Order, "lastModified");
  }

  // ---------------------------------------------------------------- buildPersonUrl

  const PersonDetailsUrl := "https://www.familysearch.org/tree/person/details/"

  /**
   * `buildPersonUrl(id)`: the person's details page, with the id percent-encoded so that it
   * stays one path segment (no `/`, `?` or `#` of the id survives).
   */
  function BuildPersonUrl(id: Id): (url: string)
    ensures StartsWith(url, PersonDetailsUrl)
    ensures forall i :: |PersonDetailsUrl| <= i < |url| ==> IsUnreserved(url[i]) || url[i] == '%'
    ensures (forall i :: 0 <= i < |id| ==> IsUnreserved(id[i])) ==> url == PersonDetailsUrl + id
  {
    var encoded := EncodeUriComponent(id);
    assert forall i :: |PersonDetailsUrl| <= i < |PersonDetailsUrl + encoded| ==>
      (PersonDetailsUrl + encoded)[i] == encoded[i - |PersonDetailsUrl|];
    PersonDetailsUrl + encoded
  }

  // ---------------------------------------------------------------- searchPersons

  /** `placesById.set` only for ids not seen before, place by place (`places.forEach`). */
  function KeepFirst(cache: seq<(Id, Place)>, places: seq<(Id, Place)>): (r: seq<(Id, Place)>)
    ensures forall id :: Get(r, id) == Coalesce(Get(cache, id), Get(places, id))
    decreases |places|
  {
    if places == [] then cache
    else
      var next := if Get(cache, places[0].0).None? then Put(cache, places[0].0, places[0].1) else cache;
      var r := KeepFirst(next, places[1..]);
      KeepFirstStep(cache, places, next);
      r
  }

  /** One step of `KeepFirst`: the new cache answers `cache ?? places` for the head, as it did for the rest. */
  lemma KeepFirstStep(cache: seq<(Id, Place)>, places: seq<(Id, Place)>, next: seq<(Id, Place)>)
    requires places != []
    requires next == if Get(cache, places[0].0).None? then Put(cache, places[0].0, places[0].1) else cache
    ensures forall id :: Coalesce(Get(next, id), Get(places[1..], id)) == Coalesce(Get(cache, id), Get(places, id))
  {
    forall id
      ensures Coalesce(Get(next, id), Get(places[1..], id)) == Coalesce(Get(cache, id), Get(places, id))
    {
      var k := places[0].0;
      if id == k {
        assert Get(places, id) == Some(places[0].1);
      } else {
        if Get(cache, k).None? {
          PutOther(cache, k, places[0].1, id);
        }
        var j := IndexOf(places[1..], id);
        if 0 <= j {
          IndexOfFirst(places, id, j + 1);
        }
      }
    }
  }

  /** `placeCache`'s loop over one entry's places: adds the places whose ids it does not have yet. */
  method MergeNewPlaces(placeCache: seq<(Id, Place)>, places: seq<(Id, Place)>) returns (r: seq<(Id, Place)>)
    ensures r == KeepFirst(placeCache, places)
  {
    r := placeCache;
    var i := 0;
    while i < |places|
      invariant 0 <= i <= |places|
      invariant KeepFirst(r, places[i..]) == KeepFirst(placeCache, places)
    {
      assert places[i..][1..] == places[i + 1..];
      var (id, place) := places[i];
      if Get(r, id).None? {
        r := Put(r, id, place);
      }
      i := i + 1;
    }
  }

  /** The person an entry stands for: the first with `principal === true`, else the first of all. */
  function PrimaryPerson(personsRaw: seq<Value>): (p: Value)
    requires personsRaw != []
    ensures p in personsRaw
    ensures (exists i :: 0 <= i < |personsRaw| && Field(personsRaw[i], "principal") == Bool(true)) ==>
      Field(p, "principal") == Bool(true)
    ensures (forall i :: 0 <= i < |personsRaw| ==> Field(personsRaw[i], "principal") != Bool(true)) ==>
      p == personsRaw[0]
  {
    Find(personsRaw, (q: Value) => Field(q, "principal") == Bool(true)).GetOr(personsRaw[0])
  }

  /** A mapped person keeps its own `fsUrl`; an empty one is replaced by the details page. */
  function WithPersonUrl(p: Person): (q: Person)
    ensures q.fsUrl != ""
    ensures p.fsUrl != "" ==> q == p
    ensures q == p.(fsUrl := q.fsUrl)
  {
    if p.fsUrl == "" then p.(fsUrl := BuildPersonUrl(p.id)) else p
  }

  /** What the entry loop has built so far: the persons in entry order and the place cache. */
  datatype Collected = Collected(persons: seq<Person>, placeCache: seq<(Id, Place)>)

  /** One turn of the entry loop of `searchPersons`. */
  function EntryStep(acc: Collected, entry: Value, mapPerson: PersonMapper): Collected {
    var gedcom := EntryGedcom(entry);
    if !Truthy(gedcom) then acc
    else
      var cache := KeepFirst(acc.placeCache, CollectedPlaces(PlaceRecords(gedcom)));
      var personsRaw := ArrayOr(Field(gedcom, "persons"));
      if personsRaw == [] then Collected(acc.persons, cache)
      else
        match mapPerson(PrimaryPerson(personsRaw), cache)
        case None => Collected(acc.persons, cache)
        case Some(p) => Collected(acc.persons + [WithPersonUrl(p)], cache)
  }

  /** The entry loop over the remaining entries. */
  function CollectEntries(acc: Collected, entries: seq<Value>, mapPerson: PersonMapper): Collected
    decreases |entries|
  {
    if entries == [] then acc
    else CollectEntries(EntryStep(acc, entries[0], mapPerson), entries[1..], mapPerson)
  }

  /** One entry adds at most one person, with a non-empty `fsUrl`, and keeps every cached place. */
  lemma EntryStepGrows(acc: Collected, entry: Value, mapPerson: PersonMapper, id: Id)
    ensures var r := EntryStep(acc, entry, mapPerson);
      && |acc.persons| <= |r.persons| <= |acc.persons| + 1
      && r.persons[..|acc.persons|] == acc.persons
      && (|r.persons| > |acc.persons| ==> r.persons[|acc.persons|].fsUrl != "")
      && (Get(acc.placeCache, id).Some? ==> Get(r.placeCache, id) == Get(acc.placeCache, id))
  {
  }

  /** The entry loop only appends to the persons found so far, at most one person per entry. */
  lemma {:induction false} CollectEntriesAppends(acc: Collected, entries: seq<Value>, mapPerson: PersonMapper)
    ensures var r := CollectEntries(acc, entries, mapPerson);
      && |acc.persons| <= |r.persons| <= |acc.persons| + |entries|
      && r.persons[..|acc.persons|] == acc.persons
    decreases |entries|
  {
    if entries != [] {
      var next := EntryStep(acc, entries[0], mapPerson);
      EntryStepGrows(acc, entries[0], mapPerson, "");
      CollectEntriesAppends(next, entries[1..], mapPerson);
      PrefixOfPrefix(acc.persons, next.persons, CollectEntries(next, entries[1..], mapPerson).persons);
    }
  }

  /** Every person the entry loop adds has a non-empty `fsUrl`. */
  lemma {:induction false} CollectEntriesUrls(acc: Collected, entries: seq<Value>, mapPerson: PersonMapper)
    ensures var r := CollectEntries(acc, entries, mapPerson);
      forall i :: |acc.persons| <= i < |r.persons| ==> r.persons[i].fsUrl != ""
    decreases |entries|
  {
    if entries != [] {
      var next := EntryStep(acc, entries[0], mapPerson);
      EntryStepGrows(acc, entries[0], mapPerson, "");
      CollectEntriesUrls(next, entries[1..], mapPerson);
      CollectEntriesAppends(next, entries[1..], mapPerson);
      UrlsCarry(acc.persons, next.persons, CollectEntries(next, entries[1..], mapPerson).persons);
    }
  }

  /** A prefix of a prefix is a prefix. */
  lemma PrefixOfPrefix(a: seq<Person>, n: seq<Person>, r: seq<Person>)
    requires |a| <= |n| <= |r| && n[..|a|] == a && r[..|n|] == n
    ensures r[..|a|] == a
  {
    assert r[..|n|][..|a|] == r[..|a|];
  }

  /**
   * `n` adds to `a` at most one person, who has a URL, and `r` adds to `n` only persons with
   * URLs: then every person `r` adds to `a` has a URL.
   */
  lemma UrlsCarry(a: seq<Person>, n: seq<Person>, r: seq<Person>)
    requires |a| <= |n| <= |a| + 1 && n[..|a|] == a && (|n| > |a| ==> n[|a|].fsUrl != "")
    requires |n| <= |r| && r[..|n|] == n
    requires forall i :: |n| <= i < |r| ==> r[i].fsUrl != ""
    ensures forall i :: |a| <= i < |r| ==> r[i].fsUrl != ""
  {
    forall i | |a| <= i < |r| ensures r[i].fsUrl != "" {
      if i < |n| {
        assert r[i] == r[..|n|][i];
      }
    }
  }

  /** A place id already in the cache keeps its first place through the entry loop. */
  lemma {:induction false} CollectEntriesKeepsCached(acc: Collected, entries: seq<Value>, mapPerson: PersonMapper, id: Id)
    requires Get(acc.placeCache, id).Some?
    ensures Get(CollectEntries(acc, entries, mapPerson).placeCache, id) == Get(acc.placeCache, id)
    decreases |entries|
  {
    if entries != [] {
      EntryStepGrows(acc, entries[0], mapPerson, id);
      CollectEntriesKeepsCached(EntryStep(acc, entries[0], mapPerson), entries[1..], mapPerson, id);
    }
  }

  /** An entry without a gedcom body, or whose gedcom lists no persons, adds no person. */
  lemma SkippedEntry(acc: Collected, entry: Value, mapPerson: PersonMapper)
    requires !Truthy(EntryGedcom(entry)) || ArrayOr(Field(EntryGedcom(entry), "persons")) == []
    ensures EntryStep(acc, entry, mapPerson).persons == acc.persons
    ensures !Truthy(EntryGedcom(entry)) ==> EntryStep(acc, entry, mapPerson) == acc
  {
  }

  /** An entry whose primary person maps adds exactly that person, with its details URL if it had none. */
  lemma MappedEntry(acc: Collected, entry: Value, mapPerson: PersonMapper)
    requires Truthy(EntryGedcom(entry)) && ArrayOr(Field(EntryGedcom(entry), "persons")) != []
    requires var gedcom := EntryGedcom(entry);
      mapPerson(PrimaryPerson(ArrayOr(Field(gedcom, "persons"))),
                KeepFirst(acc.placeCache, CollectedPlaces(PlaceRecords(gedcom)))).Some?
    ensures var gedcom := EntryGedcom(entry);
      var p := mapPerson(PrimaryPerson(ArrayOr(Field(gedcom, "persons"))),
                         KeepFirst(acc.placeCache, CollectedPlaces(PlaceRecords(gedcom)))).value;
      EntryStep(acc, entry, mapPerson).persons == acc.persons + [WithPersonUrl(p)]
  {
  }

  const SearchFailure := "Falha ao buscar pessoas no FamilySearch: "

  /**
   * `searchPersons(params)` once the search request built from `params` has been answered with
   * `response`: the persons of the entries, ranked; an authorisation failure passes through,
   * any other is wrapped.
   */
  method SearchPersons(params: SearchParams, response: Fetch<Value>, mapPerson: PersonMapper)
    returns (r: Result<seq<MatchCandidate>, ClientError>)
    ensures && (response.FetchFailed? ==> r == Failure(Rethrow(SearchFailure, response.error)))
      && (response.Fetched? ==>
            var found := CollectEntries(Collected([], []), ArrayOr(Field(response.data, "entries")), mapPerson);
            && r.Success?
            && |r.value| == |found.persons|
            && multiset(Persons(r.value)) == multiset(found.persons)
            && SortedByScore(r.value)
            && r.value == SortByScore(EvaluateAll(params, QueryPlace(params, None), found.persons)))
  {
    if response.FetchFailed? {
      return Failure(Rethrow(SearchFailure, response.error));
    }
    var entries := ArrayOr(Field(response.data, "entries"));
    var persons: seq<Person> := [];
    var placeCache: seq<(Id, Place)> := [];
    var i := 0;
    while i < |entries|
      invariant 0 <= i <= |entries|
      invariant CollectEntries(Collected(persons, placeCache), entries[i..], mapPerson)
             == CollectEntries(Collected([], []), entries, mapPerson)
    {
      assert entries[i..][1..] == entries[i + 1..];
      var entry := entries[i];
      i := i + 1;
      var gedcom := EntryGedcom(entry);
      if !Truthy(gedcom) {
        continue;
      }
      var places := CollectPlacesFromGedcom(gedcom);
      placeCache := MergeNewPlaces(placeCache, places);
      var personsRaw := ArrayOr(Field(gedcom, "persons"));
      if |personsRaw| == 0 {
        continue;
      }
      var primaryPerson := PrimaryPerson(personsRaw);
      var person := mapPerson(primaryPerson, placeCache);
      if person.None? {
        continue;
      }
      var p := person.value;
      if p.fsUrl == "" {
        p := p.(fsUrl := BuildPersonUrl(p.id));
      }
      persons := persons + [p];
    }
    assert entries[i..] == [];
    var ranked := RankCandidates(params, persons, None);
    r := Success(ranked);
  }
}

=== FILE: seqs.dfy ===
/** The array methods the source relies on: `find`, `findIndex`, `filter` and `slice(0, n)`. */
module Seqs {
  import opened Wrappers

  /** `s.findIndex(p)`: the first position satisfying `p`, or -1. */
  function FindIndex<T>(s: seq<T>, p: T -> bool): (i: int)
    ensures -1 <= i < |s|
    ensures 0 <= i ==> p(s[i])
    ensures forall j :: 0 <= j < |s| && (i < 0 || j < i) ==> !p(s[j])
    decreases |s|
  {
    if s == [] then -1
    else if p(s[0]) then 0
    else
      var j := FindIndex(s[1..], p);
      assert forall k :: 1 <= k < |s| ==> s[k] == s[1..][k - 1];
      if j < 0 then -1 else j + 1
  }

  /** `s.find(p)`: the first element satisfying `p`, absent when there is none. */
  function Find<T>(s: seq<T>, p: T -> bool): (r: Option<T>)
    ensures r.None? <==> forall j :: 0 <= j < |s| ==> !p(s[j])
    ensures r.Some? ==> r.value in s && p(r.value)
  {
    var i := FindIndex(s, p);
    if i < 0 then None else Some(s[i])
  }

  /** `s.filter(p)`: the elements satisfying `p`, in order. */
  function Filter<T>(s: seq<T>, p: T -> bool): (r: seq<T>)
    ensures |r| <= |s|
    ensures forall i :: 0 <= i < |r| ==> r[i] in s && p(r[i])
    ensures forall i :: 0 <= i < |s| && p(s[i]) ==> s[i] in r
    decreases |s|
  {
    if s == [] then []
    else (if p(s[0]) then [s[0]] else []) + Filter(s[1..], p)
  }

  /** Filtering keeps every element satisfying `p` as often as it occurs, and drops the others. */
  lemma {:induction false} FilterCounts<T>(s: seq<T>, p: T -> bool, x: T)
    ensures p(x) ==> multiset(Filter(s, p))[x] == multiset(s)[x]
    ensures !p(x) ==> multiset(Filter(s, p))[x] == 0
    decreases |s|
  {
    if s != [] {
      FilterCounts(s[1..], p, x);
      assert s == [s[0]] + s[1..];
    }
  }

  /** The first element `find` returns is the one at the first position satisfying `p`. */
  lemma FindIsFirst<T>(s: seq<T>, p: T -> bool)
    ensures Find(s, p).Some? ==>
      exists i :: 0 <= i < |s| && s[i] == Find(s, p).value && forall j :: 0 <= j < i ==> !p(s[j])
  {
    var i := FindIndex(s, p);
    if 0 <= i {
      assert s[i] == Find(s, p).value;
    }
  }

  /**
   * The first value `f` gives along `s`: what a loop over `s` returns when it returns as soon
   * as `f` yields something, and undefined when it never does.
   */
  function FirstSome<T, U>(s: seq<T>, f: T -> Option<U>): (r: Option<U>)
    ensures r.None? <==> forall i :: 0 <= i < |s| ==> f(s[i]).None?
    ensures r.Some? ==> exists i :: (0 <= i < |s| && r == f(s[i])
      && forall j :: 0 <= j < i ==> f(s[j]).None?)
    decreases |s|
  {
    if s == [] then None
    else if f(s[0]).Some? then f(s[0])
    else
      var r := FirstSome(s[1..], f);
      assert forall k :: 1 <= k < |s| ==> s[k] == s[1..][k - 1];
      assert r.Some? ==> exists i :: (0 <= i < |s| && r == f(s[i])
        && forall j :: 0 <= j < i ==> f(s[j]).None?) by {
        if r.Some? {
          var i :| 0 <= i < |s[1..]| && r == f(s[1..][i]) && forall j :: 0 <= j < i ==> f(s[1..][j]).None?;
          assert r == f(s[i + 1]);
        }
      }
      r
  }

  /** One turn of that loop: the value at position `i`, else the search from `i + 1` on. */
  lemma FirstSomeStep<T, U>(s: seq<T>, f: T -> Option<U>, i: nat)
    requires i < |s|
    ensures FirstSome(s[i..], f) == if f(s[i]).Some? then f(s[i]) else FirstSome(s[i + 1..], f)
  {
    assert s[i..][1..] == s[i + 1..];
  }

  /** `s.map(f).filter(Boolean)` where `f` gives a value or nothing: the values, in order. */
  function SomeValues<T, U>(s: seq<T>, f: T -> Option<U>): (r: seq<U>)
    ensures |r| <= |s|
    ensures forall k :: 0 <= k < |r| ==> exists i :: 0 <= i < |s| && f(s[i]) == Some(r[k])
    decreases |s|
  {
    if s == [] then []
    else
      var head := if f(s[0]).Some? then [f(s[0]).value] else [];
      var rest := SomeValues(s[1..], f);
      forall k | 0 <= k < |head + rest|
        ensures exists i :: 0 <= i < |s| && f(s[i]) == Some((head + rest)[k])
      {
        if k < |head| {
          assert f(s[0]) == Some((head + rest)[k]);
        } else {
          assert (head + rest)[k] == rest[k - |head|];
          var i :| 0 <= i < |s[1..]| && f(s[1..][i]) == Some(rest[k - |head|]);
          assert f(s[i + 1]) == Some((head + rest)[k]);
        }
      }
      head + rest
  }

  /** Every value `f` gives is kept, and nothing is dropped exactly when `f` always gives one. */
  lemma {:induction false} SomeValuesComplete<T, U>(s: seq<T>, f: T -> Option<U>)
    ensures forall i :: 0 <= i < |s| && f(s[i]).Some? ==> f(s[i]).value in SomeValues(s, f)
    ensures |SomeValues(s, f)| == |s| <==> forall i :: 0 <= i < |s| ==> f(s[i]).Some?
    decreases |s|
  {
    if s != [] {
      var tail := s[1..];
      SomeValuesComplete(tail, f);
      forall i | 0 <= i < |s| && f(s[i]).Some?
        ensures f(s[i]).value in SomeValues(s, f)
      {
        if i > 0 {
          assert s[i] == tail[i - 1];
        }
      }
      if |SomeValues(s, f)| == |s| {
        assert f(s[0]).Some?;
        forall i | 0 <= i < |s|
          ensures f(s[i]).Some?
        {
          if i > 0 {
            assert s[i] == tail[i - 1];
          }
        }
      }
      if forall i :: 0 <= i < |s| ==> f(s[i]).Some? {
        forall i | 0 <= i < |tail|
          ensures f(tail[i]).Some?
        {
          assert tail[i] == s[i + 1];
        }
      }
    }
  }

  /** The values for two runs of elements are those of the first followed by those of the second. */
  lemma {:induction false} SomeValuesAppend<T, U>(a: seq<T>, b: seq<T>, f: T -> Option<U>)
    ensures SomeValues(a + b, f) == SomeValues(a, f) + SomeValues(b, f)
    decreases |a|
  {
    if a == [] {
      assert a + b == b;
    } else {
      assert (a + b)[0] == a[0] && (a + b)[1..] == a[1..] + b;
      SomeValuesAppend(a[1..], b, f);
    }
  }

  /** `r` is `s` with some elements left out and the rest kept in their order. */
  predicate Subsequence<T(==)>(r: seq<T>, s: seq<T>)
    decreases |s|
  {
    r == [] || (s != [] && ((r[0] == s[0] && Subsequence(r[1..], s[1..])) || Subsequence(r, s[1..])))
  }

  /** `filter` keeps the order of what it keeps. */
  lemma {:induction false} FilterSubsequence<T>(s: seq<T>, p: T -> bool)
    ensures Subsequence(Filter(s, p), s)
    decreases |s|
  {
    if s != [] {
      FilterSubsequence(s[1..], p);
      if p(s[0]) {
        assert Filter(s, p)[1..] == Filter(s[1..], p);
      } else {
        assert Filter(s, p) == Filter(s[1..], p);
      }
    }
  }

  /** A prefix of a subsequence is a subsequence. */
  lemma {:induction false} SubsequencePrefix<T>(r: seq<T>, s: seq<T>, k: nat)
    requires Subsequence(r, s) && k <= |r|
    ensures Subsequence(r[..k], s)
    decreases |s|
  {
    if k > 0 {
      if r[0] == s[0] && Subsequence(r[1..], s[1..]) {
        SubsequencePrefix(r[1..], s[1..], k - 1);
        assert r[..k][1..] == r[1..][..k - 1];
      } else {
        SubsequencePrefix(r, s[1..], k);
      }
    }
  }

  /** Filtering by a test every element passes changes nothing. */
  lemma {:induction false} FilterAll<T>(s: seq<T>, p: T -> bool)
    requires forall i :: 0 <= i < |s| ==> p(s[i])
    ensures Filter(s, p) == s
    decreases |s|
  {
    if s != [] {
      FilterAll(s[1..], p);
      assert s == [s[0]] + s[1..];
    }
  }

  /** `s.slice(0, n)`. */
  function Take<T>(s: seq<T>, n: nat): (r: seq<T>)
    ensures |r| <= n && |r| <= |s|
    ensures |s| <= n ==> r == s
    ensures n < |s| ==> |r| == n
    ensures forall i :: 0 <= i < |r| ==> r[i] == s[i]
  {
    if |s| <= n then s else s[..n]
  }

  /** An element before position `n` is in the prefix of length `n`. */
  lemma PrefixHas<T>(s: seq<T>, n: nat, j: nat)
    requires n <= |s| && j < |s|
    ensures j < n ==> s[j] in s[..n]
  {
    if j < n {
      assert s[..n][j] == s[j];
    }
  }

  predicate Distinct<T(==)>(s: seq<T>) {
    forall i, j :: 0 <= i < j < |s| ==> s[i] != s[j]
  }

  /** `Array.from(new Set(s))`: the elements of `s` once each, in order of first occurrence. */
  function Dedup<T(==)>(s: seq<T>): (r: seq<T>)
    ensures Distinct(r)
    ensures forall i :: 0 <= i < |r| ==> r[i] in s
    ensures forall i :: 0 <= i < |s| ==> s[i] in r
    decreases |s|
  {
    if s == [] then []
    else
      var d := Dedup(s[..|s| - 1]);
      var x := s[|s| - 1];
      assert s == s[..|s| - 1] + [x];
      if x in d then d else d + [x]
  }

  /** A sequence without repetitions goes through a `Set` unchanged. */
  lemma {:induction false} DedupOfDistinct<T>(s: seq<T>)
    requires Distinct(s)
    ensures Dedup(s) == s
    decreases |s|
  {
    if s != [] {
      DedupOfDistinct(s[..|s| - 1]);
      assert s == s[..|s| - 1] + [s[|s| - 1]];
    }
  }

  /**
   * `Array.from(new Set(s).add(x))`: `s` without repetitions and with `x`; on a sequence without
   * repetitions, `x` goes last unless it is already there.
   */
  function SetAdd<T(==)>(s: seq<T>, x: T): (r: seq<T>)
    ensures Distinct(r)
    ensures forall i :: 0 <= i < |r| ==> r[i] in s || r[i] == x
    ensures forall i :: 0 <= i < |s| ==> s[i] in r
    ensures x in r
    ensures Distinct(s) ==> r == if x in s then s else s + [x]
  {
    assert (s + [x])[..|s|] == s;
    if Distinct(s) then
      DedupOfDistinct(s);
      Dedup(s + [x])
    else
      Dedup(s + [x])
  }
}

=== FILE: session.dfy ===
/**
 * The signed-cookie session of the web app (src/lib/session.ts): what it holds about a pending
 * OAuth sign-in and a linked FamilySearch account, when the stored token counts as expired, and
 * how the account is unlinked. The clock is a parameter: `now` is `Date.now()` in milliseconds.
 */
module Session {
  import opened Wrappers

  /** A sign-in started but not finished: the PKCE verifier and the OAuth `state` sent out. */
  datatype PendingAuth = PendingAuth(verifier: string, state: string, redirectTo: Option<string>, createdAt: int)

  /** The tokens of a linked FamilySearch account; `expiresAt` is in milliseconds. */
  datatype FamilySearchAuth = FamilySearchAuth(
    accessToken: string,
    refreshToken: Option<string>,
    scope: string,
    tokenType: string,
    expiresAt: int,
    idToken: Option<string>,
    personId: Option<string>,
    displayName: Option<string>,
    lastLinkedAt: int)

  /** A token is refreshed one minute before it runs out. */
  const RefreshMargin := 60_000

  /**
   * `isTokenExpired(auth)`: no account counts as expired; an account as soon as less than a
   * minute is left before its token runs out.
   */
  function IsTokenExpired(auth: Option<FamilySearchAuth>, now: int): (r: bool)
    ensures auth.None? ==> r
    ensures auth.Some? ==> (r <==> auth.value.expiresAt - now < RefreshMargin)
  {
    if auth.None? then true else auth.value.expiresAt - now < RefreshMargin
  }

  /** Expiry is never undone by time passing: expired now means expired at every later time. */
  lemma ExpiryIsMonotone(auth: Option<FamilySearchAuth>, now: int, later: int)
    requires now <= later && IsTokenExpired(auth, now)
    ensures IsTokenExpired(auth, later)
  {
  }

  /** A token not counted as expired still has at least a minute to run. */
  lemma FreshTokenOutlivesMargin(auth: Option<FamilySearchAuth>, now: int)
    requires !IsTokenExpired(auth, now)
    ensures auth.Some? && auth.value.expiresAt >= now + RefreshMargin
  {
  }

  /** The data a session cookie carries (`AppSessionData`). */
  class AppSession {
    var pendingAuth: Option<PendingAuth>
    var familySearch: Option<FamilySearchAuth>

    /** A session with nothing in it yet. */
    constructor ()
      ensures pendingAuth == None && familySearch == None
    {
      pendingAuth := None;
      familySearch := None;
    }

    /** Whether the linked account's token must be refreshed before use. */
    predicate NeedsRefresh(now: int)
      reads this
    {
      IsTokenExpired(familySearch, now)
    }

    /**
     * `clearAuth(session)`: forgets the linked account and keeps a pending sign-in, so the
     * session counts as expired from then on, whatever the time.
     */
    method ClearAuth()
      modifies this
      ensures familySearch == None && pendingAuth == old(pendingAuth)
      ensures forall now :: NeedsRefresh(now)
    {
      familySearch := None;
    }
  }
}

=== FILE: text.dfy ===
/**
 * Strings as JavaScript sees them: the white-space class `\s`, `trim`, `split`,
 * `includes`, `startsWith`, `endsWith`, `lastIndexOf`, `String(n)` of an integer,
 * and small stand-ins for the Unicode operations the source relies on
 * (`toLowerCase`, `normalize('NFD')`, `\p{Diacritic}`).
 */
module Text {

  // ---------------------------------------------------------------- character classes

  /** The characters JavaScript's `\s` matches and `trim()` removes. */
  predicate IsSpace(c: char) {
    var n := c as int;
    (9 <= n <= 13) || n == 32 || n == 0xA0 || n == 0x1680 || (0x2000 <= n <= 0x200A)
    || n == 0x2028 || n == 0x2029 || n == 0x202F || n == 0x205F || n == 0x3000 || n == 0xFEFF
  }

  predicate IsLowerLetter(c: char) { 'a' <= c <= 'z' }

  predicate IsUpperLetter(c: char) { 'A' <= c <= 'Z' }

  predicate IsDigit(c: char) { '0' <= c <= '9' }

  predicate IsAsciiAlnum(c: char) { IsLowerLetter(c) || IsUpperLetter(c) || IsDigit(c) }

  // ---------------------------------------------------------------- Unicode stand-ins

  /**
   * `toLowerCase` on one character, for ASCII and Latin-1 (U+00C0..U+00DE except U+00D7).
   * Case mapping outside Latin-1 is not modelled.
   */
  function LowerChar(c: char): (r: char)
    ensures IsUpperLetter(c) ==> IsLowerLetter(r)
    ensures !IsUpperLetter(c) && c as int < 0xC0 ==> r == c
  {
    if IsUpperLetter(c) then (c as int + 32) as char
    else if 0xC0 <= c as int <= 0xDE && c as int != 0xD7 then (c as int + 32) as char
    else c
  }

  /** `s.toLowerCase()`, character by character. */
  function Lower(s: string): (r: string)
    ensures |r| == |s|
    ensures forall i :: 0 <= i < |s| ==> r[i] == LowerChar(s[i])
  {
    seq(|s|, i requires 0 <= i < |s| => LowerChar(s[i]))
  }

  /** Base letters of the precomposed Latin-1 letters U+00C0..U+00FF ('.' where there is none). */
  const LatinBases: string := "AAAAAA.CEEEEIIII.NOOOOO..UUUUY..aaaaaa.ceeeeiiii.nooooo..uuuuy.y"

  /** The combining mark (offset from U+0300) that follows the base letter, or -1. */
  const LatinMarks: seq<int> :=
    [0x00, 0x01, 0x02, 0x03, 0x08, 0x0A, -1, 0x27, 0x00, 0x01, 0x02, 0x08, 0x00, 0x01, 0x02, 0x08,
     -1, 0x03, 0x00, 0x01, 0x02, 0x03, 0x08, -1, -1, 0x00, 0x01, 0x02, 0x08, 0x01, -1, -1,
     0x00, 0x01, 0x02, 0x03, 0x08, 0x0A, -1, 0x27, 0x00, 0x01, 0x02, 0x08, 0x00, 0x01, 0x02, 0x08,
     -1, 0x03, 0x00, 0x01, 0x02, 0x03, 0x08, -1, -1, 0x00, 0x01, 0x02, 0x08, 0x01, -1, 0x08]

  /** Canonical decomposition (NFD) of one character, for the precomposed Latin-1 letters only. */
  function DecomposeChar(c: char): (r: seq<char>)
    ensures c as int < 0xC0 ==> r == [c]
  {
    var n := c as int;
    if 0xC0 <= n <= 0xFF && LatinBases[n - 0xC0] != '.' && 0 <= LatinMarks[n - 0xC0] < 0x70 then
      [LatinBases[n - 0xC0], (0x300 + LatinMarks[n - 0xC0]) as char]
    else [c]
  }

  /** `s.normalize('NFD')`, limited to what DecomposeChar covers. */
  function Decompose(s: string): (r: string)
    ensures (forall i :: 0 <= i < |s| ==> s[i] as int < 0xC0) ==> r == s
  {
    if s == [] then [] else DecomposeChar(s[0]) + Decompose(s[1..])
  }

  /**
   * Part of Unicode's Diacritic property: the ASCII and Latin-1 spacing accents and the
   * Diacritic ranges of the combining-marks block U+0300..U+036F.
   */
  predicate IsDiacritic(c: char) {
    var n := c as int;
    n == 0x5E || n == 0x60 || n == 0xA8 || n == 0xAF || n == 0xB4 || n == 0xB7 || n == 0xB8
    || (0x300 <= n <= 0x34E) || (0x350 <= n <= 0x357) || (0x35D <= n <= 0x362)
  }

  /** `s.replace(/\p{Diacritic}+/gu, '')`. */
  function StripDiacritics(s: string): (r: string)
    ensures forall i :: 0 <= i < |r| ==> !IsDiacritic(r[i])
    ensures (forall i :: 0 <= i < |s| ==> !IsDiacritic(s[i])) ==> r == s
  {
    if s == [] then []
    else if IsDiacritic(s[0]) then StripDiacritics(s[1..])
    else [s[0]] + StripDiacritics(s[1..])
  }

  // ---------------------------------------------------------------- prefixes, suffixes, substrings

  predicate StartsWith(s: string, prefix: string) {
    |prefix| <= |s| && s[..|prefix|] == prefix
  }

  predicate EndsWith(s: string, suffix: string) {
    |suffix| <= |s| && s[|s| - |suffix|..] == suffix
  }

  /** `s.includes(sub)`. */
  predicate Contains(s: string, sub: string)
    decreases |s|
  {
    StartsWith(s, sub) || (s != [] && Contains(s[1..], sub))
  }

  lemma {:induction false} ContainsAt(s: string, sub: string, i: nat)
    requires i + |sub| <= |s| && s[i..i + |sub|] == sub
    ensures Contains(s, sub)
    decreases i
  {
    if i > 0 {
      assert s[1..][i - 1..i - 1 + |sub|] == sub;
      ContainsAt(s[1..], sub, i - 1);
    } else {
      assert s[..|sub|] == sub;
    }
  }

  lemma {:induction false} ContainsWitness(s: string, sub: string) returns (i: nat)
    requires Contains(s, sub)
    ensures i + |sub| <= |s| && s[i..i + |sub|] == sub
    decreases |s|
  {
    if StartsWith(s, sub) {
      i := 0;
    } else {
      var j := ContainsWitness(s[1..], sub);
      assert s[1..][j..j + |sub|] == s[j + 1..j + 1 + |sub|];
      i := j + 1;
    }
  }

  /** `includes` is transitive: a string containing `a` contains everything `a` contains. */
  lemma ContainsTransitive(s: string, a: string, b: string)
    requires Contains(s, a) && Contains(a, b)
    ensures Contains(s, b)
  {
    var i := ContainsWitness(s, a);
    var j := ContainsWitness(a, b);
    forall k | 0 <= k < |a| ensures s[i + k] == a[k] {
      assert s[i..i + |a|][k] == s[i + k];
    }
    assert s[i + j..i + j + |b|] == a[j..j + |b|];
    ContainsAt(s, b, i + j);
  }

  lemma ContainsSelf(s: string)
    ensures Contains(s, s)
  {
    assert s[..|s|] == s;
  }

  /** A string lacking some character of `sub` does not contain `sub`. */
  lemma ContainsNeedsChar(s: string, sub: string, c: char)
    requires c in sub && c !in s
    ensures !Contains(s, sub)
  {
    if Contains(s, sub) {
      var i := ContainsWitness(s, sub);
    }
  }

  // ---------------------------------------------------------------- trimming and collapsing

  /** Every character of `s` satisfies `p`. */
  predicate AllSatisfy(s: string, p: char -> bool) {
    forall i :: 0 <= i < |s| ==> p(s[i])
  }

  /** Length of the longest prefix whose characters satisfy `p`. */
  function LeadingCount(s: string, p: char -> bool): (n: nat)
    ensures n <= |s|
    ensures forall i :: 0 <= i < n ==> p(s[i])
    ensures n < |s| ==> !p(s[n])
    decreases |s|
  {
    if s == [] || !p(s[0]) then 0
    else
      var n := LeadingCount(s[1..], p);
      assert forall i :: 1 <= i < n + 1 ==> s[i] == s[1..][i - 1];
      n + 1
  }

  /** Start of the longest suffix whose characters satisfy `p`. */
  function TrailingStart(s: string, p: char -> bool): (n: nat)
    ensures n <= |s|
    ensures forall i :: n <= i < |s| ==> p(s[i])
    ensures 0 < n ==> !p(s[n - 1])
    decreases |s|
  {
    if s == [] || !p(s[|s| - 1]) then |s|
    else TrailingStart(s[..|s| - 1], p)
  }

  /**
   * Removes leading and trailing characters satisfying `p`; what remains is the contiguous part
   * of `s` that starts where the leading run ends.
   */
  function TrimBy(s: string, p: char -> bool): (r: string)
    ensures LeadingCount(s, p) + |r| <= |s|
    ensures r == s[LeadingCount(s, p)..LeadingCount(s, p) + |r|]
    ensures r != [] ==> !p(r[0]) && !p(r[|r| - 1])
    ensures r == [] <==> AllSatisfy(s, p)
  {
    var a := LeadingCount(s, p);
    var b := TrailingStart(s, p);
    if a < b then
      assert !p(s[a]);
      s[a..b]
    else
      []
  }

  /** A string that neither starts nor ends with a `p` character is its own trim. */
  lemma TrimByUnchanged(s: string, p: char -> bool)
    requires s != [] ==> !p(s[0]) && !p(s[|s| - 1])
    ensures TrimBy(s, p) == s
  {
    if s != [] {
      assert LeadingCount(s, p) == 0;
      assert TrailingStart(s, p) == |s|;
    }
  }

  /**
   * When the last character and the one at `k` are kept, trimming only drops a leading run,
   * and that run ends at or before `k`.
   */
  lemma TrimByKeepsEnd(s: string, p: char -> bool, k: nat)
    requires k < |s| && !p(s[k]) && !p(s[|s| - 1])
    ensures LeadingCount(s, p) <= k
    ensures TrimBy(s, p) == s[LeadingCount(s, p)..]
  {
    assert TrailingStart(s, p) == |s|;
  }

  /** `s.trim()`. */
  function Trim(s: string): string {
    TrimBy(s, IsSpace)
  }

  /** Replaces every maximal run of characters satisfying `p` by the single character `rep`. */
  function CollapseRuns(s: string, p: char -> bool, rep: char): (r: string)
    ensures s == [] <==> r == []
    ensures s != [] && p(s[0]) ==> r[0] == rep
    ensures s != [] && !p(s[0]) ==> r[0] == s[0]
    ensures forall i :: 0 <= i < |r| ==> r[i] == rep || (r[i] in s && !p(r[i]))
    ensures forall i :: 0 <= i < |r| - 1 ==> !(p(r[i]) && p(r[i + 1]))
    decreases |s|
  {
    if s == [] then []
    else if p(s[0]) then [rep] + CollapseRuns(s[1..][LeadingCount(s[1..], p)..], p, rep)
    else [s[0]] + CollapseRuns(s[1..], p, rep)
  }

  /** A string with no two adjacent `p` characters, whose only `p` character is `rep`, is unchanged by collapsing. */
  lemma {:induction false} CollapseRunsFixed(s: string, p: char -> bool, rep: char)
    requires forall i :: 0 <= i < |s| && p(s[i]) ==> s[i] == rep
    requires forall i :: 0 <= i < |s| - 1 ==> !(p(s[i]) && p(s[i + 1]))
    ensures CollapseRuns(s, p, rep) == s
    decreases |s|
  {
    if s != [] {
      if p(s[0]) && |s| > 1 {
        assert !p(s[1]);
        assert LeadingCount(s[1..], p) == 0;
      }
      CollapseRunsFixed(s[1..], p, rep);
    }
  }

  /** Collapsing keeps a final character that is not in a run. */
  lemma {:induction false} CollapseRunsLast(s: string, p: char -> bool, rep: char)
    requires s != [] && !p(s[|s| - 1])
    ensures CollapseRuns(s, p, rep) != []
    ensures CollapseRuns(s, p, rep)[|CollapseRuns(s, p, rep)| - 1] == s[|s| - 1]
    decreases |s|
  {
    if p(s[0]) {
      var t := s[1..];
      var n := LeadingCount(t, p);
      assert t[|t| - 1] == s[|s| - 1];
      CollapseRunsLast(t[n..], p, rep);
    } else if |s| > 1 {
      CollapseRunsLast(s[1..], p, rep);
    }
  }

  // ---------------------------------------------------------------- splitting and joining

  /** `s.split(sep)` for a one-character separator: always at least one piece. */
  function SplitOn(s: string, sep: char): (r: seq<string>)
    ensures |r| >= 1
    ensures forall k :: 0 <= k < |r| ==> sep !in r[k]
    decreases |s|
  {
    if s == [] then [""]
    else
      var rest := SplitOn(s[1..], sep);
      if s[0] == sep then [""] + rest
      else [[s[0]] + rest[0]] + rest[1..]
  }

  /** `parts.join(sep)`. */
  function Join(parts: seq<string>, sep: string): (r: string)
    ensures parts == [] ==> r == []
    ensures parts != [] ==> StartsWith(r, parts[0])
  {
    if parts == [] then ""
    else if |parts| == 1 then parts[0]
    else parts[0] + sep + Join(parts[1..], sep)
  }

  /** Splitting and joining on the same separator gives the string back. */
  lemma {:induction false} JoinSplitOn(s: string, sep: char)
    ensures Join(SplitOn(s, sep), [sep]) == s
    decreases |s|
  {
    if s != [] {
      var rest := SplitOn(s[1..], sep);
      JoinSplitOn(s[1..], sep);
      if s[0] == sep {
        assert SplitOn(s, sep) == [""] + rest;
      } else {
        if |rest| == 1 {
        } else {
          assert Join(rest, [sep]) == rest[0] + [sep] + Join(rest[1..], [sep]);
          assert ([[s[0]] + rest[0]] + rest[1..])[1..] == rest[1..];
        }
      }
    }
  }

  /** The first piece of a split is empty exactly when the string is empty or starts with the separator. */
  lemma {:induction false} SplitOnFirstEmpty(s: string, sep: char)
    ensures SplitOn(s, sep)[0] == "" <==> (s == [] || s[0] == sep)
  {
  }

  /** Without two adjacent separators or a trailing one, only the first piece of a split may be empty. */
  lemma {:induction false} SplitOnLaterPiecesNonEmpty(s: string, sep: char)
    requires s == [] || s[|s| - 1] != sep
    requires forall i :: 0 <= i < |s| - 1 ==> !(s[i] == sep && s[i + 1] == sep)
    ensures forall k :: 1 <= k < |SplitOn(s, sep)| ==> SplitOn(s, sep)[k] != ""
    decreases |s|
  {
    if s != [] {
      var t := s[1..];
      SplitOnLaterPiecesNonEmpty(t, sep);
      SplitOnFirstEmpty(t, sep);
    }
  }

  /** A string without the separator splits into itself alone. */
  lemma {:induction false} SplitOnAbsent(s: string, sep: char)
    requires sep !in s
    ensures SplitOn(s, sep) == [s]
    decreases |s|
  {
    if s != [] {
      SplitOnAbsent(s[1..], sep);
      assert [s[0]] + s[1..] == s;
    }
  }

  /** A string holding the separator exactly once splits into the two sides. */
  lemma {:induction false} SplitOnOnce(a: string, b: string, sep: char)
    requires sep !in a && sep !in b
    ensures SplitOn(a + [sep] + b, sep) == [a, b]
    decreases |a|
  {
    var s := a + [sep] + b;
    if a == [] {
      assert s[1..] == b;
      SplitOnAbsent(b, sep);
    } else {
      assert s[1..] == a[1..] + [sep] + b;
      SplitOnOnce(a[1..], b, sep);
      assert [a[0]] + a[1..] == a;
    }
  }

  /** Joining all pieces but the last, then the last after one more separator, joins them all. */
  lemma {:induction false} JoinSnoc(parts: seq<string>, sep: string)
    requires |parts| >= 2
    ensures Join(parts[..|parts| - 1], sep) + sep + parts[|parts| - 1] == Join(parts, sep)
    decreases |parts|
  {
    if |parts| > 2 {
      JoinSnoc(parts[1..], sep);
      assert parts[1..][..|parts| - 2] == parts[..|parts| - 1][1..];
    }
  }

  /**
   * The last piece of a split is what follows the last separator: a suffix of the string that
   * is either the whole string or preceded by the separator.
   */
  lemma {:induction false} SplitOnLastPiece(s: string, sep: char)
    ensures var p := SplitOn(s, sep); var l := p[|p| - 1];
      EndsWith(s, l) && (|l| == |s| || s[|s| - |l| - 1] == sep)
    decreases |s|
  {
    if s != [] {
      var rest := SplitOn(s[1..], sep);
      SplitOnLastPiece(s[1..], sep);
      var lr := rest[|rest| - 1];
      assert s[1..][|s| - 1 - |lr|..] == s[|s| - |lr|..];
      if s[0] != sep && |rest| == 1 {
        if |lr| < |s| - 1 {
          assert sep in s[1..] by {
            assert s[1..][|s| - 1 - |lr| - 1] == sep;
          }
          SplitOnSeveral(s[1..], sep);
          assert false;
        }
        assert s[1..] == lr;
        assert SplitOn(s, sep) == [[s[0]] + lr];
        assert [s[0]] + lr == s;
        assert EndsWith(s, s) by {
          assert s[|s| - |s|..] == s;
        }
      } else {
        assert SplitOn(s, sep)[|SplitOn(s, sep)| - 1] == lr;
        if |lr| == |s| - 1 && s[0] != sep {
          assert s[1..] == lr;
          SplitOnAbsent(s[1..], sep);
          assert false;
        }
      }
    }
  }

  /** A string the separator occurs in splits into at least two pieces. */
  lemma SplitOnSeveral(s: string, sep: char)
    requires sep in s
    ensures |SplitOn(s, sep)| >= 2
  {
    JoinSplitOn(s, sep);
  }

  /** The longest prefix of `s` with no character satisfying `p`. */
  function TakeUntil(s: string, p: char -> bool): (r: string)
    ensures |r| <= |s| && r == s[..|r|]
    ensures forall i :: 0 <= i < |r| ==> !p(r[i])
    ensures |r| < |s| ==> p(s[|r|])
    decreases |s|
  {
    if s == [] || p(s[0]) then [] else [s[0]] + TakeUntil(s[1..], p)
  }

  /** No character of `w` satisfies `isSep`. */
  predicate NoneSatisfy(w: string, isSep: char -> bool) {
    forall i :: 0 <= i < |w| ==> !isSep(w[i])
  }

  /**
   * `s.split(/[seps]+/).filter(Boolean)`: the maximal runs of characters that are not
   * separators, in order.
   */
  function Words(s: string, isSep: char -> bool): (r: seq<string>)
    ensures forall k :: 0 <= k < |r| ==> r[k] != [] && NoneSatisfy(r[k], isSep)
    decreases |s|
  {
    if s == [] then []
    else if isSep(s[0]) then Words(s[1..], isSep)
    else
      var w := TakeUntil(s, isSep);
      assert w != [] && NoneSatisfy(w, isSep);
      var rest := Words(s[|w|..], isSep);
      assert forall k :: 1 <= k < |[w] + rest| ==> ([w] + rest)[k] == rest[k - 1];
      [w] + rest
  }

  /** `s.lastIndexOf(c)`: -1 when absent. */
  function LastIndexOf(s: string, c: char): (r: int)
    ensures -1 <= r < |s|
    ensures r >= 0 ==> s[r] == c
    ensures forall i :: r < i < |s| ==> s[i] != c
  {
    if s == [] then -1
    else if s[|s| - 1] == c then |s| - 1
    else LastIndexOf(s[..|s| - 1], c)
  }

  // ---------------------------------------------------------------- decimal numbers

  function DigitChar(d: nat): (c: char)
    requires d < 10
    ensures IsDigit(c)
  {
    ('0' as int + d) as char
  }

  function DigitValue(c: char): (d: nat)
    requires IsDigit(c)
    ensures d < 10
  {
    c as int - '0' as int
  }

  predicate AllDigits(s: string) {
    forall i :: 0 <= i < |s| ==> IsDigit(s[i])
  }

  /** The decimal digits of `n`, without leading zeros. */
  function NatString(n: nat): (r: string)
    ensures r != [] && AllDigits(r)
    decreases n
  {
    if n < 10 then [DigitChar(n)] else NatString(n / 10) + [DigitChar(n % 10)]
  }

  /** `String(n)` for an integer. */
  function IntString(n: int): (r: string)
    ensures r != []
    ensures n >= 0 ==> AllDigits(r)
    ensures n < 0 ==> r[0] == '-' && AllDigits(r[1..])
  {
    if n < 0 then "-" + NatString(-n) else NatString(n)
  }

  /** `Number.parseInt(s, 10)` for a string of decimal digits. */
  function ParseNat(s: string): (n: nat)
    requires AllDigits(s)
    decreases |s|
  {
    if s == [] then 0 else ParseNat(s[..|s| - 1]) * 10 + DigitValue(s[|s| - 1])
  }

  function Pow10(k: nat): (r: nat)
    ensures r >= 1
  {
    if k == 0 then 1 else 10 * Pow10(k - 1)
  }

  /** A string of k digits denotes a number below 10^k. */
  lemma {:induction false} ParseNatBound(s: string)
    requires AllDigits(s)
    ensures ParseNat(s) < Pow10(|s|)
    decreases |s|
  {
    if s != [] {
      ParseNatBound(s[..|s| - 1]);
    }
  }

  /** Printing a natural number and parsing it back gives the number. */
  lemma {:induction false} ParseNatString(n: nat)
    ensures ParseNat(NatString(n)) == n
    decreases n
  {
    if n >= 10 {
      ParseNatString(n / 10);
      var s := NatString(n);
      assert s[..|s| - 1] == NatString(n / 10);
    }
  }

  /** The sign and digits of `String(n)` give `n` back. */
  lemma IntStringRoundTrip(n: int)
    ensures n >= 0 ==> ParseNat(IntString(n)) == n
    ensures n < 0 ==> ParseNat(IntString(n)[1..]) == -n
  {
    if n >= 0 {
      ParseNatString(n);
    } else {
      assert IntString(n)[1..] == NatString(-n);
      ParseNatString(-n);
    }
  }
}

=== FILE: uri.dfy ===
/** `encodeURIComponent`: UTF-8 percent-encoding of everything but the unreserved characters. */
module Uri {
  import opened Text

  /** The characters `encodeURIComponent` leaves as they are. */
  predicate IsUnreserved(c: char) {
    IsAsciiAlnum(c) || c in "-_.!~*'()"
  }

  predicate IsUpperHex(c: char) {
    IsDigit(c) || 'A' <= c <= 'F'
  }

  function HexDigit(d: nat): (c: char)
    requires d < 16
    ensures IsUpperHex(c)
  {
    "0123456789ABCDEF"[d]
  }

  /** `%XY` for one byte. */
  function PercentByte(b: nat): (r: string)
    requires b < 256
    ensures |r| == 3 && r[0] == '%' && IsUpperHex(r[1]) && IsUpperHex(r[2])
  {
    ['%', HexDigit(b / 16), HexDigit(b % 16)]
  }

  /** The UTF-8 encoding of a Unicode scalar value. */
  function Utf8(n: nat): (bytes: seq<nat>)
    ensures 1 <= |bytes| <= 4
    ensures forall i :: 0 <= i < |bytes| ==> bytes[i] < 256
  {
    if n < 0x80 then [n]
    else if n < 0x800 then [0xC0 + n / 64 % 32, 0x80 + n % 64]
    else if n < 0x10000 then [0xE0 + n / 4096 % 16, 0x80 + n / 64 % 64, 0x80 + n % 64]
    else [0xF0 + n / 262144 % 8, 0x80 + n / 4096 % 64, 0x80 + n / 64 % 64, 0x80 + n % 64]
  }

  function PercentBytes(bytes: seq<nat>): (r: string)
    requires forall i :: 0 <= i < |bytes| ==> bytes[i] < 256
    ensures forall i :: 0 <= i < |r| ==> r[i] == '%' || IsUpperHex(r[i])
  {
    if bytes == [] then [] else PercentByte(bytes[0]) + PercentBytes(bytes[1..])
  }

  function EncodeChar(c: char): (r: string)
    ensures forall i :: 0 <= i < |r| ==> IsUnreserved(r[i]) || r[i] == '%' || IsUpperHex(r[i])
  {
    if IsUnreserved(c) then [c] else PercentBytes(Utf8(c as int))
  }

  /**
   * `encodeURIComponent(s)`. The result is made of unreserved characters and `%XY` escapes
   * only, so it can be no more than one path segment or query value.
   */
  function EncodeUriComponent(s: string): (r: string)
    ensures forall i :: 0 <= i < |r| ==> IsUnreserved(r[i]) || r[i] == '%'
    ensures (forall i :: 0 <= i < |s| ==> IsUnreserved(s[i])) ==> r == s
  {
    if s == [] then [] else EncodeChar(s[0]) + EncodeUriComponent(s[1..])
  }
}

=== FILE: web_normalization.dfy ===
/**
 * The web front end's copy of the normalisation library (web/src/services/normalization.ts).
 * Its `normalizeName` and `nameVariantMatch` are the same text as the main library's and are
 * modelled by `Normalization.NormalizeName` and `Normalization.NameVariantMatch`; only the
 * place rule differs: structured places only, with a 0.3 floor instead of text matching.
 */
module WebNormalization {
  import opened Wrappers
  import opened Domain
  import Normalization

  const FuzzyReason := "Lugar ~ (fuzzy próximo)"

  /** The web `placeMatchScore(queryPlace, candidatePlace)`. */
  function PlaceMatchScore(queryPlace: Option<Place>, candidatePlace: Option<Place>): (r: Scored)
    ensures queryPlace.None? || candidatePlace.None? ==> r == Scored(0.0, None)
    ensures r.reason.Some? <==> queryPlace.Some? && candidatePlace.Some?
    ensures queryPlace.Some? && candidatePlace.Some? ==> 0.3 <= r.score <= 1.0
    ensures (queryPlace.Some? && candidatePlace.Some? && queryPlace.value.id == candidatePlace.value.id)
              ==> r == Scored(1.0, Some(Normalization.SamePlaceReason))
    ensures r.score == 0.6 <==>
              queryPlace.Some? && candidatePlace.Some? && queryPlace.value.id != candidatePlace.value.id
              && Normalization.SharedJurisdiction(queryPlace.value, candidatePlace.value)
    ensures r.score == 0.3 ==> r.reason == Some(FuzzyReason)
  {
    if queryPlace.None? || candidatePlace.None? then Scored(0.0, None)
    else if queryPlace.value.id == candidatePlace.value.id then Scored(1.0, Some(Normalization.SamePlaceReason))
    else if Normalization.SharedJurisdiction(queryPlace.value, candidatePlace.value) then
      Scored(0.6, Some(Normalization.SameJurisdictionReason))
    else Scored(0.3, Some(FuzzyReason))
  }

  /**
   * On the structured rungs the two libraries agree; they differ only where the main one falls
   * back to text and the web one to its fixed 0.3.
   */
  lemma AgreesOnStructuredRungs(queryPlace: Place, candidatePlace: Place, queryText: Option<string>, candidateText: Option<string>)
    requires queryPlace.id == candidatePlace.id || Normalization.SharedJurisdiction(queryPlace, candidatePlace)
    ensures PlaceMatchScore(Some(queryPlace), Some(candidatePlace))
         == Normalization.PlaceMatchScore(Some(queryPlace), queryText, Some(candidatePlace), candidateText)
  {
  }
}

=== FILE: wrappers.dfy ===
/** Optional values and results, standing in for JavaScript's `undefined` and for thrown errors. */
module Wrappers {

  /** A value that may be absent (`undefined` or `null` in the source). */
  datatype Option<+T> = None | Some(value: T) {

    /** The value, or `default` when absent. */
    function GetOr(default: T): T {
      match this
      case Some(v) => v
      case None => default
    }
  }

  /** JavaScript's nullish coalescing `a ?? b`: `b` is used only when `a` is absent. */
  function Coalesce<T>(a: Option<T>, b: Option<T>): (r: Option<T>)
    ensures a.Some? ==> r == a
    ensures a.None? ==> r == b
  {
    if a.Some? then a else b
  }

  /** The outcome of an operation that may throw. */
  datatype Result<+R, +E> = Success(value: R) | Failure(error: E)
}
